=== FILE: README.md ===
# Testematch credit ledger

A Dafny model of the back end of Testematch, a personality-analysis service
built on Express and MongoDB. Users buy credits and spend them on analysis
jobs. An external workflow (n8n) settles each job and refunds it when it
fails. A payment provider (AppMax) reports payments, and those payments
credit the account.

The model covers:

- the four document schemas (User, Analysis, CreditTransaction, Plan);
- the request validators and the authentication guards;
- every route handler that reads or changes the ledger, plus the account
  and analysis routes around them.

## Design

**Store and ids.** The database is `Ledger.Db`: the four collections as
sequences. No handler ever hard-deletes a document, so a document's id is
its position, and a new document takes the next position.

**Handlers.** Each state-changing handler has two parts:

- a function on `Db` returning the new database and the reply (an HTTP
  status with a payload or an error);
- a method on the mutable `Ledger.Store` that performs the source's writes
  in order, and is proved equal to that function.

**Central invariant.** `Ledger.Balanced` says every balance equals the sum
of that user's completed ledger rows. The model proves which handlers keep
it. It also proves how the handlers break it when a notification is
delivered twice. The handlers have no idempotency guard, and the model
reproduces that as the code is written.

**External code as parameters.** Code the model cannot see becomes a
parameter:

- JWT verification: `verify`, the outcome `jwt.verify` would produce.
- bcrypt comparison: `matches`.
- The clock: `now`.
- Random tokens and passwords: `freshToken`, `tempPassword`.
- The email validators `isEmail` and `normalizeEmail`.
- The User schema's email regular expression: `emailPattern`.

**Where the code behaves differently from what its declarations suggest:**

- A login saves the loaded document. Mongoose then re-runs every validator
  on it. An account whose balance went negative (an `$inc` skips the
  `min: 0` rule) therefore gets 500 at login: `AuthRoute.NegativeBalanceBlocksLogin`.
- An account created by a payment notification gets a random placeholder
  password, hashed like any other, so logging in to it with anything else
  is a plain 401. Only an account stored without a password (no handler
  creates one) makes the hash comparison throw (500).
- Profile and settings updates go through `findByIdAndUpdate`, so the
  phone save hook does not run. An 11-digit phone from outside the state
  of Sao Paulo is stored with its ninth digit, unlike at registration:
  `AuthRoute.UpdateSkipsPhoneRewrite`.
- `validateUpload` admits only `basic` and `complete`, so the handler's own
  400 for any other plan is unreachable: `UploadRoute.PlanCheckUnreachable`.
- The AppMax validator admits only the English statuses, so the Portuguese
  entries of the status table never reach the handler through the route:
  `WebhookRoute.AliasesRejected`.

## Model

| member | source | states |
|---|---|---|
| UserModel.ParseUserPlan | src/models/User.js:50-54 | a plan string is accepted exactly when it names one of free, basic, complete, premium, and then maps back to itself |
| UserModel.NewUser | src/models/User.js:4-71 | a new account has the schema defaults (credits 0, plan free, active, isActive, default preferences) and trimmed name, phone and CPF, and a trimmed lower-case email |
| UserModel.NewUserSchema | src/models/User.js:5-49 | a new account passes validation exactly when its trimmed name is 2..50 characters, its email is non-empty, its password has at least 6 characters, its phone is 10 or 11 digits and its CPF 11 digits |
| UserModel.StripNonDigits | src/models/User.js:83 | removing the non-digits leaves only digits, never lengthens the string, and leaves an all-digit string unchanged |
| UserModel.NormalizePhoneShape | src/models/User.js:78-97 | an 11-digit number keeps its area code; it keeps all digits for area codes 11..19 and otherwise loses the character at index 2; any other input is returned as given, not even stripped |
| UserModel.NormalizePhoneIdempotent | src/models/User.js:77-99 | saving a phone twice rewrites it no further than saving it once |
| UserModel.NormalizeElevenDigits | src/models/User.js:85-96 | on 11 digits the rewrite keeps the number for a Sao Paulo area code and otherwise drops the digit at index 2 |
| UserModel.SaoPauloDDD | src/models/User.js:80 | a two-character area code is in the Sao Paulo list exactly when it is "1" followed by 1..9 |
| UserModel.ElevenDigitRule | src/models/User.js:78-96 | an 11-digit number is kept exactly when it starts with 1 and a non-zero digit, and otherwise loses the digit at index 2 |
| UserModel.PhoneVectorDDD62 | src/scripts/testPhoneProcessing.js:11 | 62998448536 becomes 6298448536 |
| UserModel.PhoneVectorDDD11 | src/scripts/testPhoneProcessing.js:12 | 11999884455 is kept |
| UserModel.PhoneVectorDDD16 | src/scripts/testPhoneProcessing.js:13 | 16999884455 is kept |
| UserModel.PhoneVectorDDD85 | src/scripts/testPhoneProcessing.js:14 | 85999884455 becomes 8599884455 |
| UserModel.PhoneVectorDDD21 | src/scripts/testPhoneProcessing.js:15 | 21999884455 becomes 2199884455 |
| UserModel.PreSavePhone | src/models/User.js:77-99 | the hook changes only the phone; it rewrites only a modified, non-empty phone, and an unmodified phone leaves the document as it was |
| UserModel.NormalizedPhoneKeepsShape | src/models/User.js:36 | a phone that passed the 10-or-11-digit rule still has 10 or 11 digits after the hook |
| UserModel.ToJsonHidesOnlyPassword | src/models/User.js:120-124 | two accounts serialize alike exactly when they differ at most in their password: the password never shows, and every other field does |
| AnalysisModel.ParseAnalysisStatus | src/models/Analysis.js:17-21 | a status string is accepted exactly when it names pending, processing, completed or failed, and then maps back to itself |
| AnalysisModel.NewAnalysis | src/models/Analysis.js:3-31 | a new job is pending and private, has no share token and an empty report, and records its owner, cost and plan |
| AnalysisModel.PreSave | src/models/Analysis.js:130-135 | the hook changes only the token; a public job always ends with a token, an existing token is never replaced, and a private job is left as it was |
| AnalysisModel.PreSaveStable | src/models/Analysis.js:130-135 | once a save has set the token, later saves never change it, whatever token they generate |
| CreditTransactionModel.ParseTxStatus | src/models/CreditTransaction.js:35-39 | a status string is storable exactly when it names pending, completed, failed or refunded, and then maps back to itself |
| CreditTransactionModel.ParseTxType | src/models/CreditTransaction.js:9-13 | a type string is accepted exactly when it names purchase, usage, refund or bonus, and then maps back to itself |
| CreditTransactionModel.TxStatusNamesRoundTrip | src/models/CreditTransaction.js:35-39 | parsing the name of a status gives that status back |
| PlanModel.NewPlan | src/models/Plan.js:3-51 | a new plan is active with sort order 0, no discount and no original price; it is storable exactly when name and description are present, the price is at least 0 and the credits at least 1 |
| Ledger.LedgerSumAppend | src/models/CreditTransaction.js:14-17 | appending a row changes a user's ledger sum by exactly that row's contribution |
| Ledger.LedgerSumUpdate | src/models/CreditTransaction.js:35-39 | rewriting one row swaps its old contribution for the new one in every user's ledger sum |
| Ledger.LedgerSumOthers | src/models/CreditTransaction.js:4-8 | rows that belong to other users never count towards a user's ledger sum |
| Ledger.BalancedAddUser | src/models/User.js:45-49 | adding an account with a zero balance and no rows keeps every balance equal to its ledger sum |
| Common.Filter | src/routes/credits.js:163 | a query keeps exactly the matching documents, each as often as it is stored, in stored order (a subsequence) |
| Common.SubsequenceGrow | src/routes/credits.js:163 | storing one more document, and keeping it or not, keeps a query's result in stored order |
| Ledger.RowsOf | src/routes/credits.js:17 | a user's rows are exactly that user's rows, each as often as it is stored, in stored order |
| Ledger.LedgerSumRowsOf | src/routes/credits.js:17 | a user's ledger sum over their own rows equals their sum over the whole ledger |
| Ledger.FirstIndex | src/routes/webhook.js:148 | a lookup finds the first document that matches, or reports that none does |
| Ledger.FindByEmail | src/routes/auth.js:24 | the email lookup finds an account whose stored email is the trimmed lower-cased query, or reports that no account has it |
| Ledger.FindByEmailAppend | src/routes/auth.js:24-48 | an account appended with an email no earlier account has is the one the lookup finds |
| Ledger.FindByCpf | src/routes/auth.js:32 | the CPF lookup finds an account whose CPF is the trimmed query, or reports that none has it |
| Ledger.FindPayment | src/routes/webhook.js:176-178 | the payment lookup finds the first row with that payment id, whoever owns it, or reports that there is none |
| Ledger.FindPaymentAppend | src/routes/webhook.js:176-194 | a row appended with a payment id no earlier row has is the one the payment lookup finds |
| Ledger.FindByCpfSameKeys | src/routes/webhook.js:148 | rewriting accounts without touching their CPFs leaves the CPF lookup unchanged |
| Ledger.Store.constructor | src/models/CreditTransaction.js:3-46 | the mutable store starts as the given database |
| Paging.PageCount | src/routes/credits.js:47 | the page count is the ceiling of total over limit (the least count whose pages hold every row); a zero limit gives none |
| Paging.Window | src/routes/credits.js:19-20 | a page holds the consecutive rows from the skip onwards, at most the limit of them (zero meaning no limit) |
| Paging.WindowSameLength | src/routes/credits.js:19-20 | windows over two listings of the same length have the same length |
| Paging.Paginate | src/routes/credits.js:13-14 | with skip (page-1)*limit, the reply succeeds exactly when the skip is not negative, and then holds that window, the total and the page count |
| Paging.RowOnItsPage | src/routes/credits.js:43-48 | with a positive limit, row i is item i mod limit of page i div limit + 1, and that page is within the page count |
| Paging.PageArith | src/routes/credits.js:14-47 | row i follows (i div limit) * limit skipped rows at offset i mod limit, on a page within the page count |
| Validation.HandleValidationErrors | src/middleware/validation.js:4-17 | the request passes exactly when there are no errors; otherwise the reply is 400 listing every error in order |
| Validation.CheckDigit | src/middleware/validation.js:70-71 | a check digit is always 0..9 |
| Validation.CheckCpf | src/middleware/validation.js:59-88 | the two accumulation loops accept a value exactly when it is not one repeated digit and both modulo-11 check digits match |
| Validation.CpfAccepted | src/middleware/validation.js:56-88 | a CPF passes exactly when it is 11 digits, not one repeated digit, and both check digits match |
| Validation.CheckDigitsDetermined | src/middleware/validation.js:65-85 | two accepted CPFs that share their first nine digits are equal |
| Validation.WithCheckDigits | src/middleware/validation.js:65-85 | appending the two computed check digits to nine digits gives 11 digits that satisfy both check-digit equations |
| Validation.CpfCompletion | src/middleware/validation.js:56-88 | every nine-digit prefix that is not one repeated digit has exactly one accepted completion |
| Validation.CpfExamples | src/middleware/validation.js:56-88 | 52998224725 is accepted; 52998224724 and 11111111111 are not |
| Validation.PhoneAccepted | src/middleware/validation.js:41-54 | a phone passes exactly when it is 10 or 11 digits with a 9 at index 2 |
| Validation.FirstLine | src/middleware/validation.js:38 | the text a lookahead can scan is the longest prefix without a line terminator |
| Validation.PasswordErrors | src/middleware/validation.js:35-39 | a password passes exactly when it has at least 6 characters and a lowercase letter, an uppercase letter and a digit before its first line break |
| Validation.PasswordAccepted | src/middleware/validation.js:35-39 | "Senha123" passes |
| Validation.PasswordDigitAfterBreak | src/middleware/validation.js:38 | a digit that only follows a line break does not satisfy the rule |
| Validation.NameErrors | src/middleware/validation.js:21-26 | a name passes exactly when, trimmed, it has 2..50 characters, all letters or spaces |
| Validation.EmailErrors | src/middleware/validation.js:28-33 | an email passes exactly when it is well formed and at most 100 characters after normalization |
| Validation.RegisterAccepted | src/middleware/validation.js:20-91 | a registration body passes exactly when every field passes its own chain |
| Validation.LoginErrors | src/middleware/validation.js:94-105 | a login body passes exactly when the email is well formed and the password non-empty |
| Validation.UploadErrors | src/middleware/validation.js:108-114 | an upload passes exactly when the plan is basic or complete |
| Validation.CreditsQueryErrors | src/middleware/validation.js:126-138 | a query passes exactly when a given page is at least 1 and a given limit lies in 1..100 |
| Validation.N8nErrors | src/middleware/validation.js:141-156 | an n8n body passes exactly when the id is well formed, the status is completed or failed, and a given result is an object |
| Validation.AppMaxErrors | src/middleware/validation.js:159-173 | an AppMax body passes exactly when the transaction id is non-empty, the status is one of the four English statuses and the amount is at least 0 |
| AuthMiddleware.FirstSpace | src/middleware/auth.js:8 | the first space found is a space, and none comes before it |
| AuthMiddleware.Split | src/middleware/auth.js:8 | splitting on spaces gives at least one part, and no part contains a space |
| AuthMiddleware.SplitJoin | src/middleware/auth.js:8 | joining the parts with single spaces gives back the header |
| AuthMiddleware.ExtractToken | src/middleware/auth.js:7-8 | an extracted token is the non-empty second part of the header |
| AuthMiddleware.BearerToken | src/middleware/auth.js:7-14 | a header of the form scheme, space, token yields that token |
| AuthMiddleware.AuthenticateToken | src/middleware/auth.js:5-51 | a request is authenticated exactly when a token is present, verifies, and names an existing active user, and then as that user; every refusal is 401, and a missing token gives its own message |
| AuthMiddleware.OptionalAuth | src/middleware/auth.js:54-73 | it never rejects, and attaches a user exactly when the strict guard would accept the request, and the same user |
| AuthMiddleware.CheckCredits | src/middleware/auth.js:76-94 | it passes exactly when a user is attached whose balance reaches the requirement; no user gives 401, a short balance 402 with both amounts |
| AuthMiddleware.CheckPlan | src/middleware/auth.js:97-115 | it passes exactly when the attached user's plan is the required one; no user gives 401, another plan 403 naming both |
| UploadRoute.ParsePlan | src/routes/upload.js:16-20 | a plan is accepted exactly when it is basic or complete |
| UploadRoute.Reserve | src/routes/upload.js:13-72 | other plans get 400 and a short balance 402 with both amounts; success needs both image fields, creates a pending job owned by the caller, debits the tariff and appends the usage row; every failure writes nothing |
| UploadRoute.ReserveTariff | src/routes/upload.js:23-61 | basic costs 1 and complete 3; the balance drops by that cost and stays non-negative; the job records the cost; the new row is minus the cost and linked to the job |
| UploadRoute.ReserveKeepsBalance | src/routes/upload.js:43-61 | a reservation keeps every balance equal to the sum of its completed rows |
| UploadRoute.ReserveKeepsWf | src/routes/upload.js:34-61 | a reservation keeps every reference between documents and every unique index intact |
| UploadRoute.PostUpload | src/routes/upload.js:11-80 | saving the job, then debiting, then appending the row gives exactly the reservation's new state and reply |
| UploadRoute.UploadEndpoint | src/routes/upload.js:11 | the route succeeds only for an authenticated caller, and its refusals other than 500 write nothing |
| UploadRoute.ZeroCreditsRequireOne | src/routes/upload.js:11 | an authenticated caller with no credits gets 402 requiring 1, whichever valid plan was asked for |
| UploadRoute.PlanCheckUnreachable | src/routes/upload.js:16-20 | behind the validator the handler's own plan message never appears; every 400 carries the validator's details |
| UploadRoute.UploadStatus | src/routes/upload.js:83-114 | a job is found exactly when it belongs to the caller, otherwise 404; the reply reports its status, plan, cost, processing time and error message |
| CreditsRoute.TxPlanOf | src/routes/credits.js:103 | the row's plan has the same name as the catalogue plan's type |
| CreditsRoute.Purchase | src/routes/credits.js:86-146 | a missing or inactive plan gives 404 and writes nothing; otherwise exactly one row is appended, and the reply names it and the plan's credits |
| CreditsRoute.PurchaseIsInert | src/routes/credits.js:98-112 | the new row is the caller's pending purchase of the plan's credits and type; no balance changes, the ledger stays balanced, and no payment-id lookup finds the row |
| CreditsRoute.PostPurchase | src/routes/credits.js:86-146 | the handler's write gives exactly the purchase's new state and reply |
| CreditsRoute.TotalUsedNonNegative | src/routes/credits.js:178-179 | totalUsed is never negative |
| CreditsRoute.TallyByStatus | src/routes/credits.js:175-185 | a purchase that is not completed adds to no total, while usage, refund and bonus rows add whatever their status |
| CreditsRoute.StatsNetIsLedgerSum | src/routes/credits.js:168-185 | purchased minus used plus refunded plus bonus equals the ledger sum, when every non-purchase row is completed and usage rows are debits |
| CreditsRoute.HistoryRows | src/routes/credits.js:151-165 | min(100, m) rows come back for m matching rows: the newest first, so row i is the i-th newest match; all match the filters, and all matches come back when at most 100 match |
| CreditsRoute.NewestMembers | src/routes/credits.js:163-165 | the first n of the rows read newest first are among the rows, and all of them are when there are at most n |
| CreditsRoute.History | src/routes/credits.js:149-211 | the handler returns the history rows and the totals over exactly those rows |
| CreditsRoute.Totals | src/routes/credits.js:168-186 | the accumulation loop yields the totals of the rows it is given |
| CreditsRoute.LedgerSumReverse | src/routes/credits.js:163 | listing the rows newest first does not change a ledger sum |
| CreditsRoute.UnfilteredIsRowsOf | src/routes/credits.js:152 | with no filters the history query selects exactly the caller's rows |
| CreditsRoute.HistoryMatchesBalance | src/routes/credits.js:149-204 | for a balanced account with at most 100 rows, the unfiltered totals add up to the balance, when every non-purchase row is completed and usage rows are debits |
| CreditsRoute.Credits | src/routes/credits.js:11-56 | with defaults page 1 and limit 20 the reply succeeds exactly when the skip is not negative, and then holds the balance, the caller's total and the window of their rows, newest first |
| CreditsRoute.CreditsDefaults | src/routes/credits.js:13-20 | with the defaults the reply holds at most 20 rows, all the caller's |
| WebhookRoute.ListOrEmpty | src/routes/webhook.js:51 | an absent list becomes the empty list; a given one is kept |
| WebhookRoute.Trimmed | src/models/Analysis.js:88-91 | a trimmed field is present exactly when it was given, with surrounding space removed |
| WebhookRoute.StoredResult | src/routes/webhook.js:49-69 | absent result lists are stored as empty lists, and the score and the trimmed personality type are copied |
| WebhookRoute.Refund | src/routes/webhook.js:74-88 | the owner's balance grows by the job's credits, nothing else changes, and one refund row is appended |
| WebhookRoute.Settle | src/routes/webhook.js:10-105 | an unknown job gives 404 and writes nothing; a success sets the posted status and time, touching no other job; only a failed delivery changes balances or the ledger: the accounts become exactly those of the refund and one refund row is appended; a refused delivery leaves every job as it was |
| WebhookRoute.CompletedStoresResult | src/routes/webhook.js:37-69 | a completed delivery stores the result and leaves balances and ledger alone; missing lists become empty and image fields change only when given |
| WebhookRoute.FailedRefunds | src/routes/webhook.js:70-88 | a failed delivery raises the owner's balance by the job's credits, changes no other field of the owner and no other account, and appends one completed refund row linked to the job |
| WebhookRoute.SettleKeepsBalance | src/routes/webhook.js:70-91 | settlement keeps every balance equal to the sum of its completed rows |
| WebhookRoute.RepeatedFailedRefundsTwice | src/routes/webhook.js:37-88 | a second identical failed delivery refunds again: the balance grows by twice the credits and two refund rows are appended |
| WebhookRoute.N8nWebhook | src/routes/webhook.js:10-105 | the handler's writes, in order, give exactly the settlement's new state and reply |
| WebhookRoute.CreditsOf | src/routes/webhook.js:183 | an unparsable credit count counts as 0, and a parsed one as itself |
| WebhookRoute.NormalizeStatus | src/routes/webhook.js:138-145 | aprovado and autorizado become approved, pendente pending, cancelado cancelled, reembolsado refunded, and anything else passes through |
| WebhookRoute.Placeholder | src/routes/webhook.js:150-164 | an unknown payer's account starts pending setup with 0 credits, the given plan, the temporary password, and the given email or user_<cpf>@testematch.temp |
| WebhookRoute.Provision | src/routes/webhook.js:164 | the save succeeds exactly when the placeholder passes validation and its email is free, and then it is appended (after the phone hook) as the next account; otherwise 500 and nothing is written |
| WebhookRoute.SavePlaceholder | src/routes/webhook.js:166 | validating and inserting the placeholder gives exactly the provisioning's new state and reply |
| WebhookRoute.ResolvePayer | src/routes/webhook.js:148-173 | a known CPF resolves to its account; an unknown one gives 404 unless the payment is approved, and an approved unknown one is pre-registered; only that case creates an account, at 0 credits and pending setup |
| WebhookRoute.ProvisionPayer | src/routes/webhook.js:150-166 | the pre-registration succeeds exactly when `plan` or else `'free'` names a plan, the placeholder is valid and its email is free, and then the placeholder with that plan (after the phone hook) becomes the next account; otherwise 500 and nothing is written |
| WebhookRoute.SettlePayment | src/routes/webhook.js:176-218 | the row with the payment id is reused, otherwise one is appended; approved credits the payer and completes the row even when already completed; cancelled and refunded mark it failed with balances untouched; any other status succeeds exactly when the schema knows it, and is stored as given; the reply names the payment and the payer, with the setup link exactly when the payer is pending setup |
| WebhookRoute.Reconcile | src/routes/webhook.js:108-249 | a secret that differs from the configured one gives 403 and writes nothing; refusals other than 500 write nothing |
| WebhookRoute.SecretGate | src/routes/webhook.js:131-135 | the gate refuses exactly when the body's secret differs from the configured one, so with none configured a body without one passes |
| WebhookRoute.UnknownPayerNotApproved | src/routes/webhook.js:169-173 | an unknown CPF with a status other than approved gives 404 and writes nothing |
| WebhookRoute.UnknownPayerApproved | src/routes/webhook.js:148-218 | an approved payment from an unknown CPF whose pre-registration succeeds, with a new payment id, gives 200 with the setup link; the new account is pending setup with plan `plan` or else `'free'` and holds the paid credits, and one completed purchase row is appended |
| WebhookRoute.ReconcileNewPayer | src/routes/webhook.js:150-176 | with the right secret, a notification whose unknown payer was pre-registered is the payment step for the new account |
| WebhookRoute.PendingPayerSettles | src/routes/webhook.js:176-218 | an approved payment with a new id for an account pending setup credits it, appends one completed purchase row, and replies with the setup link |
| WebhookRoute.AliasesRejected | src/middleware/validation.js:164-166 | the validator refuses every Portuguese status the table maps, and the table leaves the four English statuses as they are |
| WebhookRoute.SettlePaymentKeepsBalance | src/routes/webhook.js:176-211 | for an admitted status, a payment step keeps every balance equal to its ledger sum when the payment id is new or names an open row of the payer |
| WebhookRoute.ReconcileKeepsBalance | src/routes/webhook.js:108-211 | the same holds for the whole handler, including a newly provisioned payer |
| WebhookRoute.RepeatedApprovedBreaksBalance | src/routes/webhook.js:197-204 | a repeated approved delivery for a completed row credits the payer again while the ledger stays as it was, so a balanced database stops being balanced |
| WebhookRoute.ApprovedTwice | src/routes/webhook.js:176-211 | delivering one approved payment twice leaves one completed row and credits the payer twice |
| WebhookRoute.ApprovedOnce | src/routes/webhook.js:148-211 | the first approved delivery for a known payer credits once, appends one completed row, and a later lookup by that payment id finds it |
| WebhookRoute.ReconcileKnownPayer | src/routes/webhook.js:148-149 | with the right secret, a notification for a known CPF is the payment step for that account |
| WebhookRoute.ReapprovalKeepsRows | src/routes/webhook.js:201-204 | re-approving a payment whose row is already the completed purchase writes it back unchanged, so the ledger stays as it was |
| WebhookRoute.CancelAfterApprovalBreaksBalance | src/routes/webhook.js:205-206 | cancelling an approved payment fails its row without taking credits back, so the ledger sum drops and the database stops being balanced |
| WebhookRoute.ReconcileKeepsPaymentIdsUnique | src/routes/webhook.js:176-194 | a notification never creates a second row with a payment id already present, appends at most one row, and after success the payment id names a row |
| WebhookRoute.SettlePaymentKeepsPaymentIdsUnique | src/routes/webhook.js:176-211 | the payment step rewrites the row with the payment id or appends one carrying it, so ids stay unique and the id then names a row |
| WebhookRoute.NegativeCreditsAccepted | src/routes/webhook.js:199-201 | an approved payment with a negative credit count succeeds and can take the payer below zero |
| WebhookRoute.FindOrProvisionPayer | src/routes/webhook.js:148-173 | the lookup and provisioning give exactly the payer resolution's new state and reply |
| WebhookRoute.ApplyPayment | src/routes/webhook.js:176-219 | the row lookup, status update and save give exactly the payment step's new state and reply |
| WebhookRoute.AppMaxWebhook | src/routes/webhook.js:108-249 | the handler's writes, in order, give exactly the reconciliation's new state and reply |
| AnalysisRoute.ViewAnalysis | src/routes/analysis.js:9-73 | an unknown job gives 404; its owner gets the full result, public or not; anyone else gets the teaser of a public job and 403 for a private one; only the owner gets the full view |
| AnalysisRoute.OnlyOwnerSeesResult | src/routes/analysis.js:21-49 | every successful view by anyone but the owner is a teaser of a public job |
| AnalysisRoute.SetVisibility | src/routes/analysis.js:121-156 | only the caller's jobs are found (404) and only completed ones change (400); visibility becomes the truthiness of the input, an existing token is kept, and a public job ends with a token |
| AnalysisRoute.TokenSurvivesToggling | src/routes/analysis.js:142-148 | publishing, unpublishing and publishing again keeps the first token |
| AnalysisRoute.PutVisibility | src/routes/analysis.js:121-156 | the field assignment and save give exactly the toggle's new state and reply |
| AnalysisRoute.FindShared | src/routes/analysis.js:159-192 | the reply is 200 for the first public, completed job with that token, showing its status, plan, result and its owner's name (500 when the owner is missing); 404 exactly when no job qualifies |
| AnalysisRoute.PrivateNotShared | src/routes/analysis.js:161-165 | a job that is private or not completed is never reached through its token |
| AnalysisRoute.PublicCompletedIsShared | src/routes/analysis.js:159-182 | a public, completed job whose token is unique (the schema's unique index) and whose owner exists is shown by that token with its result and owner's name |
| AnalysisRoute.ListedIds | src/routes/analysis.js:81-90 | the listing holds every job that passes the owner and filter tests and no other, newest first |
| AnalysisRoute.Summaries | src/routes/analysis.js:95-104 | each listed job is summarized without its result |
| AnalysisRoute.ListAnalyses | src/routes/analysis.js:78-110 | with defaults page 1 and limit 10 the reply succeeds exactly when the skip is not negative, and then holds the total, the page count and one page of the filtered jobs, newest first |
| AnalysisRoute.NewestFirst | src/routes/analysis.js:86-90 | the first item of the first page is the caller's newest matching job |
| AuthRoute.Register | src/routes/auth.js:19-70 | a taken email gives 409 (checked first), then a taken CPF 409, then, with both free, any refusal is the 500 of an invalid document; each refusal writes nothing; success appends the account with 0 credits and plan free |
| AuthRoute.SaveAccount | src/routes/auth.js:40-48 | saving a new account succeeds exactly when it passes the schema and the email pattern, appending it after the phone hook; otherwise 500 and nothing written |
| AuthRoute.SaveUser | src/routes/auth.js:48 | validating, running the phone hook and inserting gives exactly the save's new state and reply |
| AuthRoute.RegisterKeepsBalance | src/routes/auth.js:40-48 | a registration keeps every balance equal to its ledger sum |
| AuthRoute.RegisterKeepsWf | src/routes/auth.js:24-48 | a registration keeps emails and CPFs unique, because the guards look up the very keys the new account stores |
| AuthRoute.PostRegister | src/routes/auth.js:19-70 | the handler's lookups and save give exactly the registration's new state and reply |
| AuthRoute.RegisterEndpoint | src/routes/auth.js:19 | an invalid body gives 400 with every error; a valid one registers with the trimmed name and the normalized email |
| AuthRoute.ValidRegistrationSaves | src/routes/auth.js:19-48 | a body that passes the validator and whose email matches the schema's pattern gets 201 or 409, never 500 |
| AuthRoute.ValidatedFields | src/middleware/validation.js:20-88 | a body that passes the validator already meets the schema's name, password, phone and CPF rules |
| AuthRoute.ValidatedSchema | src/middleware/validation.js:20-88 | a body that passes the validator builds a document that passes the schema once its email is non-empty |
| AuthRoute.RegisterOutcome | src/routes/auth.js:24-48 | a registration whose document passes the schema either succeeds or meets a taken email or CPF (409) |
| AuthRoute.Login | src/routes/auth.js:73-124 | an unknown email and a wrong password give the same 401; deactivation is checked only after the password; success stamps only the login time |
| AuthRoute.PostLogin | src/routes/auth.js:73-124 | the handler's checks and save give exactly the login's new state and reply |
| AuthRoute.LoginKeepsBalance | src/routes/auth.js:100-102 | a login keeps the ledger balanced |
| AuthRoute.LoginIgnoresAccountStatus | src/routes/auth.js:93-102 | an active account that is suspended or pending setup logs in when its password matches |
| AuthRoute.NegativeBalanceBlocksLogin | src/routes/auth.js:101-102 | an account with a negative balance cannot log in, because the login save fails the schema |
| AuthRoute.LoginEndpoint | src/routes/auth.js:73 | an invalid body gives 400 with every error; a valid one logs in with the normalized email |
| AuthRoute.RegisteredIsFound | src/routes/auth.js:24-48 | after a registration the email lookup finds the new account |
| AuthRoute.RegisterThenLoginHandler | src/routes/auth.js:19-102 | right after a registration, logging in with the same email and password reaches the new account |
| AuthRoute.RegisterThenLogin | src/routes/auth.js:19-102 | the same round trip holds through both validators |
| AuthRoute.MergePreferences | src/routes/auth.js:163-165 | merged preferences keep only schema keys; a given key wins, and an existing key not given keeps its value |
| AuthRoute.UpdateProfile | src/routes/auth.js:150-191 | the update succeeds exactly when a given name trims to 2..50 characters and a given phone to 10 or 11 digits (500 otherwise, nothing written); only the given fields change |
| AuthRoute.PutProfile | src/routes/auth.js:152-171 | building the update field by field and applying it gives exactly the update's new state and reply |
| AuthRoute.UpdateProfileKeepsInvariants | src/routes/user.js:82-101 | a profile or settings update keeps the ledger balanced and emails and CPFs unique |
| AuthRoute.UpdateSkipsPhoneRewrite | src/routes/user.js:97-101 | an update stores 62998448536 as given, while the save hook would make it 6298448536 |
| UserRoute.Count | src/routes/user.js:12-20 | a count never exceeds the number of jobs |
| UserRoute.CountSplit | src/routes/user.js:17-20 | counting two disjoint status groups separately adds up to counting them together |
| UserRoute.CountMono | src/routes/user.js:12-20 | a smaller status group never counts more |
| UserRoute.SuccessRate | src/routes/user.js:41 | the rate is 0 with no jobs, otherwise 100*completed/total rounded half up, and within 0..100 |
| UserRoute.RoundBounds | src/routes/user.js:41 | the rounding lies within half a unit of the exact percentage, and within 0..100 |
| UserRoute.CountsAddUp | src/routes/user.js:12-20 | completed plus pending-or-processing jobs never exceed all jobs |
| UserRoute.RecentOf | src/routes/user.js:23-26 | the recent list has min(5, n) entries, the i-th showing the status, plan and cost of the i-th listed job |
| UserRoute.RecentJobs | src/routes/user.js:23-26 | the recent jobs are the first min(5, n) of the caller's unfiltered listing: the caller's own, newest first |
| UserRoute.GetDashboard | src/routes/user.js:9-57 | the caller's fields, the count of all jobs, of completed ones and of pending-or-processing ones, the rounded rate of those counts (within 0..100, 0 with no jobs), and the recent jobs, min(5, total) of them |
| UserRoute.OwnedIds | src/routes/user.js:12-26 | the unfiltered listing holds as many jobs as the total count |
| UserRoute.Deactivate | src/routes/user.js:122-156 | a missing password gives 400 and a wrong one 401; success exactly when the password matches, and then only isActive turns false |
| UserRoute.DeleteAccount | src/routes/user.js:122-156 | the handler's checks and update give exactly the deactivation's new state and reply |
| UserRoute.DeactivatedIsLockedOut | src/routes/user.js:143-145 | after deactivation the account gets 401 at login and its tokens are refused, while its balance and ledger stay |
| UserRoute.UserAnalyses | src/routes/user.js:159-201 | every listed job is the caller's and passes the status and plan filters, and the total counts all matches |

## Left out

- Signing session tokens (`generateToken`) is not part of the model. Verification is the `verify` parameter, the outcome `jwt.verify` would produce.
- Password hashing is not modelled: bcrypt is a foreign library. A stored password stands for its hash, and comparison is the `matches` parameter.
- Random values are parameters: the share token (`freshToken`) and the temporary password of a provisioned account (`tempPassword`). Their uniqueness is not modelled.
- The clock is the `now` parameter. `createdAt` ordering is modelled as insertion order, which is how every listing sorts.
- `isEmail`, `normalizeEmail` and the schema's email regular expression are parameters.
- `isMongoId` is a flag, and ids are positions. So `validateObjectId` and the cast error a malformed id raises are not modelled.
- Strings are sequences of characters. Lower-casing covers ASCII only, and lengths count characters, not UTF-16 code units.
- Free-text fields are not stored: `description`, `metadata`, and the `value` echoed in validation details.
- Floating point is out of scope: plan prices, the AppMax `amount`, and discount percentages are opaque reals.
- UserRoute.SuccessRate: exact arithmetic with halves rounded up. It does not model the floating-point error of `completed / total * 100` before `Math.round`.
- Concurrency is out of scope. The model runs one request at a time, so the stale-balance race between `checkCredits` and `$inc` is not captured.
- The date-range filter of the credit history is not modelled.
- `populate` is not modelled as a join. Only its failure when the referenced user is missing (500) is modelled.
- Timestamps (`createdAt`, `updatedAt`) are not modelled.
- These read-only routes are not modelled: `GET /api/credits/plans`, `GET /api/auth/profile`, `GET /api/user/settings`, `POST /api/auth/refresh` and `GET /api/webhook/test`.
- `src/server.js` and the scripts under `src/scripts` are not part of this model. The phone script's cases appear as the `PhoneVector` lemmas.
- Console logging is not modelled. That includes the lookup done only to log a failed AppMax delivery.
- Query parameters are integers. A non-numeric page or limit (NaN) is not modelled.
- A missing body field is modelled as an absent optional value, or as a string the validators see. Values of other JSON types are not modelled.
- AnalysisRoute.ListAnalyses: its summary also carries `isPublic`, which only the `/api/user/analyses` reply includes. The `/api/analysis` route has no plan filter, and is modelled with the plan filter absent.
- WebhookRoute.Reconcile: the `details` of its 500 reply are not modelled.
- The reply messages of successful requests are not modelled. These include the visibility toggle's "made public/private" text and the shape of the settings reply.
- AuthRoute.UpdateProfile: it also models `PUT /api/user/settings`, whose update is the same code. Only the reply's field selection differs, and that is not modelled.

=== FILE: analysis_model.dfy ===
/** The analysis job document (`Analysis` collection) and its share-token
    pre-save hook. */
module AnalysisModel {
  import opened Common

  /** `status`, default `pending`. */
  datatype AnalysisStatus = Pending | Processing | Completed | Failed

  /** `plan`, required. */
  datatype AnalysisPlan = Basic | Complete

  function AnalysisStatusName(s: AnalysisStatus): string
  {
    match s
    case Pending => "pending"
    case Processing => "processing"
    case Completed => "completed"
    case Failed => "failed"
  }

  function AnalysisPlanName(p: AnalysisPlan): string
  {
    match p
    case Basic => "basic"
    case Complete => "complete"
  }

  /** The enum validator (and cast) on `status`. */
  function ParseAnalysisStatus(s: string): (r: Option<AnalysisStatus>)
    ensures r.Some? ==> AnalysisStatusName(r.value) == s
    ensures r.None? ==> forall t: AnalysisStatus :: AnalysisStatusName(t) != s
  {
    if s == "pending" then Some(Pending)
    else if s == "processing" then Some(Processing)
    else if s == "completed" then Some(Completed)
    else if s == "failed" then Some(Failed)
    else None
  }

  datatype Celebrity = Celebrity(name: Option<string>, similarity: Option<int>, description: Option<string>)

  /** The personality report; its list fields default to empty lists. */
  datatype AnalysisResult = AnalysisResult(
    mbti: Option<string>,
    personalityTraits: seq<string>,
    loveStyle: Option<string>,
    redFlags: seq<string>,
    strengths: seq<string>,
    weaknesses: seq<string>,
    passionScore: Option<int>,
    idealColor: Option<string>,
    idealMatch: Option<string>,
    brazilian: Option<Celebrity>,
    international: Option<Celebrity>,
    tips: seq<string>,
    conversationScripts: seq<string>,
    infographicUrl: Option<string>,
    qrCode: Option<string>)

  /** The report of a document that was never given one: every list empty. */
  const EmptyResult := AnalysisResult(None, [], None, [], [], [], None, None, None, None, None, [], [], None, None)

  datatype Analysis = Analysis(
    user: nat,
    imageUrl: string,
    imageId: string,
    status: AnalysisStatus,
    creditsUsed: int,
    plan: AnalysisPlan,
    result: AnalysisResult,
    processingTime: Option<int>,
    errorMessage: Option<string>,
    isPublic: bool,
    shareToken: Option<string>)

  /** A new job document; `isPublic` defaults to false and there is no token. */
  function NewAnalysis(user: nat, imageUrl: string, imageId: string, creditsUsed: int, plan: AnalysisPlan): (a: Analysis)
    ensures a.user == user && a.creditsUsed == creditsUsed && a.plan == plan
    ensures a.status == Pending && !a.isPublic && a.shareToken.None? && a.result == EmptyResult
  {
    Analysis(user, imageUrl, imageId, Pending, creditsUsed, plan, EmptyResult, None, None, false, None)
  }

  /** The validators that run on `save()`: `imageUrl` and `imageId` are required
      (an empty string fails `required`), `creditsUsed` is at least 1 and a
      present `passionScore` lies in 0..100. */
  predicate SchemaValid(a: Analysis)
  {
    && a.imageUrl != ""
    && a.imageId != ""
    && a.creditsUsed >= 1
    && (a.result.passionScore.Some? ==> 0 <= a.result.passionScore.value <= 100)
  }

  /** The share-token pre-save hook: a public document without a token receives
      the freshly generated one; an existing token is never replaced and a
      private document keeps whatever token it has. */
  function PreSave(a: Analysis, freshToken: string): (r: Analysis)
    ensures r == a.(shareToken := r.shareToken)
    ensures a.shareToken.Some? ==> r.shareToken == a.shareToken
    ensures !a.isPublic ==> r == a
    ensures a.isPublic ==> r.shareToken.Some?
  {
    if a.isPublic && a.shareToken.None? then a.(shareToken := Some(freshToken)) else a
  }

  /** Saving again never changes the token once it is set. */
  lemma PreSaveStable(a: Analysis, t1: string, t2: string)
    ensures PreSave(PreSave(a, t1), t2) == PreSave(a, t1)
  {
  }
}

=== FILE: analysis_route.dfy ===
/** `GET /api/analysis/:id` (owner, public and teaser views), `GET /api/analysis`
    (the caller's jobs), `PUT /api/analysis/:id/public` (visibility toggle) and
    `GET /api/analysis/share/:token`. */
module AnalysisRoute {
  import opened Common
  import A = AnalysisModel
  import L = Ledger
  import Paging

  const NotFound := "Análise não encontrada"
  const Denied := "Acesso negado"
  const NotCompleted := "Apenas análises concluídas podem ser compartilhadas"
  const ShareNotFound := "Análise não encontrada ou não disponível"

  /** What a visitor who does not own a public job sees. */
  datatype Teaser = Teaser(
    mbti: Option<string>,
    passionScore: Option<int>,
    idealColor: Option<string>,
    brazilianCelebrity: Option<string>,
    internationalCelebrity: Option<string>)

  datatype View =
    | TeaserView(id: nat, status: A.AnalysisStatus, plan: A.AnalysisPlan, teaser: Teaser)
    | FullView(id: nat, status: A.AnalysisStatus, plan: A.AnalysisPlan, creditsUsed: int,
               processingTime: Option<int>, result: A.AnalysisResult, isPublic: bool, shareToken: Option<string>)

  function CelebrityName(c: Option<A.Celebrity>): Option<string>
  {
    if c.Some? then c.value.name else None
  }

  function TeaserOf(r: A.AnalysisResult): Teaser
  {
    Teaser(r.mbti, r.passionScore, r.idealColor, CelebrityName(r.brazilian), CelebrityName(r.international))
  }

  /** The view decision: 404 for an unknown job; the owner (the attached user)
      always gets the full job, public or not; anyone else gets 403 on a private
      job and only the teaser on a public one. Reading the owner of a job whose
      owner document is gone fails (500), but only when a user is attached. */
  function ViewAnalysis(db: L.Db, viewer: Option<nat>, id: nat): (r: Reply<View>)
    ensures id >= |db.analyses| ==> r == Failure(404, Message(NotFound))
    ensures id < |db.analyses| && viewer.Some? && viewer.value == db.analyses[id].user && db.analyses[id].user < |db.users| ==>
              r.Success? && r.value.FullView? && r.value.result == db.analyses[id].result
    ensures id < |db.analyses| && (viewer.None? || (viewer.value != db.analyses[id].user && db.analyses[id].user < |db.users|)) ==>
              if db.analyses[id].isPublic then r.Success? && r.value.TeaserView? && r.value.teaser == TeaserOf(db.analyses[id].result)
              else r == Failure(403, Message(Denied))
    ensures r.Success? && r.value.FullView? ==> viewer == Some(db.analyses[id].user)
  {
    if id >= |db.analyses| then Failure(404, Message(NotFound))
    else
      var a := db.analyses[id];
      if viewer.Some? && a.user >= |db.users| then Failure(500, Message(InternalError))
      else
        var isOwner := viewer.Some? && viewer.value == a.user;
        if !isOwner && !a.isPublic then Failure(403, Message(Denied))
        else if !isOwner then Success(200, TeaserView(id, a.status, a.plan, TeaserOf(a.result)))
        else Success(200, FullView(id, a.status, a.plan, a.creditsUsed, a.processingTime, a.result, a.isPublic, a.shareToken))
  }

  /** Nobody but the owner ever receives the full result or the credits used:
      every other successful view is a teaser, and only of a public job. */
  lemma OnlyOwnerSeesResult(db: L.Db, viewer: Option<nat>, id: nat)
    requires ViewAnalysis(db, viewer, id).Success?
    ensures viewer != Some(db.analyses[id].user) ==>
              ViewAnalysis(db, viewer, id).value.TeaserView? && db.analyses[id].isPublic
  {
  }

  /** The visibility toggle: 404 unless the job is the caller's, 400 unless it is
      completed; otherwise `isPublic` becomes `Boolean(input)` and the save hook
      hands a newly public job its token. Making a job private keeps its token. */
  function SetVisibility(db: L.Db, caller: nat, id: nat, isPublic: Option<Json>, freshToken: string): (res: (L.Db, Reply<(bool, Option<string>)>))
    ensures res.1.Failure? ==> res.0 == db
    ensures !(id < |db.analyses| && db.analyses[id].user == caller) ==> res.1 == Failure(404, Message(NotFound))
    ensures id < |db.analyses| && db.analyses[id].user == caller && db.analyses[id].status != A.Completed ==>
              res.1 == Failure(400, Message(NotCompleted))
    ensures res.1.Success? ==>
              && id < |db.analyses| && db.analyses[id].user == caller && db.analyses[id].status == A.Completed
              && |res.0.analyses| == |db.analyses|
              && res.0 == db.(analyses := db.analyses[id := res.0.analyses[id]])
              && res.0.analyses[id] == db.analyses[id].(isPublic := Truthy(isPublic), shareToken := res.0.analyses[id].shareToken)
              && (db.analyses[id].shareToken.Some? ==> res.0.analyses[id].shareToken == db.analyses[id].shareToken)
              && (Truthy(isPublic) ==> res.0.analyses[id].shareToken.Some?)
              && res.1.value == (Truthy(isPublic), res.0.analyses[id].shareToken)
  {
    if id >= |db.analyses| || db.analyses[id].user != caller then (db, Failure(404, Message(NotFound)))
    else
      var a := db.analyses[id];
      if a.status != A.Completed then (db, Failure(400, Message(NotCompleted)))
      else
        var saved := A.PreSave(a.(isPublic := Truthy(isPublic)), freshToken);
        if !A.SchemaValid(saved) then (db, Failure(500, Message(InternalError)))
        else (db.(analyses := db.analyses[id := saved]), Success(200, (saved.isPublic, saved.shareToken)))
  }

  /** Publishing, unpublishing and publishing again keeps the first token. */
  lemma {:induction false} TokenSurvivesToggling(db: L.Db, caller: nat, id: nat, t1: string, t2: string, t3: string)
    requires id < |db.analyses| && db.analyses[id].user == caller && db.analyses[id].status == A.Completed
    requires A.SchemaValid(db.analyses[id])
    ensures var on := SetVisibility(db, caller, id, Some(JBool(true)), t1);
      var off := SetVisibility(on.0, caller, id, Some(JBool(false)), t2);
      var again := SetVisibility(off.0, caller, id, Some(JBool(true)), t3);
      && on.1.Success? && off.1.Success? && again.1.Success?
      && off.1.value.1 == on.1.value.1 && again.1.value.1 == on.1.value.1
      && on.1.value.1.Some?
  {
    var on := SetVisibility(db, caller, id, Some(JBool(true)), t1);
    var a1 := on.0.analyses[id];
    assert A.SchemaValid(a1);
    var off := SetVisibility(on.0, caller, id, Some(JBool(false)), t2);
    assert A.SchemaValid(off.0.analyses[id]);
  }

  /** The toggle as the source runs it. */
  method PutVisibility(s: L.Store, caller: nat, id: nat, isPublic: Option<Json>, freshToken: string)
      returns (r: Reply<(bool, Option<string>)>)
    modifies s
    ensures (s.State(), r) == SetVisibility(old(s.State()), caller, id, isPublic, freshToken)
  {
    if id >= |s.analyses| || s.analyses[id].user != caller {
      return Failure(404, Message(NotFound));
    }
    var a := s.analyses[id];
    if a.status != A.Completed {
      return Failure(400, Message(NotCompleted));
    }
    a := a.(isPublic := Truthy(isPublic));
    if a.isPublic && a.shareToken.None? {
      a := a.(shareToken := Some(freshToken));
    }
    if !A.SchemaValid(a) {
      return Failure(500, Message(InternalError));
    }
    s.analyses := s.analyses[id := a];
    r := Success(200, (a.isPublic, a.shareToken));
  }

  /** The shared view: the job with that token that is public and completed, with
      its owner's name. */
  datatype SharedView = SharedView(id: nat, status: A.AnalysisStatus, plan: A.AnalysisPlan, ownerName: string, result: A.AnalysisResult)

  predicate Shareable(a: A.Analysis, token: string)
  {
    a.shareToken == Some(token) && a.isPublic && a.status == A.Completed
  }

  /** `GET /share/:token`: the first public, completed job with that token is
      shown with its owner's name; 404 when there is none, 500 when its owner is
      missing. */
  function FindShared(db: L.Db, token: string): (r: Reply<SharedView>)
    ensures r.Success? ==>
              && r.code == 200
              && r.value.id < |db.analyses|
              && Shareable(db.analyses[r.value.id], token)
              && (forall k :: 0 <= k < r.value.id ==> !Shareable(db.analyses[k], token))
              && var a := db.analyses[r.value.id];
                 a.user < |db.users| && r.value == SharedView(r.value.id, a.status, a.plan, db.users[a.user].name, a.result)
    ensures (forall i :: 0 <= i < |db.analyses| ==> !Shareable(db.analyses[i], token)) <==>
              r == Failure(404, Message(ShareNotFound))
    ensures forall i :: 0 <= i < |db.analyses| && Shareable(db.analyses[i], token) &&
                        (forall k :: 0 <= k < i ==> !Shareable(db.analyses[k], token)) ==>
              if db.analyses[i].user < |db.users| then r.Success? && r.value.id == i
              else r == Failure(500, Message(InternalError))
  {
    match L.FirstIndex(db.analyses, (a: A.Analysis) => Shareable(a, token))
    case None => Failure(404, Message(ShareNotFound))
    case Some(i) =>
      var a := db.analyses[i];
      if a.user >= |db.users| then Failure(500, Message(InternalError))
      else Success(200, SharedView(i, a.status, a.plan, db.users[a.user].name, a.result))
  }

  /** A job that was made private (or has not completed) is never reachable by
      its token. */
  lemma PrivateNotShared(db: L.Db, token: string, i: nat)
    requires i < |db.analyses| && db.analyses[i].shareToken == Some(token)
    requires !db.analyses[i].isPublic || db.analyses[i].status != A.Completed
    ensures FindShared(db, token).Success? ==> FindShared(db, token).value.id != i
  {
  }

  /** A public, completed job whose token no other job carries is shown by that
      token, with its result and its owner's name. */
  lemma PublicCompletedIsShared(db: L.Db, token: string, i: nat)
    requires i < |db.analyses| && Shareable(db.analyses[i], token)
    requires forall k :: 0 <= k < |db.analyses| && k != i ==> db.analyses[k].shareToken != Some(token)
    requires db.analyses[i].user < |db.users|
    ensures var a := db.analyses[i];
      FindShared(db, token) == Success(200, SharedView(i, a.status, a.plan, db.users[a.user].name, a.result))
  {
    assert forall k :: 0 <= k < i ==> !Shareable(db.analyses[k], token);
  }

  /** One listed job: the result is left out. */
  datatype Summary = Summary(id: nat, status: A.AnalysisStatus, plan: A.AnalysisPlan, creditsUsed: int,
                             processingTime: Option<int>, errorMessage: Option<string>, isPublic: bool)

  function Summarize(db: L.Db, i: nat): Summary
    requires i < |db.analyses|
  {
    var a := db.analyses[i];
    Summary(i, a.status, a.plan, a.creditsUsed, a.processingTime, a.errorMessage, a.isPublic)
  }

  /** The listing filter: the owner, a status when given and a plan when given;
      a filter value that names no enum member matches nothing. */
  predicate Listed(a: A.Analysis, caller: nat, status: Option<string>, plan: Option<string>)
  {
    && a.user == caller
    && (Present(status) ==> A.AnalysisStatusName(a.status) == status.value)
    && (Present(plan) ==> A.AnalysisPlanName(a.plan) == plan.value)
  }

  /** The ids of the matching jobs, newest first. */
  function ListedIds(db: L.Db, caller: nat, status: Option<string>, plan: Option<string>, n: nat): (ids: seq<nat>)
    requires n <= |db.analyses|
    ensures forall k :: 0 <= k < |ids| ==> ids[k] < n && Listed(db.analyses[ids[k]], caller, status, plan)
    ensures forall i :: 0 <= i < n && Listed(db.analyses[i], caller, status, plan) ==> i in ids
    ensures forall k, j :: 0 <= k < j < |ids| ==> ids[k] > ids[j]
  {
    if n == 0 then []
    else
      var rest := ListedIds(db, caller, status, plan, n - 1);
      if Listed(db.analyses[n - 1], caller, status, plan) then [n - 1] + rest else rest
  }

  function Summaries(db: L.Db, ids: seq<nat>): (r: seq<Summary>)
    requires forall k :: 0 <= k < |ids| ==> ids[k] < |db.analyses|
    ensures |r| == |ids| && forall k :: 0 <= k < |ids| ==> r[k] == Summarize(db, ids[k])
  {
    seq(|ids|, k requires 0 <= k < |ids| => Summarize(db, ids[k]))
  }

  /** The listings of both analysis routes: the caller's jobs that pass the
      filters, newest first, one page of them (page 1 and limit 10 by default);
      a negative skip is a 500. */
  function ListAnalyses(db: L.Db, caller: nat, page: Option<int>, limit: Option<int>, status: Option<string>, plan: Option<string>): (r: Reply<Paging.Page<Summary>>)
    ensures var p := if page.Some? then page.value else 1;
      var l := if limit.Some? then limit.value else 10;
      var ids := ListedIds(db, caller, status, plan, |db.analyses|);
      && (r.Success? <==> Paging.Skip(p, l) >= 0)
      && (r.Failure? ==> r.code == 500)
      && (r.Success? ==>
            var w := Paging.Window(ids, Paging.Skip(p, l), l);
            && r.value.total == |ids|
            && r.value.pages == Paging.PageCount(|ids|, l)
            && |r.value.items| == |w|
            && forall k :: 0 <= k < |w| ==> r.value.items[k] == Summarize(db, w[k]))
  {
    var p := if page.Some? then page.value else 1;
    var l := if limit.Some? then limit.value else 10;
    var ids := ListedIds(db, caller, status, plan, |db.analyses|);
    var rows := Summaries(db, ids);
    var r := Paging.Paginate(rows, p, l);
    if r.Success? then
      Paging.WindowSameLength(rows, ids, Paging.Skip(p, l), l);
      r
    else r
  }

  /** The first page lists the caller's newest matching job first. */
  lemma NewestFirst(db: L.Db, caller: nat, status: Option<string>, plan: Option<string>, i: nat)
    requires i < |db.analyses| && Listed(db.analyses[i], caller, status, plan)
    requires forall j :: i < j < |db.analyses| ==> !Listed(db.analyses[j], caller, status, plan)
    ensures var r := ListAnalyses(db, caller, None, None, status, plan);
      r.Success? && |r.value.items| >= 1 && r.value.items[0].id == i
  {
    var ids := ListedIds(db, caller, status, plan, |db.analyses|);
    assert i in ids;
    var k :| 0 <= k < |ids| && ids[k] == i;
    assert ids[0] < |db.analyses| && Listed(db.analyses[ids[0]], caller, status, plan);
    assert ids[0] <= i;
  }
}

=== FILE: auth_middleware.dfy ===
/** The request guards: bearer-token extraction, `authenticateToken`,
    `optionalAuth`, `checkCredits` and `checkPlan`. Token signature checking is a
    parameter (`verify`), the outcome `jwt.verify` would produce. */
module AuthMiddleware {
  import opened Common
  import U = UserModel

  /** What `jwt.verify` does with a token: yields the user id it was signed for,
      or throws one of two errors. */
  datatype JwtOutcome = Verified(userId: nat) | Malformed | Expired

  const NoToken := "Token de acesso necessário"
  const BadToken := "Token inválido"
  const ExpiredToken := "Token expirado"
  const UnknownUser := "Usuário não encontrado"
  const Deactivated := "Conta desativada"
  const NotAuthenticated := "Usuário não autenticado"

  function FirstSpace(s: string): (r: Option<nat>)
    ensures r.Some? ==> r.value < |s| && s[r.value] == ' ' && ' ' !in s[..r.value]
    ensures r.None? ==> ' ' !in s
  {
    if s == [] then None
    else if s[0] == ' ' then Some(0)
    else match FirstSpace(s[1..])
      case None => None
      case Some(k) => assert s[..k + 1] == [s[0]] + s[1..][..k]; Some(k + 1)
  }

  /** `s.split(' ')`. */
  function Split(s: string): (parts: seq<string>)
    ensures |parts| >= 1
    ensures forall k :: 0 <= k < |parts| ==> ' ' !in parts[k]
    decreases |s|
  {
    match FirstSpace(s)
    case None => [s]
    case Some(i) => [s[..i]] + Split(s[i + 1..])
  }

  /** The inverse of `Split`: the parts glued back with single spaces. */
  function Join(parts: seq<string>): string
    requires |parts| >= 1
  {
    if |parts| == 1 then parts[0] else parts[0] + " " + Join(parts[1..])
  }

  /** Splitting loses nothing: the header is its parts joined with spaces. */
  lemma {:induction false} SplitJoin(s: string)
    ensures Join(Split(s)) == s
    decreases |s|
  {
    match FirstSpace(s)
    case None =>
    case Some(i) =>
      SplitJoin(s[i + 1..]);
      assert Split(s)[1..] == Split(s[i + 1..]);
      assert s == s[..i] + " " + s[i + 1..];
  }

  /** `authHeader && authHeader.split(' ')[1]`: the second space-separated
      component of the header, when there is one and it is not empty. */
  function ExtractToken(header: Option<string>): (r: Option<string>)
    ensures r.Some? ==> header.Some? && r.value != "" && ' ' !in r.value
    ensures r.Some? ==> |Split(header.value)| >= 2 && Split(header.value)[1] == r.value
  {
    match header
    case None => None
    case Some(h) =>
      if h == "" then None
      else
        var parts := Split(h);
        if |parts| >= 2 && parts[1] != "" then Some(parts[1]) else None
  }

  /** `Authorization: <scheme> <token>` yields the token. */
  lemma {:induction false} BearerToken(scheme: string, token: string)
    requires ' ' !in scheme && ' ' !in token && token != ""
    ensures ExtractToken(Some(scheme + " " + token)) == Some(token)
  {
    var h := scheme + " " + token;
    assert h[..|scheme|] == scheme;
    assert h[|scheme|] == ' ';
    assert FirstSpace(h) == Some(|scheme|) by {
      FirstSpaceAt(h, |scheme|);
    }
    assert h[|scheme| + 1..] == token;
    assert FirstSpace(token) == None;
    assert Split(h) == [scheme, token];
  }

  lemma {:induction false} FirstSpaceAt(s: string, i: nat)
    requires i < |s| && s[i] == ' ' && ' ' !in s[..i]
    ensures FirstSpace(s) == Some(i)
    decreases i
  {
    if i > 0 {
      assert s[0] in s[..i];
      assert s[1..][..i - 1] == s[1..i];
      assert forall c :: c in s[1..i] ==> c in s[..i];
      FirstSpaceAt(s[1..], i - 1);
    }
  }

  /** `authenticateToken`: the id of the authenticated user, or the 401 that stops
      the request. */
  function AuthenticateToken(users: seq<U.User>, header: Option<string>, verify: string -> JwtOutcome): (r: Reply<nat>)
    ensures r.Failure? ==> r.code == 401
    ensures r.Success? <==>
              && ExtractToken(header).Some?
              && verify(ExtractToken(header).value).Verified?
              && verify(ExtractToken(header).value).userId < |users|
              && users[verify(ExtractToken(header).value).userId].isActive
    ensures r.Success? ==> r.value == verify(ExtractToken(header).value).userId
    ensures ExtractToken(header).None? ==> r == Failure(401, Message(NoToken))
  {
    match ExtractToken(header)
    case None => Failure(401, Message(NoToken))
    case Some(token) =>
      match verify(token)
      case Malformed => Failure(401, Message(BadToken))
      case Expired => Failure(401, Message(ExpiredToken))
      case Verified(id) =>
        if id >= |users| then Failure(401, Message(UnknownUser))
        else if !users[id].isActive then Failure(401, Message(Deactivated))
        else Success(200, id)
  }

  /** `optionalAuth`: never rejects; it attaches a user exactly when
      `authenticateToken` would have accepted the request, and that same user. */
  function OptionalAuth(users: seq<U.User>, header: Option<string>, verify: string -> JwtOutcome): (r: Option<nat>)
    ensures r.Some? <==> AuthenticateToken(users, header, verify).Success?
    ensures r.Some? ==> r.value == AuthenticateToken(users, header, verify).value
  {
    match ExtractToken(header)
    case None => None
    case Some(token) =>
      match verify(token)
      case Verified(id) => if id < |users| && users[id].isActive then Some(id) else None
      case _ => None
  }

  /** `checkCredits(required)`: passes exactly when a user is attached whose
      balance reaches `required`; otherwise 401, or 402 with both amounts. */
  function CheckCredits(user: Option<U.User>, required: int): (r: Reply<()>)
    ensures r.Success? <==> user.Some? && user.value.credits >= required
    ensures user.None? ==> r.Failure? && r.code == 401
    ensures user.Some? && user.value.credits < required ==>
              r == Failure(402, Insufficient(required, user.value.credits))
  {
    if user.None? then Failure(401, Message(NotAuthenticated))
    else if user.value.credits < required then Failure(402, Insufficient(required, user.value.credits))
    else Success(200, ())
  }

  /** `checkPlan(required)`: passes exactly when the attached user's plan is the
      required one; otherwise 401, or 403 naming both plans. */
  function CheckPlan(user: Option<U.User>, required: string): (r: Reply<()>)
    ensures r.Success? <==> user.Some? && U.UserPlanName(user.value.plan) == required
    ensures user.None? ==> r.Failure? && r.code == 401
    ensures user.Some? && U.UserPlanName(user.value.plan) != required ==>
              r == Failure(403, WrongPlan(required, U.UserPlanName(user.value.plan)))
  {
    if user.None? then Failure(401, Message(NotAuthenticated))
    else if U.UserPlanName(user.value.plan) != required then
      Failure(403, WrongPlan(required, U.UserPlanName(user.value.plan)))
    else Success(200, ())
  }
}

=== FILE: auth_route.dfy ===
/** `POST /api/auth/register`, `POST /api/auth/login` and `PUT /api/auth/profile`
    (whose update is shared with `PUT /api/user/settings`). Signing the session
    token is left out: a successful reply carries the account it would be
    signed for. */
module AuthRoute {
  import opened Common
  import U = UserModel
  import L = Ledger
  import M = AuthMiddleware
  import V = Validation

  const EmailTaken := "Email já cadastrado"
  const CpfTaken := "CPF já cadastrado"
  const BadCredentials := "Email ou senha incorretos"

  /** The account part of the register and login replies. */
  datatype Account = Account(id: nat, name: string, email: string, credits: int, plan: U.UserPlan)

  function AccountOf(db: L.Db, id: nat): Account
    requires id < |db.users|
  {
    var u := db.users[id];
    Account(id, u.name, u.email, u.credits, u.plan)
  }

  /** The document a registration stores: the schema's setters and defaults, then
      the phone hook (the phone is new, hence modified). */
  function Registered(name: string, email: string, password: string, phone: string, cpf: string): U.User
  {
    U.PreSavePhone(U.NewUser(name, email, Some(password), phone, cpf), true)
  }

  /** The handler, on the sanitized body: 409 when the email is taken (checked
      first), 409 when the CPF is taken, 500 when the new document fails the
      schema (the email regex is `emailPattern`), otherwise the account is
      appended with a zero balance. */
  function Register(db: L.Db, name: string, email: string, password: string, phone: string, cpf: string,
                    emailPattern: string -> bool): (res: (L.Db, Reply<Account>))
    ensures res.1.Failure? ==> res.0 == db
    ensures L.FindByEmail(db.users, email).Some? ==> res.1 == Failure(409, Message(EmailTaken))
    ensures L.FindByEmail(db.users, email).None? && L.FindByCpf(db.users, cpf).Some? ==>
              res.1 == Failure(409, Message(CpfTaken))
    ensures L.FindByEmail(db.users, email).None? && L.FindByCpf(db.users, cpf).None? && res.1.Failure? ==>
              res.1 == Failure(500, Message(InternalError))
    ensures res.1.Success? <==>
              && L.FindByEmail(db.users, email).None? && L.FindByCpf(db.users, cpf).None?
              && U.SchemaValid(U.NewUser(name, email, Some(password), phone, cpf))
              && emailPattern(U.CanonicalEmail(email))
    ensures res.1.Success? ==>
              && res.0 == db.(users := db.users + [Registered(name, email, password, phone, cpf)])
              && res.1 == Success(201, AccountOf(res.0, |db.users|))
              && res.1.value.credits == 0 && res.1.value.plan == U.Free
  {
    if L.FindByEmail(db.users, email).Some? then (db, Failure(409, Message(EmailTaken)))
    else if L.FindByCpf(db.users, cpf).Some? then (db, Failure(409, Message(CpfTaken)))
    else SaveAccount(db, U.NewUser(name, email, Some(password), phone, cpf), emailPattern)
  }

  /** `user.save()` on a new account: validation (the email regex is
      `emailPattern`), then the phone hook; a document that fails validation is a
      500 that writes nothing. */
  function SaveAccount(db: L.Db, u: U.User, emailPattern: string -> bool): (res: (L.Db, Reply<Account>))
    ensures res.1.Failure? ==> res == (db, Failure(500, Message(InternalError)))
    ensures res.1.Success? <==> U.SchemaValid(u) && emailPattern(u.email)
    ensures res.1.Success? ==>
              && res.0 == db.(users := db.users + [U.PreSavePhone(u, true)])
              && res.1 == Success(201, AccountOf(res.0, |db.users|))
  {
    if !(U.SchemaValid(u) && emailPattern(u.email)) then (db, Failure(500, Message(InternalError)))
    else
      var db' := db.(users := db.users + [U.PreSavePhone(u, true)]);
      (db', Success(201, AccountOf(db', |db.users|)))
  }

  /** A registration keeps every balance equal to its ledger sum. */
  lemma RegisterKeepsBalance(db: L.Db, name: string, email: string, password: string, phone: string, cpf: string,
                             emailPattern: string -> bool)
    requires L.Balanced(db) && L.Wf(db)
    ensures L.Balanced(Register(db, name, email, password, phone, cpf, emailPattern).0)
  {
    if Register(db, name, email, password, phone, cpf, emailPattern).1.Success? {
      L.BalancedAddUser(db, Registered(name, email, password, phone, cpf));
    }
  }

  /** A registration keeps the unique indexes: the lookups that guard it use the
      very keys the new document stores. */
  lemma RegisterKeepsWf(db: L.Db, name: string, email: string, password: string, phone: string, cpf: string,
                        emailPattern: string -> bool)
    requires L.Wf(db)
    ensures L.Wf(Register(db, name, email, password, phone, cpf, emailPattern).0)
  {
    var (db', r) := Register(db, name, email, password, phone, cpf, emailPattern);
    if r.Success? {
      var u := db'.users[|db.users|];
      assert u.email == U.CanonicalEmail(email) && u.cpf == Trim(cpf);
      forall i, j | 0 <= i < j < |db'.users|
        ensures db'.users[i].email != db'.users[j].email && db'.users[i].cpf != db'.users[j].cpf
      {
        if j == |db.users| {
          assert db'.users[i] == db.users[i];
        }
      }
    }
  }

  /** The registration handler as the source runs it on the store. */
  method PostRegister(s: L.Store, name: string, email: string, password: string, phone: string, cpf: string,
                      emailPattern: string -> bool) returns (r: Reply<Account>)
    modifies s
    ensures (s.State(), r) == Register(old(s.State()), name, email, password, phone, cpf, emailPattern)
  {
    if L.FindByEmail(s.users, email).Some? {
      return Failure(409, Message(EmailTaken));
    }
    if L.FindByCpf(s.users, cpf).Some? {
      return Failure(409, Message(CpfTaken));
    }
    r := SaveUser(s, U.NewUser(name, email, Some(password), phone, cpf), emailPattern);
  }

  /** `user.save()` on a new account as the source runs it: validate, run the
      phone hook, insert. */
  method SaveUser(s: L.Store, u: U.User, emailPattern: string -> bool) returns (r: Reply<Account>)
    modifies s
    ensures (s.State(), r) == SaveAccount(old(s.State()), u, emailPattern)
  {
    if !(U.SchemaValid(u) && emailPattern(u.email)) {
      return Failure(500, Message(InternalError));
    }
    var user := U.PreSavePhone(u, true);
    var id := |s.users|;
    s.users := s.users + [user];
    r := Success(201, Account(id, user.name, user.email, user.credits, user.plan));
  }

  /** The route: `validateRegister` (whose sanitizers trim the name and normalize
      the email), then the handler. */
  function RegisterEndpoint(db: L.Db, b: V.RegisterBody, isEmail: string -> bool, normalizeEmail: string -> string,
                            emailPattern: string -> bool): (res: (L.Db, Reply<Account>))
    ensures V.RegisterErrors(b, isEmail, normalizeEmail) != [] ==>
              res == (db, Failure(400, Invalid(V.RegisterErrors(b, isEmail, normalizeEmail))))
    ensures V.RegisterErrors(b, isEmail, normalizeEmail) == [] ==>
              res == Register(db, Trim(b.name), normalizeEmail(b.email), b.password, b.phone, b.cpf, emailPattern)
  {
    match V.HandleValidationErrors(V.RegisterErrors(b, isEmail, normalizeEmail))
    case Failure(code, e) => (db, Failure(code, e))
    case Success(_, _) => Register(db, Trim(b.name), normalizeEmail(b.email), b.password, b.phone, b.cpf, emailPattern)
  }

  /** Behind the validator the schema can only object to the email: a body that
      passes `validateRegister` and whose stored email matches the schema's regex
      is answered 201 or 409, never 500. */
  lemma ValidRegistrationSaves(db: L.Db, b: V.RegisterBody, isEmail: string -> bool, normalizeEmail: string -> string,
                               emailPattern: string -> bool)
    requires V.RegisterErrors(b, isEmail, normalizeEmail) == []
    requires U.CanonicalEmail(normalizeEmail(b.email)) != "" && emailPattern(U.CanonicalEmail(normalizeEmail(b.email)))
    ensures var r := RegisterEndpoint(db, b, isEmail, normalizeEmail, emailPattern).1;
      r.Success? || r.code == 409
  {
    var name, email := Trim(b.name), normalizeEmail(b.email);
    ValidatedSchema(b, isEmail, normalizeEmail);
    RegisterOutcome(db, name, email, b.password, b.phone, b.cpf, emailPattern);
  }

  /** A body that passes the validator builds a document that passes the schema,
      as soon as its email is non-empty. */
  lemma ValidatedSchema(b: V.RegisterBody, isEmail: string -> bool, normalizeEmail: string -> string)
    requires V.RegisterErrors(b, isEmail, normalizeEmail) == []
    requires U.CanonicalEmail(normalizeEmail(b.email)) != ""
    ensures U.SchemaValid(U.NewUser(Trim(b.name), normalizeEmail(b.email), Some(b.password), b.phone, b.cpf))
  {
    ValidatedFields(b, isEmail, normalizeEmail);
    U.NewUserSchema(Trim(b.name), normalizeEmail(b.email), b.password, b.phone, b.cpf);
  }

  /** A registration whose document passes the schema either succeeds or meets a
      taken email or CPF. */
  lemma RegisterOutcome(db: L.Db, name: string, email: string, password: string, phone: string, cpf: string,
                        emailPattern: string -> bool)
    requires U.SchemaValid(U.NewUser(name, email, Some(password), phone, cpf)) && emailPattern(U.CanonicalEmail(email))
    ensures var r := Register(db, name, email, password, phone, cpf, emailPattern).1;
      r.Success? || r.code == 409
  {
  }

  /** What `validateRegister` guarantees about the fields the schema checks: the
      trimmed name, the password, the phone and the CPF already satisfy it. */
  lemma ValidatedFields(b: V.RegisterBody, isEmail: string -> bool, normalizeEmail: string -> string)
    requires V.RegisterErrors(b, isEmail, normalizeEmail) == []
    ensures 2 <= |Trim(Trim(b.name))| <= 50 && |b.password| >= 6
    ensures U.PhoneShape(Trim(b.phone))
    ensures |Trim(b.cpf)| == 11 && AllDigits(Trim(b.cpf))
  {
    V.RegisterAccepted(b, isEmail, normalizeEmail);
    TrimIdempotent(b.name);
    V.PhoneAccepted(b.phone);
    TrimDigits(b.phone);
    V.CpfAccepted(b.cpf);
    TrimDigits(b.cpf);
  }

  /** The handler of `/login`, on the sanitized email. Unknown email and wrong
      password give the same 401; an account stored without a password (no
      handler creates one) makes the hash comparison throw (500); the
      deactivation check comes only after the password check, and the account
      status is never looked at. The login time is then saved, which re-runs
      every validator on the loaded document (500 when one fails). */
  function Login(db: L.Db, email: string, password: string, matches: (string, string) -> bool,
                 emailPattern: string -> bool, now: int): (res: (L.Db, Reply<Account>))
    ensures res.1.Failure? ==> res.0 == db
    ensures L.FindByEmail(db.users, email).None? ==> res.1 == Failure(401, Message(BadCredentials))
    ensures res.1.Success? ==>
              var i := L.FindByEmail(db.users, email).value;
              && db.users[i].password.Some? && matches(password, db.users[i].password.value)
              && db.users[i].isActive
              && U.SchemaValid(db.users[i]) && emailPattern(db.users[i].email)
              && res.0 == db.(users := db.users[i := db.users[i].(lastLogin := Some(now))])
              && res.1 == Success(200, AccountOf(db, i))
    ensures L.FindByEmail(db.users, email).Some? ==>
              var u := db.users[L.FindByEmail(db.users, email).value];
              && (u.password.Some? && !matches(password, u.password.value) ==> res.1 == Failure(401, Message(BadCredentials)))
              && (u.password.Some? && matches(password, u.password.value) && !u.isActive ==> res.1 == Failure(401, Message(M.Deactivated)))
              && (u.password.Some? && matches(password, u.password.value) && u.isActive ==>
                    (res.1.Success? <==> U.SchemaValid(u) && emailPattern(u.email)))
  {
    match L.FindByEmail(db.users, email)
    case None => (db, Failure(401, Message(BadCredentials)))
    case Some(i) =>
      var u := db.users[i];
      if u.password.None? then (db, Failure(500, Message(InternalError)))
      else if !matches(password, u.password.value) then (db, Failure(401, Message(BadCredentials)))
      else if !u.isActive then (db, Failure(401, Message(M.Deactivated)))
      else
        var u' := u.(lastLogin := Some(now));
        if !(U.SchemaValid(u') && emailPattern(u'.email)) then (db, Failure(500, Message(InternalError)))
        else (db.(users := db.users[i := u']), Success(200, AccountOf(db, i)))
  }

  /** The login handler as the source runs it on the store. */
  method PostLogin(s: L.Store, email: string, password: string, matches: (string, string) -> bool,
                   emailPattern: string -> bool, now: int) returns (r: Reply<Account>)
    modifies s
    ensures (s.State(), r) == Login(old(s.State()), email, password, matches, emailPattern, now)
  {
    var found := L.FindByEmail(s.users, email);
    if found.None? {
      return Failure(401, Message(BadCredentials));
    }
    var i := found.value;
    var user := s.users[i];
    if user.password.None? {
      return Failure(500, Message(InternalError));
    }
    if !matches(password, user.password.value) {
      return Failure(401, Message(BadCredentials));
    }
    if !user.isActive {
      return Failure(401, Message(M.Deactivated));
    }
    user := user.(lastLogin := Some(now));
    if !(U.SchemaValid(user) && emailPattern(user.email)) {
      return Failure(500, Message(InternalError));
    }
    s.users := s.users[i := user];
    r := Success(200, Account(i, user.name, user.email, user.credits, user.plan));
  }

  /** Logging in only stamps the login time: balances are untouched. */
  lemma LoginKeepsBalance(db: L.Db, email: string, password: string, matches: (string, string) -> bool,
                          emailPattern: string -> bool, now: int)
    requires L.Balanced(db)
    ensures L.Balanced(Login(db, email, password, matches, emailPattern, now).0)
  {
  }

  /** A suspended or not-yet-set-up account whose password matches logs in. */
  lemma LoginIgnoresAccountStatus(db: L.Db, email: string, password: string, matches: (string, string) -> bool,
                                  emailPattern: string -> bool, now: int)
    requires L.FindByEmail(db.users, email).Some?
    requires var u := db.users[L.FindByEmail(db.users, email).value];
      && u.accountStatus != U.Active && u.isActive
      && u.password.Some? && matches(password, u.password.value)
      && U.SchemaValid(u) && emailPattern(u.email)
    ensures Login(db, email, password, matches, emailPattern, now).1.Success?
  {
  }

  /** A negative balance (which an `$inc` can leave behind, as it skips the
      validators) locks the account out: the login save fails its `min: 0` rule. */
  lemma NegativeBalanceBlocksLogin(db: L.Db, email: string, password: string, matches: (string, string) -> bool,
                                   emailPattern: string -> bool, now: int)
    requires L.FindByEmail(db.users, email).Some?
    requires db.users[L.FindByEmail(db.users, email).value].credits < 0
    ensures Login(db, email, password, matches, emailPattern, now).1.Failure?
  {
  }

  /** The route: `validateLogin` (which normalizes the email), then the handler. */
  function LoginEndpoint(db: L.Db, email: string, password: string, isEmail: string -> bool,
                         normalizeEmail: string -> string, matches: (string, string) -> bool,
                         emailPattern: string -> bool, now: int): (res: (L.Db, Reply<Account>))
    ensures V.LoginErrors(email, password, isEmail) != [] ==>
              res == (db, Failure(400, Invalid(V.LoginErrors(email, password, isEmail))))
    ensures V.LoginErrors(email, password, isEmail) == [] ==>
              res == Login(db, normalizeEmail(email), password, matches, emailPattern, now)
  {
    match V.HandleValidationErrors(V.LoginErrors(email, password, isEmail))
    case Failure(code, e) => (db, Failure(code, e))
    case Success(_, _) => Login(db, normalizeEmail(email), password, matches, emailPattern, now)
  }

  /** A new account is what a lookup by its email finds: the guard made sure no
      earlier account has that email. */
  lemma {:induction false} RegisteredIsFound(db: L.Db, name: string, email: string, password: string, phone: string,
                                             cpf: string, emailPattern: string -> bool)
    requires Register(db, name, email, password, phone, cpf, emailPattern).1.Success?
    ensures L.FindByEmail(Register(db, name, email, password, phone, cpf, emailPattern).0.users, email) == Some(|db.users|)
  {
    var u := Registered(name, email, password, phone, cpf);
    assert u.email == U.CanonicalEmail(email);
    L.FindByEmailAppend(db.users, u, email);
  }

  /** The handler-level round trip: right after a registration, a login with
      the same email and password succeeds on the new account. */
  lemma {:induction false} RegisterThenLoginHandler(db: L.Db, name: string, email: string, password: string, phone: string,
                                                    cpf: string, emailPattern: string -> bool,
                                                    matches: (string, string) -> bool, now: int)
    requires Register(db, name, email, password, phone, cpf, emailPattern).1.Success?
    requires matches(password, password)
    ensures var r := Login(Register(db, name, email, password, phone, cpf, emailPattern).0, email, password, matches, emailPattern, now).1;
      r.Success? && r.value.id == |db.users|
  {
    var db' := Register(db, name, email, password, phone, cpf, emailPattern).0;
    RegisteredIsFound(db, name, email, password, phone, cpf, emailPattern);
    var nu := U.NewUser(name, email, Some(password), phone, cpf);
    U.NormalizedPhoneKeepsShape(nu.phone);
    assert db'.users[|db.users|] == Registered(name, email, password, phone, cpf);
    assert U.SchemaValid(Registered(name, email, password, phone, cpf));
  }

  /** Registering and then logging in with the same email and password reaches
      the new account, provided the hash comparison accepts the password it was
      made from. */
  lemma RegisterThenLogin(db: L.Db, b: V.RegisterBody, isEmail: string -> bool,
                          normalizeEmail: string -> string, matches: (string, string) -> bool,
                          emailPattern: string -> bool, now: int)
    requires RegisterEndpoint(db, b, isEmail, normalizeEmail, emailPattern).1.Success?
    requires matches(b.password, b.password)
    ensures var db' := RegisterEndpoint(db, b, isEmail, normalizeEmail, emailPattern).0;
      var r := LoginEndpoint(db', b.email, b.password, isEmail, normalizeEmail, matches, emailPattern, now).1;
      r.Success? && r.value.id == |db.users|
  {
    V.RegisterAccepted(b, isEmail, normalizeEmail);
    RegisterThenLoginHandler(db, Trim(b.name), normalizeEmail(b.email), b.password, b.phone, b.cpf, emailPattern, matches, now);
  }

  // ---------------------------------------------------------------- profile

  const PreferenceKeys: set<string> := {"notifications", "emailMarketing"}

  /** `{ ...req.user.preferences, ...preferences }`, cast by the schema: keys the
      schema does not declare are dropped. */
  function MergePreferences(current: U.Preferences, given: U.Preferences): (r: U.Preferences)
    ensures r.Keys <= PreferenceKeys
    ensures forall k :: k in given && k in PreferenceKeys ==> k in r && r[k] == given[k]
    ensures forall k :: k in current && k !in given && k in PreferenceKeys ==> k in r && r[k] == current[k]
    ensures forall k :: k in r ==> k in current || k in given
  {
    map k | k in (current.Keys + given.Keys) * PreferenceKeys :: if k in given then given[k] else current[k]
  }

  /** The profile (and settings) update: only the fields present in the body are
      written, through `findByIdAndUpdate` with update validators. The trim
      setter applies, and the validators check the written name (2 to 50
      characters) and phone (10 or 11 digits); a failure is a 500. The save hook
      does not run, so the phone is stored without the area-code rewrite. */
  function UpdateProfile(db: L.Db, caller: nat, name: Option<string>, phone: Option<string>,
                         preferences: Option<U.Preferences>): (res: (L.Db, Reply<U.User>))
    requires caller < |db.users|
    ensures res.1.Failure? ==> res.0 == db && res.1.code == 500
    ensures res.1.Success? <==>
              && (name.Some? ==> 2 <= |Trim(name.value)| <= 50)
              && (phone.Some? ==> U.PhoneShape(Trim(phone.value)))
    ensures res.1.Success? ==>
              var current := db.users[caller];
              var u := res.1.value;
              && res.0 == db.(users := db.users[caller := u])
              && u.name == (if name.Some? then Trim(name.value) else current.name)
              && u.phone == (if phone.Some? then Trim(phone.value) else current.phone)
              && u.preferences == (if preferences.Some? then MergePreferences(current.preferences, preferences.value) else current.preferences)
              && u == current.(name := u.name, phone := u.phone, preferences := u.preferences)
  {
    var current := db.users[caller];
    if name.Some? && !(2 <= |Trim(name.value)| <= 50) then (db, Failure(500, Message(InternalError)))
    else if phone.Some? && !U.PhoneShape(Trim(phone.value)) then (db, Failure(500, Message(InternalError)))
    else
      var u := current.(name := if name.Some? then Trim(name.value) else current.name,
                    phone := if phone.Some? then Trim(phone.value) else current.phone,
                    preferences := if preferences.Some? then MergePreferences(current.preferences, preferences.value) else current.preferences);
      (db.(users := db.users[caller := u]), Success(200, u))
  }

  /** The profile handler as the source runs it: the update is built field by
      field from what the body defines, then applied to the caller's document. */
  method PutProfile(s: L.Store, caller: nat, name: Option<string>, phone: Option<string>,
                    preferences: Option<U.Preferences>) returns (r: Reply<U.User>)
    requires caller < |s.users|
    modifies s
    ensures (s.State(), r) == UpdateProfile(old(s.State()), caller, name, phone, preferences)
  {
    var user := s.users[caller];
    if name.Some? {
      var trimmed := Trim(name.value);
      if !(2 <= |trimmed| <= 50) {
        return Failure(500, Message(InternalError));
      }
      user := user.(name := trimmed);
    }
    if phone.Some? {
      var trimmed := Trim(phone.value);
      if !U.PhoneShape(trimmed) {
        return Failure(500, Message(InternalError));
      }
      user := user.(phone := trimmed);
    }
    if preferences.Some? {
      user := user.(preferences := MergePreferences(user.preferences, preferences.value));
    }
    s.users := s.users[caller := user];
    r := Success(200, user);
  }

  /** A profile update never touches a balance, an email or a CPF, so it keeps
      the ledger balanced and the unique indexes intact. */
  lemma UpdateProfileKeepsInvariants(db: L.Db, caller: nat, name: Option<string>, phone: Option<string>,
                                     preferences: Option<U.Preferences>)
    requires caller < |db.users| && L.Balanced(db) && L.Wf(db)
    ensures var db' := UpdateProfile(db, caller, name, phone, preferences).0;
      L.Balanced(db') && L.Wf(db')
  {
  }

  /** The update keeps an eleven-digit phone from another state as given, while a
      registration with the same phone stores it with the ninth digit dropped. */
  lemma UpdateSkipsPhoneRewrite(db: L.Db, caller: nat)
    requires caller < |db.users|
    ensures var r := UpdateProfile(db, caller, None, Some("62998448536"), None).1;
      r.Success? && r.value.phone == "62998448536"
    ensures U.NormalizePhone("62998448536") == "6298448536"
  {
    var p := "62998448536";
    assert AllDigits(p) by {
      forall i | 0 <= i < |p| ensures IsDigit(p[i]) { }
    }
    TrimDigits(p);
    assert U.PhoneShape(Trim(p));
    U.PhoneVectorDDD62("62998448536");
  }
}

=== FILE: common.dfy ===
/** Values shared by every part of the model: optional values, HTTP replies,
    JavaScript truthiness and the character classes the validators use. */
module Common {

  datatype Option<T> = None | Some(value: T)

  /** One entry of the `details` list of a 400 reply. */
  datatype FieldError = FieldError(field: string, message: string)

  /** The JSON body of an error reply. */
  datatype ErrorBody =
    | Message(text: string)
    | Insufficient(required: int, available: int)
    | WrongPlan(requiredPlan: string, current: string)
    | Invalid(details: seq<FieldError>)

  /** An HTTP reply: a 2xx status with the handler's payload, or an error status with its body. */
  datatype Reply<T> = Success(code: int, value: T) | Failure(code: int, error: ErrorBody)

  const InternalError := "Erro interno do servidor"

  /** A request-body value where a handler applies JavaScript truthiness (`Boolean(x)`). */
  datatype Json = JNull | JBool(b: bool) | JNum(n: int) | JStr(s: string)

  /** `Boolean(x)` for an absent (undefined) or present value. */
  predicate Truthy(v: Option<Json>)
  {
    match v
    case None => false
    case Some(JNull) => false
    case Some(JBool(b)) => b
    case Some(JNum(n)) => n != 0
    case Some(JStr(s)) => s != ""
  }

  /** A string field that is present and non-empty, i.e. truthy in JavaScript. */
  predicate Present(s: Option<string>)
  {
    s.Some? && s.value != ""
  }

  /** `s || fallback` for an optional string field. */
  function OrElse(s: Option<string>, fallback: string): (r: string)
    ensures Present(s) ==> r == s.value
    ensures !Present(s) ==> r == fallback
  {
    if Present(s) then s.value else fallback
  }

  predicate IsDigit(c: char)
  {
    '0' <= c <= '9'
  }

  predicate AllDigits(s: string)
  {
    forall i :: 0 <= i < |s| ==> IsDigit(s[i])
  }

  function DigitValue(c: char): (d: nat)
    requires IsDigit(c)
    ensures d < 10
  {
    (c as int) - ('0' as int)
  }

  /** The characters matched by `\s` in a JavaScript regular expression. */
  predicate IsSpace(c: char)
  {
    c == ' ' || c == '\t' || c == '\n' || c == '\r' || c == '\U{000B}' || c == '\U{000C}'
    || c == '\U{00A0}' || c == '\U{1680}' || ('\U{2000}' <= c <= '\U{200A}')
    || c == '\U{2028}' || c == '\U{2029}' || c == '\U{202F}' || c == '\U{205F}'
    || c == '\U{3000}' || c == '\U{FEFF}'
  }

  function TrimStart(s: string): (r: string)
    ensures |r| <= |s| && r == s[|s| - |r|..]
    ensures r != [] ==> !IsSpace(r[0])
    ensures forall i :: 0 <= i < |s| - |r| ==> IsSpace(s[i])
  {
    if s != [] && IsSpace(s[0]) then TrimStart(s[1..]) else s
  }

  function TrimEnd(s: string): (r: string)
    ensures |r| <= |s| && r == s[..|r|]
    ensures r != [] ==> !IsSpace(r[|r| - 1])
    ensures forall i :: |r| <= i < |s| ==> IsSpace(s[i])
  {
    if s != [] && IsSpace(s[|s| - 1]) then TrimEnd(s[..|s| - 1]) else s
  }

  /** `String.prototype.trim` (and the schemas' `trim: true` setter). */
  function Trim(s: string): (r: string)
    ensures |r| <= |s|
    ensures r != [] ==> !IsSpace(r[0]) && !IsSpace(r[|r| - 1])
  {
    TrimEnd(TrimStart(s))
  }

  /** A string without leading or trailing white space is its own trim. */
  lemma TrimUnchanged(s: string)
    requires s != [] ==> !IsSpace(s[0]) && !IsSpace(s[|s| - 1])
    ensures Trim(s) == s
  {
    assert TrimStart(s) == s;
  }

  /** Trimming twice is trimming once. */
  lemma TrimIdempotent(s: string)
    ensures Trim(Trim(s)) == Trim(s)
  {
    TrimUnchanged(Trim(s));
  }

  /** A digit string has nothing to trim. */
  lemma TrimDigits(s: string)
    requires AllDigits(s)
    ensures Trim(s) == s
  {
    TrimUnchanged(s);
  }

  function LowerChar(c: char): (d: char)
    ensures !('A' <= d <= 'Z')
  {
    if 'A' <= c <= 'Z' then (c as int + 32) as char else c
  }

  /** The schemas' `lowercase: true` setter, on ASCII letters. */
  function Lower(s: string): (r: string)
    ensures |r| == |s|
    ensures forall i :: 0 <= i < |s| ==> r[i] == LowerChar(s[i])
  {
    if s == [] then [] else [LowerChar(s[0])] + Lower(s[1..])
  }

  function Min(a: int, b: int): int
  {
    if a <= b then a else b
  }

  function Abs(a: int): nat
  {
    if a < 0 then -a else a
  }

  /** `idx` lists, in increasing order, positions of `s` that hold the elements
      of `r` one by one. */
  ghost predicate PositionsOf<X>(idx: seq<nat>, r: seq<X>, s: seq<X>)
  {
    && |idx| == |r|
    && (forall i :: 0 <= i < |idx| ==> idx[i] < |s| && s[idx[i]] == r[i])
    && (forall i, j :: 0 <= i < j < |idx| ==> idx[i] < idx[j])
  }

  /** `r` is `s` with some elements left out and the others kept in order. */
  ghost predicate Subsequence<X>(r: seq<X>, s: seq<X>)
  {
    exists idx: seq<nat> :: PositionsOf(idx, r, s)
  }

  /** Appending one element to `s`, and possibly to `r`, keeps `r` a
      subsequence. */
  lemma SubsequenceGrow<X>(r: seq<X>, s: seq<X>, x: X, keep: bool)
    requires Subsequence(r, s)
    ensures Subsequence(r + (if keep then [x] else []), s + [x])
  {
    var idx: seq<nat> :| PositionsOf(idx, r, s);
    var idx' := idx + (if keep then [|s|] else []);
    assert PositionsOf(idx', r + (if keep then [x] else []), s + [x]);
  }

  /** The elements satisfying `p`, in their original order and each as often as
      it occurs: a query filter. */
  function Filter<X(!new)>(s: seq<X>, p: X -> bool): (r: seq<X>)
    ensures |r| <= |s|
    ensures forall i :: 0 <= i < |r| ==> p(r[i])
    ensures forall x :: x in r <==> x in s && p(x)
    ensures forall x :: multiset(r)[x] == if p(x) then multiset(s)[x] else 0
    ensures Subsequence(r, s)
  {
    if s == [] then
      assert PositionsOf([], [], s);
      []
    else
      var n := |s| - 1;
      var front := Filter(s[..n], p);
      FilterStep(s, p, front);
      front + (if p(s[n]) then [s[n]] else [])
  }

  /** One step of `Filter`: the kept prefix of all but the last element, and the
      last element when it is kept. */
  lemma FilterStep<X>(s: seq<X>, p: X -> bool, front: seq<X>)
    requires s != []
    requires |front| <= |s| - 1
    requires forall i :: 0 <= i < |front| ==> p(front[i])
    requires forall x :: x in front <==> x in s[..|s| - 1] && p(x)
    requires forall x :: multiset(front)[x] == if p(x) then multiset(s[..|s| - 1])[x] else 0
    requires Subsequence(front, s[..|s| - 1])
    ensures var r := front + (if p(s[|s| - 1]) then [s[|s| - 1]] else []);
      && |r| <= |s|
      && (forall i :: 0 <= i < |r| ==> p(r[i]))
      && (forall x :: x in r <==> x in s && p(x))
      && (forall x :: multiset(r)[x] == if p(x) then multiset(s)[x] else 0)
      && Subsequence(r, s)
  {
    var n := |s| - 1;
    assert s == s[..n] + [s[n]];
    SubsequenceGrow(front, s[..n], s[n], p(s[n]));
  }

  /** The sequence back to front: `sort({ createdAt: -1 })` over documents kept in
      insertion order. */
  function Reverse<X>(s: seq<X>): (r: seq<X>)
    ensures |r| == |s|
    ensures forall i :: 0 <= i < |s| ==> r[i] == s[|s| - 1 - i]
  {
    if s == [] then [] else Reverse(s[1..]) + [s[0]]
  }
}

=== FILE: credit_transaction.dfy ===
/** The ledger row (`CreditTransaction` collection): its enums and fields. */
module CreditTransactionModel {
  import opened Common

  /** `type`, required, one of four kinds. */
  datatype TxType = Purchase | Usage | Refund | Bonus

  /** `status`, defaulting to `pending`. */
  datatype TxStatus = Pending | Completed | Failed | Refunded

  /** `plan`, optional. */
  datatype TxPlan = Basic | Complete | CreditsPack

  const DefaultStatus: TxStatus := Pending

  /** A ledger row. `amount` is signed with no bound (usage rows are negative);
      `paymentId` is sparse and NOT unique; `description` and `metadata` are free
      text and not modelled. */
  datatype CreditTransaction = CreditTransaction(
    user: nat,
    txType: TxType,
    amount: int,
    plan: Option<TxPlan>,
    paymentId: Option<string>,
    analysisId: Option<nat>,
    status: TxStatus)

  function TxTypeName(t: TxType): string
  {
    match t
    case Purchase => "purchase"
    case Usage => "usage"
    case Refund => "refund"
    case Bonus => "bonus"
  }

  function TxStatusName(s: TxStatus): string
  {
    match s
    case Pending => "pending"
    case Completed => "completed"
    case Failed => "failed"
    case Refunded => "refunded"
  }

  function TxPlanName(p: TxPlan): string
  {
    match p
    case Basic => "basic"
    case Complete => "complete"
    case CreditsPack => "credits_pack"
  }

  /** The enum validator on `status`: a string is storable exactly when it names one
      of the four statuses, and then it is stored as that status. */
  function ParseTxStatus(s: string): (r: Option<TxStatus>)
    ensures r.Some? ==> TxStatusName(r.value) == s
    ensures r.None? ==> forall t: TxStatus :: TxStatusName(t) != s
  {
    if s == "pending" then Some(Pending)
    else if s == "completed" then Some(Completed)
    else if s == "failed" then Some(Failed)
    else if s == "refunded" then Some(Refunded)
    else None
  }

  /** The enum validator on `type`. */
  function ParseTxType(s: string): (r: Option<TxType>)
    ensures r.Some? ==> TxTypeName(r.value) == s
    ensures r.None? ==> forall t: TxType :: TxTypeName(t) != s
  {
    if s == "purchase" then Some(Purchase)
    else if s == "usage" then Some(Usage)
    else if s == "refund" then Some(Refund)
    else if s == "bonus" then Some(Bonus)
    else None
  }

  lemma TxStatusNamesRoundTrip(t: TxStatus)
    ensures ParseTxStatus(TxStatusName(t)) == Some(t)
  {
  }
}

=== FILE: credits_route.dfy ===
/** `GET /api/credits` (balance and paginated ledger), `POST /api/credits/purchase`
    (a pending purchase row) and `GET /api/credits/history` (filtered ledger with
    per-type totals). */
module CreditsRoute {
  import opened Common
  import U = UserModel
  import T = CreditTransactionModel
  import P = PlanModel
  import L = Ledger
  import Paging

  const PlanNotFound := "Plano não encontrado"

  // ---------------------------------------------------------------- purchase

  function TxPlanOf(t: P.PlanType): (r: T.TxPlan)
    ensures T.TxPlanName(r) == P.PlanTypeName(t)
  {
    match t
    case Basic => T.Basic
    case Complete => T.Complete
    case CreditsPack => T.CreditsPack
  }

  datatype PurchaseStarted = PurchaseStarted(transactionId: nat, planId: nat, credits: int)

  /** The pending row a purchase creates: the plan's credits and type, no payment id. */
  function PendingPurchase(caller: nat, plan: P.Plan): T.CreditTransaction
  {
    T.CreditTransaction(caller, T.Purchase, plan.credits, Some(TxPlanOf(plan.planType)), None, None, T.Pending)
  }

  /** The purchase handler: 404 for a missing or inactive plan (nothing written),
      otherwise one pending purchase row for the caller. */
  function Purchase(db: L.Db, caller: nat, planId: nat): (res: (L.Db, Reply<PurchaseStarted>))
    ensures res.1.Success? <==> planId < |db.plans| && db.plans[planId].isActive
    ensures res.1.Failure? ==> res == (db, Failure(404, Message(PlanNotFound)))
    ensures res.1.Success? ==>
              && res.0 == db.(txs := db.txs + [PendingPurchase(caller, db.plans[planId])])
              && res.1.value == PurchaseStarted(|db.txs|, planId, db.plans[planId].credits)
  {
    if planId >= |db.plans| || !db.plans[planId].isActive then (db, Failure(404, Message(PlanNotFound)))
    else
      var plan := db.plans[planId];
      (db.(txs := db.txs + [PendingPurchase(caller, plan)]), Success(200, PurchaseStarted(|db.txs|, planId, plan.credits)))
  }

  /** The new row is a pending purchase of the plan's credits and type; it
      changes no balance and, having no payment id, is never what a payment
      notification finds. */
  lemma {:induction false} PurchaseIsInert(db: L.Db, caller: nat, planId: nat, paymentId: string)
    requires L.Balanced(db)
    requires Purchase(db, caller, planId).1.Success?
    ensures var db' := Purchase(db, caller, planId).0;
      var row := db'.txs[|db.txs|];
      && db'.users == db.users
      && row.user == caller && row.txType == T.Purchase && row.status == T.Pending
      && row.amount == db.plans[planId].credits
      && T.TxPlanName(row.plan.value) == P.PlanTypeName(db.plans[planId].planType)
      && L.Balanced(db')
      && L.FindPayment(db'.txs, paymentId) == L.FindPayment(db.txs, paymentId)
  {
    var db' := Purchase(db, caller, planId).0;
    var row := PendingPurchase(caller, db.plans[planId]);
    forall u | 0 <= u < |db'.users|
      ensures db'.users[u].credits == L.LedgerSum(db'.txs, u)
    {
      L.LedgerSumAppend(db.txs, row, u);
    }
    assert forall k :: 0 <= k < |db.txs| ==> db'.txs[k] == db.txs[k];
    match L.FindPayment(db.txs, paymentId)
    case None =>
    case Some(i) =>
      assert db'.txs[i] == db.txs[i];
  }

  /** The handler as the source runs it. */
  method PostPurchase(s: L.Store, caller: nat, planId: nat) returns (r: Reply<PurchaseStarted>)
    modifies s
    ensures (s.State(), r) == Purchase(old(s.State()), caller, planId)
  {
    if planId >= |s.plans| || !s.plans[planId].isActive {
      return Failure(404, Message(PlanNotFound));
    }
    var plan := s.plans[planId];
    r := Success(200, PurchaseStarted(|s.txs|, planId, plan.credits));
    s.txs := s.txs + [PendingPurchase(caller, plan)];
  }

  // ---------------------------------------------------------------- history

  /** The four totals of the history reply. */
  datatype Stats = Stats(totalPurchased: int, totalUsed: int, totalRefunded: int, totalBonus: int)

  /** What one row adds to the totals: a purchase only when completed, a usage row
      its absolute amount and refund and bonus rows their amount, whatever their
      status. */
  function Tally(st: Stats, row: T.CreditTransaction): Stats
  {
    if row.txType == T.Purchase && row.status == T.Completed then st.(totalPurchased := st.totalPurchased + row.amount)
    else if row.txType == T.Usage then st.(totalUsed := st.totalUsed + Abs(row.amount))
    else if row.txType == T.Refund then st.(totalRefunded := st.totalRefunded + row.amount)
    else if row.txType == T.Bonus then st.(totalBonus := st.totalBonus + row.amount)
    else st
  }

  /** The totals over a list of rows, accumulated in list order. */
  function StatsOf(rows: seq<T.CreditTransaction>): Stats
  {
    if rows == [] then Stats(0, 0, 0, 0) else Tally(StatsOf(rows[..|rows| - 1]), rows[|rows| - 1])
  }

  /** The balance the totals imply. */
  function Net(st: Stats): int
  {
    st.totalPurchased - st.totalUsed + st.totalRefunded + st.totalBonus
  }

  /** `totalUsed` never decreases: it sums absolute values. */
  lemma {:induction false} TotalUsedNonNegative(rows: seq<T.CreditTransaction>)
    ensures StatsOf(rows).totalUsed >= 0
  {
    if rows != [] {
      TotalUsedNonNegative(rows[..|rows| - 1]);
    }
  }

  /** A purchase that is not completed counts towards no total, while usage,
      refund and bonus rows count whatever their status. */
  lemma TallyByStatus(st: Stats, row: T.CreditTransaction)
    ensures row.txType == T.Purchase && row.status != T.Completed ==> Tally(st, row) == st
    ensures row.txType == T.Usage ==> Tally(st, row) == st.(totalUsed := st.totalUsed + Abs(row.amount))
    ensures row.txType == T.Refund ==> Tally(st, row) == st.(totalRefunded := st.totalRefunded + row.amount)
    ensures row.txType == T.Bonus ==> Tally(st, row) == st.(totalBonus := st.totalBonus + row.amount)
  {
  }

  /** The totals agree with the ledger sum of one user's rows when every
      non-purchase row is completed and usage rows are debits (as the handlers
      write them). */
  lemma {:induction false} StatsNetIsLedgerSum(rows: seq<T.CreditTransaction>, u: nat)
    requires forall i :: 0 <= i < |rows| ==> rows[i].user == u
    requires forall i :: 0 <= i < |rows| ==> rows[i].txType != T.Purchase ==> rows[i].status == T.Completed
    requires forall i :: 0 <= i < |rows| ==> rows[i].txType == T.Usage ==> rows[i].amount <= 0
    ensures Net(StatsOf(rows)) == L.LedgerSum(rows, u)
  {
    if rows != [] {
      StatsNetIsLedgerSum(rows[..|rows| - 1], u);
    }
  }

  /** The history query's filter: the user, and the type and status when given
      (an empty filter string is no filter; a value that names no enum member
      matches nothing). */
  predicate HistoryMatch(x: T.CreditTransaction, u: nat, typeFilter: Option<string>, statusFilter: Option<string>)
  {
    && x.user == u
    && (Present(typeFilter) ==> T.TxTypeName(x.txType) == typeFilter.value)
    && (Present(statusFilter) ==> T.TxStatusName(x.status) == statusFilter.value)
  }

  function Matching(txs: seq<T.CreditTransaction>, u: nat, typeFilter: Option<string>, statusFilter: Option<string>): seq<T.CreditTransaction>
  {
    Filter(txs, (x: T.CreditTransaction) => HistoryMatch(x, u, typeFilter, statusFilter))
  }

  /** The matching rows, newest first, at most 100 of them: the newest 100 when
      more match. */
  function HistoryRows(txs: seq<T.CreditTransaction>, u: nat, typeFilter: Option<string>, statusFilter: Option<string>): (r: seq<T.CreditTransaction>)
    ensures var m := Matching(txs, u, typeFilter, statusFilter);
      && |r| == Min(100, |m|)
      && forall i :: 0 <= i < |r| ==> r[i] == m[|m| - 1 - i]
    ensures forall i :: 0 <= i < |r| ==> r[i] in txs && HistoryMatch(r[i], u, typeFilter, statusFilter)
    ensures forall x :: x in txs && HistoryMatch(x, u, typeFilter, statusFilter) && |Matching(txs, u, typeFilter, statusFilter)| <= 100 ==> x in r
  {
    var m := Matching(txs, u, typeFilter, statusFilter);
    NewestMembers(m, 100);
    Reverse(m)[..Min(100, |m|)]
  }

  /** The first `n` of a sequence read back to front are its elements, and all of
      them when it holds at most `n`. */
  lemma NewestMembers<X>(m: seq<X>, n: nat)
    ensures forall i :: 0 <= i < Min(n, |m|) ==> Reverse(m)[i] in m
    ensures |m| <= n ==> forall x :: x in m ==> x in Reverse(m)[..|m|]
  {
    if |m| <= n {
      forall x | x in m
        ensures x in Reverse(m)[..|m|]
      {
        var k :| 0 <= k < |m| && m[k] == x;
        assert Reverse(m)[..|m|][|m| - 1 - k] == x;
      }
    }
  }

  /** The history handler: the rows, then the totals accumulated over them one by
      one. */
  method History(db: L.Db, caller: nat, typeFilter: Option<string>, statusFilter: Option<string>)
      returns (rows: seq<T.CreditTransaction>, stats: Stats)
    ensures rows == HistoryRows(db.txs, caller, typeFilter, statusFilter)
    ensures stats == StatsOf(rows)
  {
    rows := HistoryRows(db.txs, caller, typeFilter, statusFilter);
    stats := Totals(rows);
  }

  /** The `forEach` over the returned rows that accumulates the totals. */
  method Totals(rows: seq<T.CreditTransaction>) returns (stats: Stats)
    ensures stats == StatsOf(rows)
  {
    stats := Stats(0, 0, 0, 0);
    for i := 0 to |rows|
      invariant stats == StatsOf(rows[..i])
    {
      assert rows[..i + 1][..i] == rows[..i];
      var row := rows[i];
      if row.txType == T.Purchase && row.status == T.Completed {
        stats := stats.(totalPurchased := stats.totalPurchased + row.amount);
      } else if row.txType == T.Usage {
        stats := stats.(totalUsed := stats.totalUsed + Abs(row.amount));
      } else if row.txType == T.Refund {
        stats := stats.(totalRefunded := stats.totalRefunded + row.amount);
      } else if row.txType == T.Bonus {
        stats := stats.(totalBonus := stats.totalBonus + row.amount);
      }
    }
    assert rows[..|rows|] == rows;
  }

  lemma {:induction false} LedgerSumCons(row: T.CreditTransaction, rest: seq<T.CreditTransaction>, u: nat)
    ensures L.LedgerSum([row] + rest, u) == L.Contribution(row, u) + L.LedgerSum(rest, u)
    decreases |rest|
  {
    if rest == [] {
      assert ([row] + rest)[..0] == [];
    } else {
      var n := |rest| - 1;
      assert ([row] + rest)[..n + 1] == [row] + rest[..n];
      LedgerSumCons(row, rest[..n], u);
    }
  }

  lemma {:induction false} LedgerSumReverse(txs: seq<T.CreditTransaction>, u: nat)
    ensures L.LedgerSum(Reverse(txs), u) == L.LedgerSum(txs, u)
    decreases |txs|
  {
    if txs != [] {
      LedgerSumReverse(txs[1..], u);
      L.LedgerSumAppend(Reverse(txs[1..]), txs[0], u);
      LedgerSumCons(txs[0], txs[1..], u);
      assert [txs[0]] + txs[1..] == txs;
    }
  }

  /** Without filters the history query is the user's rows. */
  lemma {:induction false} UnfilteredIsRowsOf(txs: seq<T.CreditTransaction>, u: nat)
    ensures Matching(txs, u, None, None) == L.RowsOf(txs, u)
    decreases |txs|
  {
    if txs != [] {
      UnfilteredIsRowsOf(txs[..|txs| - 1], u);
    }
  }

  /** With no filters and at most 100 rows, the history totals of a balanced
      account add up to its balance, provided every non-purchase row is completed
      and usage rows are debits. */
  lemma HistoryMatchesBalance(db: L.Db, u: nat)
    requires L.Balanced(db) && u < |db.users|
    requires |L.RowsOf(db.txs, u)| <= 100
    requires forall i :: 0 <= i < |db.txs| ==> db.txs[i].txType != T.Purchase ==> db.txs[i].status == T.Completed
    requires forall i :: 0 <= i < |db.txs| ==> db.txs[i].txType == T.Usage ==> db.txs[i].amount <= 0
    ensures Net(StatsOf(HistoryRows(db.txs, u, None, None))) == db.users[u].credits
  {
    var own := L.RowsOf(db.txs, u);
    UnfilteredIsRowsOf(db.txs, u);
    var rows := HistoryRows(db.txs, u, None, None);
    assert rows == Reverse(own);
    forall i | 0 <= i < |rows|
      ensures rows[i].user == u
      ensures rows[i].txType != T.Purchase ==> rows[i].status == T.Completed
      ensures rows[i].txType == T.Usage ==> rows[i].amount <= 0
    {
      assert rows[i] in db.txs;
    }
    StatsNetIsLedgerSum(rows, u);
    LedgerSumReverse(own, u);
    L.LedgerSumRowsOf(db.txs, u);
  }

  // ---------------------------------------------------------------- balance page

  /** The balance reply: the caller's balance and plan with one page of their rows,
      newest first. */
  datatype CreditsView = CreditsView(credits: int, plan: U.UserPlan, page: Paging.Page<T.CreditTransaction>)

  /** `GET /api/credits`: page defaults to 1 and limit to 20; the page is taken
      from the caller's rows, newest first. */
  function Credits(db: L.Db, caller: nat, page: Option<int>, limit: Option<int>): (r: Reply<CreditsView>)
    requires caller < |db.users|
    ensures var p := if page.Some? then page.value else 1;
      var l := if limit.Some? then limit.value else 20;
      var rows := Reverse(L.RowsOf(db.txs, caller));
      && (r.Success? <==> Paging.Skip(p, l) >= 0)
      && (r.Success? ==>
            && r.value.credits == db.users[caller].credits
            && r.value.page.total == |rows|
            && r.value.page.items == Paging.Window(rows, Paging.Skip(p, l), l)
            && r.value.page.pages == Paging.PageCount(|rows|, l))
  {
    var p := if page.Some? then page.value else 1;
    var l := if limit.Some? then limit.value else 20;
    var rows := Reverse(L.RowsOf(db.txs, caller));
    match Paging.Paginate(rows, p, l)
    case Failure(code, e) => Failure(code, e)
    case Success(code, pg) => Success(code, CreditsView(db.users[caller].credits, db.users[caller].plan, pg))
  }

  /** With the defaults the reply is the caller's 20 newest rows, all of them the
      caller's. */
  lemma CreditsDefaults(db: L.Db, caller: nat)
    requires caller < |db.users|
    ensures var r := Credits(db, caller, None, None);
      && r.Success?
      && |r.value.page.items| <= 20
      && (forall i :: 0 <= i < |r.value.page.items| ==> r.value.page.items[i].user == caller)
      && r.value.page.pages.Some?
  {
    var rows := Reverse(L.RowsOf(db.txs, caller));
    var w := Paging.Window(rows, 0, 20);
    forall i | 0 <= i < |w|
      ensures w[i].user == caller
    {
      assert w[i] == rows[i];
    }
  }
}

=== FILE: ledger.dfy ===
/** The database the route handlers share: the User, Analysis, CreditTransaction
    and Plan collections. Documents are never hard-deleted, so each collection is
    a sequence and a document's id is its position; a new document gets the next
    position. The central bookkeeping notion lives here: a user's balance against
    the sum of that user's completed ledger rows. */
module Ledger {
  import opened Common
  import U = UserModel
  import A = AnalysisModel
  import T = CreditTransactionModel
  import P = PlanModel

  datatype Db = Db(
    users: seq<U.User>,
    analyses: seq<A.Analysis>,
    txs: seq<T.CreditTransaction>,
    plans: seq<P.Plan>)

  /** What one ledger row adds to user `u`'s balance: its amount when the row is
      that user's and completed, nothing otherwise. */
  function Contribution(row: T.CreditTransaction, u: nat): int
  {
    if row.user == u && row.status == T.Completed then row.amount else 0
  }

  /** The sum of the completed amounts of user `u`'s rows. */
  function LedgerSum(txs: seq<T.CreditTransaction>, u: nat): int
  {
    if txs == [] then 0 else LedgerSum(txs[..|txs| - 1], u) + Contribution(txs[|txs| - 1], u)
  }

  /** Every user's balance equals the sum of that user's completed rows. */
  predicate Balanced(db: Db)
  {
    forall u :: 0 <= u < |db.users| ==> db.users[u].credits == LedgerSum(db.txs, u)
  }

  /** The references and unique indexes the handlers rely on: every analysis and
      row belongs to an existing user, a row's analysis exists, stored analyses
      passed validation and a public one carries its share token, no two users
      share an email or a CPF, and the plan catalogue is valid. */
  predicate Wf(db: Db)
  {
    && (forall i :: 0 <= i < |db.analyses| ==>
          && db.analyses[i].user < |db.users|
          && A.SchemaValid(db.analyses[i])
          && (db.analyses[i].isPublic ==> db.analyses[i].shareToken.Some?))
    && (forall i :: 0 <= i < |db.txs| ==>
          && db.txs[i].user < |db.users|
          && (db.txs[i].analysisId.Some? ==> db.txs[i].analysisId.value < |db.analyses|))
    && (forall i, j :: 0 <= i < j < |db.users| ==>
          db.users[i].email != db.users[j].email && db.users[i].cpf != db.users[j].cpf)
    && P.CatalogValid(db.plans)
  }

  /** Appending a row adds exactly its contribution. */
  lemma LedgerSumAppend(txs: seq<T.CreditTransaction>, row: T.CreditTransaction, u: nat)
    ensures LedgerSum(txs + [row], u) == LedgerSum(txs, u) + Contribution(row, u)
  {
    assert (txs + [row])[..|txs|] == txs;
  }

  /** Rewriting row `i` swaps its old contribution for the new one. */
  lemma {:induction false} LedgerSumUpdate(txs: seq<T.CreditTransaction>, i: nat, row: T.CreditTransaction, u: nat)
    requires i < |txs|
    ensures LedgerSum(txs[i := row], u) == LedgerSum(txs, u) - Contribution(txs[i], u) + Contribution(row, u)
    decreases |txs|
  {
    var n := |txs| - 1;
    if i == n {
      assert txs[i := row][..n] == txs[..n];
    } else {
      assert txs[i := row][..n] == txs[..n][i := row];
      LedgerSumUpdate(txs[..n], i, row, u);
    }
  }

  /** Rows of other users never count towards `u`. */
  lemma {:induction false} LedgerSumOthers(txs: seq<T.CreditTransaction>, u: nat)
    requires forall i :: 0 <= i < |txs| ==> txs[i].user != u
    ensures LedgerSum(txs, u) == 0
    decreases |txs|
  {
    if txs != [] {
      LedgerSumOthers(txs[..|txs| - 1], u);
    }
  }

  /** A new user with no rows and a zero balance keeps the database balanced. */
  lemma BalancedAddUser(db: Db, user: U.User)
    requires Balanced(db) && user.credits == 0
    requires forall i :: 0 <= i < |db.txs| ==> db.txs[i].user < |db.users|
    ensures Balanced(db.(users := db.users + [user]))
  {
    LedgerSumOthers(db.txs, |db.users|);
  }

  /** `find({ user: u })`: user `u`'s rows in insertion order. */
  function RowsOf(txs: seq<T.CreditTransaction>, u: nat): (r: seq<T.CreditTransaction>)
    ensures |r| <= |txs|
    ensures forall i :: 0 <= i < |r| ==> r[i] in txs && r[i].user == u
    ensures forall x :: x in txs && x.user == u ==> x in r
    ensures forall x :: multiset(r)[x] == if x.user == u then multiset(txs)[x] else 0
    ensures Subsequence(r, txs)
  {
    Filter(txs, (x: T.CreditTransaction) => x.user == u)
  }

  /** A user's balance only depends on that user's rows. */
  lemma {:induction false} LedgerSumRowsOf(txs: seq<T.CreditTransaction>, u: nat)
    ensures LedgerSum(RowsOf(txs, u), u) == LedgerSum(txs, u)
    decreases |txs|
  {
    if txs != [] {
      var n := |txs| - 1;
      LedgerSumRowsOf(txs[..n], u);
      if txs[n].user == u {
        assert RowsOf(txs, u) == RowsOf(txs[..n], u) + [txs[n]];
        LedgerSumAppend(RowsOf(txs[..n], u), txs[n], u);
      } else {
        assert RowsOf(txs, u) == RowsOf(txs[..n], u);
      }
    }
  }

  /** The position of the first element satisfying `p`, in insertion order: a
      `findOne` query. */
  function FirstIndex<X>(s: seq<X>, p: X -> bool): (r: Option<nat>)
    ensures r.Some? ==> r.value < |s| && p(s[r.value]) && forall k :: 0 <= k < r.value ==> !p(s[k])
    ensures r.None? ==> forall k :: 0 <= k < |s| ==> !p(s[k])
  {
    if s == [] then None
    else if p(s[0]) then Some(0)
    else match FirstIndex(s[1..], p)
      case None => None
      case Some(k) => Some(k + 1)
  }

  /** `User.findOne({ email })`; the schema's trim and lowercase setters apply to
      the query value. */
  function FindByEmail(users: seq<U.User>, email: string): (r: Option<nat>)
    ensures r.Some? ==> r.value < |users| && users[r.value].email == U.CanonicalEmail(email)
    ensures r.None? ==> forall k :: 0 <= k < |users| ==> users[k].email != U.CanonicalEmail(email)
  {
    var key := U.CanonicalEmail(email);
    FirstIndex(users, (x: U.User) => x.email == key)
  }

  /** An account appended with an email no earlier account has is the one a
      lookup by that email finds. */
  lemma FindByEmailAppend(users: seq<U.User>, u: U.User, email: string)
    requires FindByEmail(users, email).None? && u.email == U.CanonicalEmail(email)
    ensures FindByEmail(users + [u], email) == Some(|users|)
  {
    assert (users + [u])[|users|] == u;
    assert forall k :: 0 <= k < |users| ==> (users + [u])[k].email == users[k].email;
  }

  /** `User.findOne({ cpf })`; the trim setter applies to the query value. */
  function FindByCpf(users: seq<U.User>, cpf: string): (r: Option<nat>)
    ensures r.Some? ==> r.value < |users| && users[r.value].cpf == Trim(cpf)
    ensures r.None? ==> forall k :: 0 <= k < |users| ==> users[k].cpf != Trim(cpf)
  {
    var key := Trim(cpf);
    FirstIndex(users, (x: U.User) => x.cpf == key)
  }

  /** `CreditTransaction.findOne({ paymentId })`: the first row with that payment
      id, whoever it belongs to. */
  function FindPayment(txs: seq<T.CreditTransaction>, paymentId: string): (r: Option<nat>)
    ensures r.Some? ==> r.value < |txs| && txs[r.value].paymentId == Some(paymentId)
    ensures r.Some? ==> forall k :: 0 <= k < r.value ==> txs[k].paymentId != Some(paymentId)
    ensures r.None? ==> forall k :: 0 <= k < |txs| ==> txs[k].paymentId != Some(paymentId)
  {
    FirstIndex(txs, (x: T.CreditTransaction) => x.paymentId == Some(paymentId))
  }

  /** A row appended with a payment id no earlier row has is the one a lookup by
      that payment id finds. */
  lemma FindPaymentAppend(txs: seq<T.CreditTransaction>, row: T.CreditTransaction, paymentId: string)
    requires FindPayment(txs, paymentId).None? && row.paymentId == Some(paymentId)
    ensures FindPayment(txs + [row], paymentId) == Some(|txs|)
  {
    assert (txs + [row])[|txs|] == row;
    assert forall k :: 0 <= k < |txs| ==> (txs + [row])[k] == txs[k];
  }

  /** Rewriting accounts without touching their CPFs leaves the CPF lookup as it
      was. */
  lemma FindByCpfSameKeys(users: seq<U.User>, users': seq<U.User>, cpf: string)
    requires |users'| == |users| && forall k :: 0 <= k < |users| ==> users'[k].cpf == users[k].cpf
    ensures FindByCpf(users', cpf) == FindByCpf(users, cpf)
  {
    var r, r' := FindByCpf(users, cpf), FindByCpf(users', cpf);
    if r.Some? && r'.Some? {
      assert !(r.value < r'.value) && !(r'.value < r.value);
    }
  }

  /** No two rows carry the same payment id. The schema does not enforce this
      (the field is sparse, not unique); only the payment handler's lookup does. */
  predicate PaymentIdsUnique(txs: seq<T.CreditTransaction>)
  {
    forall i, j :: 0 <= i < j < |txs| && txs[i].paymentId.Some? ==> txs[i].paymentId != txs[j].paymentId
  }

  /** The database as mutable collections, updated in place by the handlers. */
  class Store {
    var users: seq<U.User>
    var analyses: seq<A.Analysis>
    var txs: seq<T.CreditTransaction>
    var plans: seq<P.Plan>

    function State(): Db
      reads this
    {
      Db(users, analyses, txs, plans)
    }

    constructor (db: Db)
      ensures State() == db
    {
      users := db.users;
      analyses := db.analyses;
      txs := db.txs;
      plans := db.plans;
    }
  }
}

=== FILE: pagination.dfy ===
/** The skip/limit/pages arithmetic shared by the three paginated listings
    (credit transactions, a user's analyses on two routes). */
module Paging {
  import opened Common

  /** `(parseInt(page) - 1) * parseInt(limit)`, the number of rows skipped. */
  function Skip(page: int, limit: int): int
  {
    (page - 1) * limit
  }

  /** `Math.ceil(total / limit)`. JavaScript yields Infinity or NaN for a zero limit,
      which JSON serializes as null: that is `None` here. */
  function PageCount(total: nat, limit: int): (r: Option<int>)
    ensures r.None? <==> limit == 0
    ensures limit > 0 ==> r.Some? && r.value * limit >= total && (r.value - 1) * limit < total
    ensures limit < 0 ==> r.Some? && r.value * limit <= total && (r.value - 1) * limit > total
  {
    if limit == 0 then None
    else if limit > 0 then
      var q := (total + limit - 1) / limit;
      CeilBounds(total, limit);
      Some(q)
    else
      var q := total / -limit;
      FloorBounds(total, -limit);
      Some(-q)
  }

  lemma CeilBounds(total: nat, d: int)
    requires d > 0
    ensures ((total + d - 1) / d) * d >= total
    ensures ((total + d - 1) / d - 1) * d < total
  {
    var n := total + d - 1;
    var q, r := n / d, n % d;
    assert n == q * d + r && 0 <= r < d;
    assert q * d == n - r;
    assert (q - 1) * d == q * d - d;
  }

  lemma FloorBounds(total: nat, d: int)
    requires d > 0
    ensures (total / d) * d <= total
    ensures (total / d + 1) * d > total
  {
    var q, r := total / d, total % d;
    assert total == q * d + r && 0 <= r < d;
    assert (q + 1) * d == q * d + d;
  }

  /** `.skip(skip).limit(limit)`: a zero limit means no limit, a negative one
      returns at most `-limit` rows. */
  function Window<X>(rows: seq<X>, skip: nat, limit: int): (w: seq<X>)
    ensures limit != 0 ==> |w| <= Abs(limit)
    ensures skip >= |rows| ==> w == []
    ensures forall k :: 0 <= k < |w| ==> skip + k < |rows| && w[k] == rows[skip + k]
    ensures skip < |rows| ==> |w| == if limit == 0 then |rows| - skip else Min(Abs(limit), |rows| - skip)
  {
    if skip >= |rows| then []
    else
      var n := if limit == 0 then |rows| - skip else Min(Abs(limit), |rows| - skip);
      rows[skip..skip + n]
  }

  /** Windows over two listings of the same length have the same length. */
  lemma WindowSameLength<X, Y>(xs: seq<X>, ys: seq<Y>, skip: nat, limit: int)
    requires |xs| == |ys|
    ensures |Window(xs, skip, limit)| == |Window(ys, skip, limit)|
  {
  }

  datatype Page<X> = Page(items: seq<X>, page: int, limit: int, total: nat, pages: Option<int>)

  /** The listing reply: a negative skip is refused by the store (500). */
  function Paginate<X>(rows: seq<X>, page: int, limit: int): (r: Reply<Page<X>>)
    ensures r.Success? <==> Skip(page, limit) >= 0
    ensures r.Failure? ==> r.code == 500
    ensures r.Success? ==>
              && r.code == 200 && r.value.total == |rows|
              && r.value.page == page && r.value.limit == limit
              && r.value.items == Window(rows, Skip(page, limit), limit)
              && r.value.pages == PageCount(|rows|, limit)
  {
    var skip := Skip(page, limit);
    if skip < 0 then Failure(500, Message(InternalError))
    else Success(200, Page(Window(rows, skip, limit), page, limit, |rows|, PageCount(|rows|, limit)))
  }

  /** With a positive limit every row is shown exactly where the page arithmetic
      says: row i is item i % limit of page i / limit + 1, and that page is within
      the advertised page count. */
  lemma {:induction false} RowOnItsPage<X>(rows: seq<X>, limit: int, i: nat)
    requires limit >= 1 && i < |rows|
    ensures var p := i / limit + 1;
      && Skip(p, limit) >= 0
      && i % limit < |Window(rows, Skip(p, limit), limit)|
      && Window(rows, Skip(p, limit), limit)[i % limit] == rows[i]
      && 1 <= p <= PageCount(|rows|, limit).value
  {
    var q := i / limit;
    PageArith(i, limit, |rows|);
    assert Skip(q + 1, limit) == q * limit;
  }

  /** The page arithmetic alone: row i sits at offset i % limit after
      (i / limit) * limit skipped rows, on a page within the page count. */
  lemma PageArith(i: nat, limit: int, total: nat)
    requires limit >= 1 && i < total
    ensures (i / limit) * limit + i % limit == i && 0 <= i % limit < limit
    ensures 0 <= (i / limit) * limit
    ensures i / limit + 1 <= PageCount(total, limit).value
  {
    var q, c := i / limit, PageCount(total, limit).value;
    if q >= c {
      MulMono(c, q, limit);
    }
  }

  lemma MulMono(a: int, b: int, d: int)
    requires a <= b && d >= 0
    ensures a * d <= b * d
  {
    assert b * d - a * d == (b - a) * d;
  }
}

=== FILE: plan_model.dfy ===
/** The credit-pack catalogue (`Plan` collection). Prices are opaque metadata. */
module PlanModel {
  import opened Common

  /** `type`, required. */
  datatype PlanType = Basic | Complete | CreditsPack

  function PlanTypeName(t: PlanType): string
  {
    match t
    case Basic => "basic"
    case Complete => "complete"
    case CreditsPack => "credits_pack"
  }

  datatype Plan = Plan(
    name: string,
    planType: PlanType,
    price: real,
    credits: int,
    description: string,
    features: seq<string>,
    isActive: bool,
    sortOrder: int,
    discountPercentage: real,
    originalPrice: Option<real>)

  /** The validators that run on `save()`. */
  predicate SchemaValid(p: Plan)
  {
    && p.name != ""
    && p.description != ""
    && p.price >= 0.0
    && p.credits >= 1
    && 0.0 <= p.discountPercentage <= 100.0
    && (p.originalPrice.Some? ==> p.originalPrice.value >= 0.0)
  }

  /** Every stored plan passed validation and no two share a name (unique index). */
  predicate CatalogValid(plans: seq<Plan>)
  {
    && (forall i :: 0 <= i < |plans| ==> SchemaValid(plans[i]))
    && (forall i, j :: 0 <= i < j < |plans| ==> plans[i].name != plans[j].name)
  }

  /** A new document with the schema's defaults: active, sort order 0, no discount.
      It is storable exactly when the required fields are present and the price
      and credit bounds hold. */
  function NewPlan(name: string, planType: PlanType, price: real, credits: int, description: string, features: seq<string>): (p: Plan)
    ensures p.isActive && p.sortOrder == 0 && p.discountPercentage == 0.0 && p.originalPrice.None?
    ensures SchemaValid(p) <==> name != "" && description != "" && price >= 0.0 && credits >= 1
  {
    Plan(name, planType, price, credits, description, features, true, 0, 0.0, None)
  }
}

=== FILE: upload_route.dfy ===
/** `POST /api/upload` (credit reservation for a new analysis job) and
    `GET /api/upload/status/:id`. */
module UploadRoute {
  import opened Common
  import U = UserModel
  import A = AnalysisModel
  import T = CreditTransactionModel
  import L = Ledger
  import M = AuthMiddleware
  import V = Validation

  const PlanRejected := "Plano deve ser \"basic\" ou \"complete\""
  const NotFound := "Análise não encontrada"

  /** `['basic', 'complete'].includes(plan)`. */
  function ParsePlan(plan: Option<string>): (r: Option<A.AnalysisPlan>)
    ensures r.Some? <==> plan == Some("basic") || plan == Some("complete")
    ensures r.Some? ==> plan == Some(A.AnalysisPlanName(r.value))
  {
    if plan == Some("basic") then Some(A.Basic)
    else if plan == Some("complete") then Some(A.Complete)
    else None
  }

  /** The credits a job costs. */
  function Tariff(plan: A.AnalysisPlan): int
  {
    if plan == A.Basic then 1 else 3
  }

  function TxPlanOf(plan: A.AnalysisPlan): T.TxPlan
  {
    if plan == A.Basic then T.Basic else T.Complete
  }

  /** The 201 payload. */
  datatype Created = Created(id: nat, status: A.AnalysisStatus, plan: A.AnalysisPlan, creditsUsed: int)

  /** The document the handler builds: missing image fields become "". */
  function JobFor(caller: nat, plan: A.AnalysisPlan, imageUrl: Option<string>, imageId: Option<string>): A.Analysis
  {
    A.NewAnalysis(caller, OrElse(imageUrl, ""), OrElse(imageId, ""), Tariff(plan), plan)
  }

  /** The usage row that records the debit of job `id`. */
  function UsageRow(caller: nat, plan: A.AnalysisPlan, id: nat): T.CreditTransaction
  {
    T.CreditTransaction(caller, T.Usage, -Tariff(plan), Some(TxPlanOf(plan)), None, Some(id), T.Completed)
  }

  /** The handler, for an authenticated caller: plan check (400), balance check
      against the tariff (402), then the job is saved, and only after the save
      succeeds is the balance debited and the usage row appended. A save that
      fails (an image field missing or empty) is a 500 with nothing written. */
  function Reserve(db: L.Db, caller: nat, plan: Option<string>, imageUrl: Option<string>, imageId: Option<string>): (res: (L.Db, Reply<Created>))
    requires caller < |db.users|
    ensures res.1.Failure? ==> res.0 == db
    ensures ParsePlan(plan).None? ==> res.1 == Failure(400, Message(PlanRejected))
    ensures ParsePlan(plan).Some? && db.users[caller].credits < Tariff(ParsePlan(plan).value) ==>
              res.1 == Failure(402, Insufficient(Tariff(ParsePlan(plan).value), db.users[caller].credits))
    ensures res.1.Success? <==>
              && ParsePlan(plan).Some?
              && db.users[caller].credits >= Tariff(ParsePlan(plan).value)
              && Present(imageUrl) && Present(imageId)
    ensures res.1.Success? ==>
              var p := ParsePlan(plan).value;
              var id := |db.analyses|;
              && res.1 == Success(201, Created(id, A.Pending, p, Tariff(p)))
              && res.0 == db.(analyses := db.analyses + [JobFor(caller, p, imageUrl, imageId)],
                              users := db.users[caller := db.users[caller].(credits := db.users[caller].credits - Tariff(p))],
                              txs := db.txs + [UsageRow(caller, p, id)])
  {
    match ParsePlan(plan)
    case None => (db, Failure(400, Message(PlanRejected)))
    case Some(p) =>
      var cost := Tariff(p);
      var user := db.users[caller];
      if user.credits < cost then (db, Failure(402, Insufficient(cost, user.credits)))
      else
        var job := JobFor(caller, p, imageUrl, imageId);
        if !A.SchemaValid(job) then (db, Failure(500, Message(InternalError)))
        else
          var id := |db.analyses|;
          var db1 := db.(analyses := db.analyses + [job]);
          var db2 := db1.(users := db1.users[caller := user.(credits := user.credits - cost)]);
          (db2.(txs := db2.txs + [UsageRow(caller, p, id)]), Success(201, Created(id, A.Pending, p, cost)))
  }

  /** The tariff as the handler applies it: a basic job debits 1 credit and a
      complete one 3, and the new job records that cost. */
  lemma ReserveTariff(db: L.Db, caller: nat, plan: Option<string>, imageUrl: Option<string>, imageId: Option<string>)
    requires caller < |db.users|
    requires Reserve(db, caller, plan, imageUrl, imageId).1.Success?
    ensures var (db', r) := Reserve(db, caller, plan, imageUrl, imageId);
      var cost := if plan == Some("basic") then 1 else 3;
      && plan in {Some("basic"), Some("complete")}
      && db'.users[caller].credits == db.users[caller].credits - cost
      && db'.users[caller].credits >= 0
      && db'.analyses[r.value.id].creditsUsed == cost
      && db'.analyses[r.value.id].user == caller
      && db'.analyses[r.value.id].status == A.Pending
      && db'.txs[|db.txs|].amount == -cost
      && db'.txs[|db.txs|].analysisId == Some(r.value.id)
  {
  }

  /** A reservation keeps every balance equal to the sum of its completed rows:
      the debit and the usage row cancel out. */
  lemma {:induction false} ReserveKeepsBalance(db: L.Db, caller: nat, plan: Option<string>, imageUrl: Option<string>, imageId: Option<string>)
    requires caller < |db.users| && L.Balanced(db)
    ensures L.Balanced(Reserve(db, caller, plan, imageUrl, imageId).0)
  {
    var (db', r) := Reserve(db, caller, plan, imageUrl, imageId);
    if r.Success? {
      var p := ParsePlan(plan).value;
      var row := UsageRow(caller, p, |db.analyses|);
      forall u | 0 <= u < |db'.users|
        ensures db'.users[u].credits == L.LedgerSum(db'.txs, u)
      {
        L.LedgerSumAppend(db.txs, row, u);
      }
    }
  }

  /** A reservation keeps the references and unique indexes intact. */
  lemma ReserveKeepsWf(db: L.Db, caller: nat, plan: Option<string>, imageUrl: Option<string>, imageId: Option<string>)
    requires caller < |db.users| && L.Wf(db)
    ensures L.Wf(Reserve(db, caller, plan, imageUrl, imageId).0)
  {
    var (db', r) := Reserve(db, caller, plan, imageUrl, imageId);
    if r.Success? {
      assert forall i :: 0 <= i < |db'.users| ==> db'.users[i].email == db.users[i].email && db'.users[i].cpf == db.users[i].cpf;
    }
  }

  /** The handler as the source runs it, mutating the store step by step. */
  method PostUpload(s: L.Store, caller: nat, plan: Option<string>, imageUrl: Option<string>, imageId: Option<string>)
      returns (r: Reply<Created>)
    requires caller < |s.users|
    modifies s
    ensures (s.State(), r) == Reserve(old(s.State()), caller, plan, imageUrl, imageId)
  {
    var p := ParsePlan(plan);
    if p.None? {
      return Failure(400, Message(PlanRejected));
    }
    var cost := Tariff(p.value);
    var credits := s.users[caller].credits;
    if credits < cost {
      return Failure(402, Insufficient(cost, credits));
    }
    var job := A.NewAnalysis(caller, OrElse(imageUrl, ""), OrElse(imageId, ""), cost, p.value);
    if !A.SchemaValid(job) {
      return Failure(500, Message(InternalError));
    }
    var id := |s.analyses|;
    s.analyses := s.analyses + [job];
    s.users := s.users[caller := s.users[caller].(credits := s.users[caller].credits - cost)];
    s.txs := s.txs + [T.CreditTransaction(caller, T.Usage, -cost, Some(TxPlanOf(p.value)), None, Some(id), T.Completed)];
    r := Success(201, Created(id, A.Pending, p.value, cost));
  }

  /** The whole route: `authenticateToken`, `validateUpload`, `checkCredits(1)`,
      then the handler. The middleware reads the caller's document as stored. */
  function UploadEndpoint(db: L.Db, header: Option<string>, verify: string -> M.JwtOutcome,
                          plan: Option<string>, imageUrl: Option<string>, imageId: Option<string>): (res: (L.Db, Reply<Created>))
    ensures res.1.Failure? && res.1.code != 500 ==> res.0 == db
    ensures res.1.Success? ==> M.AuthenticateToken(db.users, header, verify).Success?
  {
    match M.AuthenticateToken(db.users, header, verify)
    case Failure(code, e) => (db, Failure(code, e))
    case Success(_, caller) =>
      match V.HandleValidationErrors(V.UploadErrors(plan))
      case Failure(code, e) => (db, Failure(code, e))
      case Success(_, _) =>
        match M.CheckCredits(Some(db.users[caller]), 1)
        case Failure(code, e) => (db, Failure(code, e))
        case Success(_, _) => Reserve(db, caller, plan, imageUrl, imageId)
  }

  /** `checkCredits(1)` runs first, so an authenticated caller with no credits is
      refused with `required` 1 whichever valid plan was asked for, even though a
      complete job costs 3. */
  lemma ZeroCreditsRequireOne(db: L.Db, header: Option<string>, verify: string -> M.JwtOutcome,
                              plan: Option<string>, imageUrl: Option<string>, imageId: Option<string>)
    requires M.AuthenticateToken(db.users, header, verify).Success?
    requires db.users[M.AuthenticateToken(db.users, header, verify).value].credits == 0
    requires plan == Some("basic") || plan == Some("complete")
    ensures UploadEndpoint(db, header, verify, plan, imageUrl, imageId) == (db, Failure(402, Insufficient(1, 0)))
  {
  }

  /** Behind `validateUpload` the handler's own plan check never fires: every 400
      of the route carries the validator's details. */
  lemma PlanCheckUnreachable(db: L.Db, header: Option<string>, verify: string -> M.JwtOutcome,
                             plan: Option<string>, imageUrl: Option<string>, imageId: Option<string>)
    ensures UploadEndpoint(db, header, verify, plan, imageUrl, imageId).1 != Failure(400, Message(PlanRejected))
    ensures UploadEndpoint(db, header, verify, plan, imageUrl, imageId).1.Failure? &&
            UploadEndpoint(db, header, verify, plan, imageUrl, imageId).1.code == 400 ==>
              UploadEndpoint(db, header, verify, plan, imageUrl, imageId).1.error == Invalid(V.UploadErrors(plan))
  {
  }

  /** The status view of a job. */
  datatype StatusView = StatusView(id: nat, status: A.AnalysisStatus, plan: A.AnalysisPlan, creditsUsed: int,
                                   processingTime: Option<int>, errorMessage: Option<string>)

  /** `GET /status/:id`: found only among the caller's own jobs, 404 otherwise. */
  function UploadStatus(db: L.Db, caller: nat, id: nat): (r: Reply<StatusView>)
    ensures r.Success? <==> id < |db.analyses| && db.analyses[id].user == caller
    ensures r.Failure? ==> r == Failure(404, Message(NotFound))
    ensures r.Success? ==>
              && r.value.id == id && r.value.status == db.analyses[id].status
              && r.code == 200
              && r.value.plan == db.analyses[id].plan
              && r.value.creditsUsed == db.analyses[id].creditsUsed
              && r.value.processingTime == db.analyses[id].processingTime
              && r.value.errorMessage == db.analyses[id].errorMessage
  {
    if id < |db.analyses| && db.analyses[id].user == caller then
      var a := db.analyses[id];
      Success(200, StatusView(id, a.status, a.plan, a.creditsUsed, a.processingTime, a.errorMessage))
    else Failure(404, Message(NotFound))
  }
}

=== FILE: user_model.dfy ===
/** The account document (`User` collection): enums, schema validation, the
    phone pre-save hook and the password-stripping `toJSON`. */
module UserModel {
  import opened Common

  /** `accountStatus`, default `active`; `PendingSetup` is the value "pending". */
  datatype AccountStatus = PendingSetup | Active | Suspended

  /** `plan`, default `free`. */
  datatype UserPlan = Free | Basic | Complete | Premium

  function UserPlanName(p: UserPlan): string
  {
    match p
    case Free => "free"
    case Basic => "basic"
    case Complete => "complete"
    case Premium => "premium"
  }

  /** The enum validator on `plan`. */
  function ParseUserPlan(s: string): (r: Option<UserPlan>)
    ensures r.Some? ==> UserPlanName(r.value) == s
    ensures r.None? ==> forall p: UserPlan :: UserPlanName(p) != s
  {
    if s == "free" then Some(Free)
    else if s == "basic" then Some(Basic)
    else if s == "complete" then Some(Complete)
    else if s == "premium" then Some(Premium)
    else None
  }

  /** `preferences`, keyed by name; the schema declares two keys. */
  type Preferences = map<string, bool>

  const DefaultPreferences: Preferences := map["notifications" := true, "emailMarketing" := false]

  /** An account. `password` stands for the stored bcrypt hash; `lastLogin` is a
      clock reading. */
  datatype User = User(
    name: string,
    email: string,
    password: Option<string>,
    accountStatus: AccountStatus,
    phone: string,
    cpf: string,
    credits: int,
    plan: UserPlan,
    isActive: bool,
    lastLogin: Option<int>,
    preferences: Preferences)

  /** `email` as stored and as looked up: trimmed and lower-cased. */
  function CanonicalEmail(e: string): string
  {
    Lower(Trim(e))
  }

  /** A new document with the schema's setters (trim, lowercase) and defaults
      (credits 0, plan free, account active, isActive true, default preferences). */
  function NewUser(name: string, email: string, password: Option<string>, phone: string, cpf: string): (u: User)
    ensures u.credits == 0 && u.plan == Free && u.accountStatus == Active && u.isActive
    ensures u.lastLogin.None? && u.preferences == DefaultPreferences
    ensures u.name == Trim(name) && u.email == CanonicalEmail(email)
    ensures u.phone == Trim(phone) && u.cpf == Trim(cpf) && u.password == password
  {
    User(Trim(name), CanonicalEmail(email), password, Active, Trim(phone), Trim(cpf), 0, Free, true, None, DefaultPreferences)
  }

  /** A new document passes the schema exactly when its trimmed name, email,
      phone and CPF and its password do. */
  lemma NewUserSchema(name: string, email: string, password: string, phone: string, cpf: string)
    ensures SchemaValid(NewUser(name, email, Some(password), phone, cpf)) <==>
              && 2 <= |Trim(name)| <= 50 && CanonicalEmail(email) != "" && |password| >= 6
              && PhoneShape(Trim(phone)) && |Trim(cpf)| == 11 && AllDigits(Trim(cpf))
  {
  }

  /** `/^\d{10,11}$/`. */
  predicate PhoneShape(p: string)
  {
    10 <= |p| <= 11 && AllDigits(p)
  }

  /** The schema validators that run on `save()`: name 2..50 characters, email
      present, password present when the account is active and at least 6
      characters when present, phone 10 or 11 digits, cpf 11 digits, credits not
      negative. */
  predicate SchemaValid(u: User)
  {
    && 2 <= |u.name| <= 50
    && u.email != ""
    && (u.accountStatus == Active ==> u.password.Some?)
    && (u.password.Some? ==> |u.password.value| >= 6)
    && PhoneShape(u.phone)
    && |u.cpf| == 11 && AllDigits(u.cpf)
    && u.credits >= 0
  }

  /** `phone.replace(/\D/g, '')`. */
  function StripNonDigits(s: string): (r: string)
    ensures AllDigits(r) && |r| <= |s|
    ensures AllDigits(s) ==> r == s
  {
    if s == [] then []
    else if IsDigit(s[0]) then [s[0]] + StripNonDigits(s[1..])
    else StripNonDigits(s[1..])
  }

  /** The area codes of the state of Sao Paulo, which keep the ninth digit. */
  const SaoPauloDDDs: seq<string> := ["11", "12", "13", "14", "15", "16", "17", "18", "19"]

  /** The phone rewrite of the pre-save hook. */
  function NormalizePhone(phone: string): string
  {
    var clean := StripNonDigits(phone);
    if |clean| == 11 then
      if clean[..2] in SaoPauloDDDs then clean else clean[..2] + clean[3..]
    else phone
  }

  /** An 11-digit number keeps its area code and is all digits afterwards; it
      keeps all 11 digits exactly when the area code is 11..19 and otherwise loses
      the character at index 2. Any other number is left untouched, not even
      stripped. */
  lemma NormalizePhoneShape(phone: string)
    ensures var clean := StripNonDigits(phone); var r := NormalizePhone(phone);
      && (|clean| != 11 ==> r == phone)
      && (|clean| == 11 ==>
            && AllDigits(r) && r[..2] == clean[..2]
            && (clean[..2] in SaoPauloDDDs ==> r == clean)
            && (clean[..2] !in SaoPauloDDDs ==> |r| == 10 && r == clean[..2] + clean[3..]))
  {
  }

  /** Saving twice rewrites the phone no further than saving once. */
  lemma {:induction false} NormalizePhoneIdempotent(phone: string)
    ensures NormalizePhone(NormalizePhone(phone)) == NormalizePhone(phone)
  {
    var clean := StripNonDigits(phone);
    var r := NormalizePhone(phone);
    if |clean| == 11 {
      assert AllDigits(clean[..2] + clean[3..]);
      assert AllDigits(r);
      assert StripNonDigits(r) == r;
      if clean[..2] !in SaoPauloDDDs {
        assert |r| == 10;
      }
    }
  }

  lemma NormalizeElevenDigits(phone: string)
    requires |phone| == 11 && AllDigits(phone)
    ensures NormalizePhone(phone) == if phone[..2] in SaoPauloDDDs then phone else phone[..2] + phone[3..]
  {
    assert StripNonDigits(phone) == phone;
  }

  /** Membership in the Sao Paulo list is "1" followed by a non-zero digit. */
  lemma SaoPauloDDD(d: string)
    requires |d| == 2
    ensures d in SaoPauloDDDs <==> d[0] == '1' && '1' <= d[1] <= '9'
  {
    if d[0] == '1' && '1' <= d[1] <= '9' {
      var k := (d[1] as int) - ('1' as int);
      assert SaoPauloDDDs[k] == d;
    }
  }

  /** An 11-digit number keeps all digits exactly when it starts with "1" and a
      non-zero digit, and otherwise loses the digit at index 2. */
  lemma ElevenDigitRule(v: string)
    requires |v| == 11 && AllDigits(v)
    ensures NormalizePhone(v) == if v[0] == '1' && '1' <= v[1] <= '9' then v else v[..2] + v[3..]
  {
    NormalizeElevenDigits(v);
    SaoPauloDDD(v[..2]);
  }

  /** The test vectors of the repository's phone script. */
  lemma PhoneVectorDDD62(v: string)
    requires v == "62998448536"
    ensures NormalizePhone(v) == "6298448536"
  {
    ElevenDigitRule(v);
    assert v[..2] + v[3..] == "6298448536";
  }

  lemma PhoneVectorDDD11(v: string)
    requires v == "11999884455"
    ensures NormalizePhone(v) == "11999884455"
  {
    ElevenDigitRule(v);
  }

  lemma PhoneVectorDDD16(v: string)
    requires v == "16999884455"
    ensures NormalizePhone(v) == "16999884455"
  {
    ElevenDigitRule(v);
  }

  lemma PhoneVectorDDD85(v: string)
    requires v == "85999884455"
    ensures NormalizePhone(v) == "8599884455"
  {
    ElevenDigitRule(v);
    assert v[..2] + v[3..] == "8599884455";
  }

  lemma PhoneVectorDDD21(v: string)
    requires v == "21999884455"
    ensures NormalizePhone(v) == "2199884455"
  {
    ElevenDigitRule(v);
    assert v[..2] + v[3..] == "2199884455";
  }

  /** The phone pre-save hook: only a modified, non-empty phone is rewritten. */
  function PreSavePhone(u: User, phoneModified: bool): (r: User)
    ensures r == u.(phone := r.phone)
    ensures !phoneModified ==> r == u
    ensures phoneModified && u.phone != "" ==> r.phone == NormalizePhone(u.phone)
  {
    if phoneModified && u.phone != "" then u.(phone := NormalizePhone(u.phone)) else u
  }

  /** A phone that passed the schema's 10-or-11-digit rule (validation runs before
      the hook) is still 10 or 11 digits after the hook. */
  lemma {:induction false} NormalizedPhoneKeepsShape(phone: string)
    requires PhoneShape(phone)
    ensures PhoneShape(NormalizePhone(phone))
  {
    assert StripNonDigits(phone) == phone;
    if |phone| == 11 {
      assert AllDigits(phone[..2] + phone[3..]);
    }
  }

  /** The serialized account: every field of `User` but `password`. */
  datatype UserJson = UserJson(
    name: string,
    email: string,
    accountStatus: AccountStatus,
    phone: string,
    cpf: string,
    credits: int,
    plan: UserPlan,
    isActive: bool,
    lastLogin: Option<int>,
    preferences: Preferences)

  /** `toJSON`: the account with `password` deleted. */
  function ToJson(u: User): UserJson
  {
    UserJson(u.name, u.email, u.accountStatus, u.phone, u.cpf, u.credits, u.plan, u.isActive,
             u.lastLogin, u.preferences)
  }

  /** Two accounts serialize alike exactly when they differ at most in their
      password: the password never shows, and every other field does. */
  lemma ToJsonHidesOnlyPassword(u: User, v: User)
    ensures ToJson(u) == ToJson(v) <==> u == v.(password := u.password)
  {
  }
}

=== FILE: user_route.dfy ===
/** `GET /api/user/dashboard`, `PUT /api/user/settings`, `DELETE /api/user/account`
    and `GET /api/user/analyses`. */
module UserRoute {
  import opened Common
  import U = UserModel
  import A = AnalysisModel
  import L = Ledger
  import M = AuthMiddleware
  import AuthRoute
  import AnalysisRoute
  import Paging

  const PasswordRequired := "Senha é obrigatória para desativar a conta"
  const WrongPassword := "Senha incorreta"

  const AllStatuses: set<A.AnalysisStatus> := {A.Pending, A.Processing, A.Completed, A.Failed}

  /** `countDocuments({ user, status: { $in: statuses } })`. */
  function Count(analyses: seq<A.Analysis>, caller: nat, statuses: set<A.AnalysisStatus>): (n: nat)
    ensures n <= |analyses|
  {
    if analyses == [] then 0
    else
      var last := analyses[|analyses| - 1];
      Count(analyses[..|analyses| - 1], caller, statuses) + (if last.user == caller && last.status in statuses then 1 else 0)
  }

  /** Counting two disjoint status groups separately adds up to counting them
      together. */
  lemma {:induction false} CountSplit(analyses: seq<A.Analysis>, caller: nat, s: set<A.AnalysisStatus>, t: set<A.AnalysisStatus>)
    requires s * t == {}
    ensures Count(analyses, caller, s + t) == Count(analyses, caller, s) + Count(analyses, caller, t)
    decreases |analyses|
  {
    if analyses != [] {
      var last := analyses[|analyses| - 1];
      CountSplit(analyses[..|analyses| - 1], caller, s, t);
      assert last.status !in s * t;
    }
  }

  /** A smaller status group never counts more. */
  lemma {:induction false} CountMono(analyses: seq<A.Analysis>, caller: nat, s: set<A.AnalysisStatus>, t: set<A.AnalysisStatus>)
    requires s <= t
    ensures Count(analyses, caller, s) <= Count(analyses, caller, t)
    decreases |analyses|
  {
    if analyses != [] {
      CountMono(analyses[..|analyses| - 1], caller, s, t);
    }
  }

  /** `total > 0 ? Math.round(completed / total * 100) : 0`, in exact arithmetic:
      the percentage rounded to the nearest integer, halves rounded up. */
  function SuccessRate(completed: nat, total: nat): (r: int)
    ensures total == 0 ==> r == 0
    ensures total > 0 ==> r * (2 * total) - total <= 200 * completed < r * (2 * total) + total
    ensures total > 0 && completed <= total ==> 0 <= r <= 100
  {
    if total == 0 then 0
    else
      RoundBounds(completed, total);
      (200 * completed + total) / (2 * total)
  }

  lemma RoundBounds(c: nat, t: nat)
    requires t > 0
    ensures var r := (200 * c + t) / (2 * t);
      && r * (2 * t) <= 200 * c + t < r * (2 * t) + 2 * t
      && (c <= t ==> 0 <= r <= 100)
  {
    var n, d := 200 * c + t, 2 * t;
    var r := n / d;
    assert r * d <= n < r * d + d;
    if c <= t && r > 100 {
      Paging.MulMono(101, r, d);
    }
  }

  /** Every status is in the `$in` list of all four. */
  lemma EveryStatus(s: A.AnalysisStatus)
    ensures s in AllStatuses
  {
    match s
    case Pending =>
    case Processing =>
    case Completed =>
    case Failed =>
  }

  /** One of the five newest jobs on the dashboard. */
  datatype Recent = Recent(id: nat, status: A.AnalysisStatus, plan: A.AnalysisPlan, creditsUsed: int)

  datatype Dashboard = Dashboard(
    id: nat, name: string, email: string, credits: int, plan: U.UserPlan,
    totalAnalyses: nat, completedAnalyses: nat, pendingAnalyses: nat, successRate: int,
    recent: seq<Recent>)

  /** The completed and the pending-or-processing jobs are among all jobs. */
  lemma CountsAddUp(analyses: seq<A.Analysis>, caller: nat)
    ensures Count(analyses, caller, {A.Completed}) + Count(analyses, caller, {A.Pending, A.Processing})
            <= Count(analyses, caller, AllStatuses)
  {
    CountSplit(analyses, caller, {A.Completed}, {A.Pending, A.Processing});
    CountMono(analyses, caller, {A.Completed} + {A.Pending, A.Processing}, AllStatuses);
  }

  /** The `select('status plan createdAt creditsUsed')` of one job. */
  function Entry(db: L.Db, id: nat): Recent
    requires id < |db.analyses|
  {
    var a := db.analyses[id];
    Recent(id, a.status, a.plan, a.creditsUsed)
  }

  /** The first `Min(5, |ids|)` of the listed ids, as dashboard entries. */
  function RecentOf(db: L.Db, ids: seq<nat>): (r: seq<Recent>)
    requires forall k :: 0 <= k < |ids| ==> ids[k] < |db.analyses|
    ensures |r| == Min(5, |ids|)
    ensures forall k :: 0 <= k < |r| ==> r[k] == Entry(db, ids[k])
  {
    seq(Min(5, |ids|), k requires 0 <= k < Min(5, |ids|) => Entry(db, ids[k]))
  }

  /** The caller's five newest jobs, newest first: the head of the unfiltered
      listing. */
  function RecentJobs(db: L.Db, caller: nat): (r: seq<Recent>)
    ensures var ids := AnalysisRoute.ListedIds(db, caller, None, None, |db.analyses|);
      && |r| == Min(5, |ids|)
      && forall k :: 0 <= k < |r| ==> r[k] == Entry(db, ids[k])
    ensures forall k :: 0 <= k < |r| ==>
              r[k].id < |db.analyses| && db.analyses[r[k].id].user == caller
    ensures forall k, j :: 0 <= k < j < |r| ==> r[k].id > r[j].id
  {
    RecentOf(db, AnalysisRoute.ListedIds(db, caller, None, None, |db.analyses|))
  }

  /** The dashboard of the authenticated caller: the counts of all, completed
      and pending-or-processing jobs, the rounded success rate, and the caller's
      five newest jobs, newest first. */
  function GetDashboard(db: L.Db, caller: nat): (d: Dashboard)
    requires caller < |db.users|
    ensures var u := db.users[caller];
      d.id == caller && d.name == u.name && d.email == u.email && d.credits == u.credits && d.plan == u.plan
    ensures d.totalAnalyses == Count(db.analyses, caller, AllStatuses)
    ensures d.completedAnalyses == Count(db.analyses, caller, {A.Completed})
    ensures d.pendingAnalyses == Count(db.analyses, caller, {A.Pending, A.Processing})
    ensures d.successRate == SuccessRate(d.completedAnalyses, d.totalAnalyses)
    ensures d.completedAnalyses + d.pendingAnalyses <= d.totalAnalyses
    ensures 0 <= d.successRate <= 100
    ensures d.totalAnalyses == 0 ==> d.successRate == 0 && d.recent == []
    ensures d.recent == RecentJobs(db, caller)
    ensures |d.recent| == Min(5, d.totalAnalyses)
  {
    var u := db.users[caller];
    var total := Count(db.analyses, caller, AllStatuses);
    var completed := Count(db.analyses, caller, {A.Completed});
    var pending := Count(db.analyses, caller, {A.Pending, A.Processing});
    CountsAddUp(db.analyses, caller);
    OwnedIds(db, caller, |db.analyses|);
    assert db.analyses[..|db.analyses|] == db.analyses;
    Dashboard(caller, u.name, u.email, u.credits, u.plan, total, completed, pending,
              SuccessRate(completed, total), RecentJobs(db, caller))
  }

  /** The unfiltered listing holds exactly as many ids as the caller has jobs. */
  lemma {:induction false} OwnedIds(db: L.Db, caller: nat, n: nat)
    requires n <= |db.analyses|
    ensures |AnalysisRoute.ListedIds(db, caller, None, None, n)| == Count(db.analyses[..n], caller, AllStatuses)
  {
    if n > 0 {
      OwnedIds(db, caller, n - 1);
      assert db.analyses[..n][..n - 1] == db.analyses[..n - 1];
      EveryStatus(db.analyses[n - 1].status);
    }
  }

  /** `DELETE /account`: 400 without a password, 500 for an account stored
      without a password (no handler creates one; the hash comparison throws),
      401 for a wrong one; otherwise the account is soft-deleted (`isActive`
      false), with no validators run. */
  function Deactivate(db: L.Db, caller: nat, password: Option<string>, matches: (string, string) -> bool): (res: (L.Db, Reply<()>))
    requires caller < |db.users|
    ensures res.1.Failure? ==> res.0 == db
    ensures !Present(password) ==> res.1 == Failure(400, Message(PasswordRequired))
    ensures Present(password) && db.users[caller].password.Some? && !matches(password.value, db.users[caller].password.value) ==>
              res.1 == Failure(401, Message(WrongPassword))
    ensures res.1.Success? <==>
              Present(password) && db.users[caller].password.Some? && matches(password.value, db.users[caller].password.value)
    ensures res.1.Success? ==> res.0 == db.(users := db.users[caller := db.users[caller].(isActive := false)])
  {
    if !Present(password) then (db, Failure(400, Message(PasswordRequired)))
    else
      var u := db.users[caller];
      if u.password.None? then (db, Failure(500, Message(InternalError)))
      else if !matches(password.value, u.password.value) then (db, Failure(401, Message(WrongPassword)))
      else (db.(users := db.users[caller := u.(isActive := false)]), Success(200, ()))
  }

  /** The soft delete as the source runs it on the store. */
  method DeleteAccount(s: L.Store, caller: nat, password: Option<string>, matches: (string, string) -> bool)
      returns (r: Reply<()>)
    requires caller < |s.users|
    modifies s
    ensures (s.State(), r) == Deactivate(old(s.State()), caller, password, matches)
  {
    if !Present(password) {
      return Failure(400, Message(PasswordRequired));
    }
    var stored := s.users[caller].password;
    if stored.None? {
      return Failure(500, Message(InternalError));
    }
    if !matches(password.value, stored.value) {
      return Failure(401, Message(WrongPassword));
    }
    s.users := s.users[caller := s.users[caller].(isActive := false)];
    r := Success(200, ());
  }

  /** After deactivation the account can neither log in with its email (the
      password still matches, and the reply is "Conta desativada") nor use a
      token it already holds. Its balance and ledger rows stay as they were. */
  lemma DeactivatedIsLockedOut(db: L.Db, caller: nat, email: string, password: string, matches: (string, string) -> bool,
                               emailPattern: string -> bool, now: int, header: Option<string>, verify: string -> M.JwtOutcome)
    requires caller < |db.users| && L.Wf(db) && L.Balanced(db)
    requires L.FindByEmail(db.users, email) == Some(caller)
    requires Deactivate(db, caller, Some(password), matches).1.Success?
    ensures var db' := Deactivate(db, caller, Some(password), matches).0;
      && AuthRoute.Login(db', email, password, matches, emailPattern, now).1 == Failure(401, Message(M.Deactivated))
      && !(M.AuthenticateToken(db'.users, header, verify).Success? && M.AuthenticateToken(db'.users, header, verify).value == caller)
      && L.Balanced(db') && db'.txs == db.txs
  {
    var db' := Deactivate(db, caller, Some(password), matches).0;
    var found := L.FindByEmail(db'.users, email);
    assert db'.users[caller].email == db.users[caller].email;
    assert found.Some?;
  }

  /** `GET /analyses`: the listing with both filters; the default page is 1 and
      the default limit 10. */
  function UserAnalyses(db: L.Db, caller: nat, page: Option<int>, limit: Option<int>,
                        status: Option<string>, plan: Option<string>): (r: Reply<Paging.Page<AnalysisRoute.Summary>>)
    ensures r.Success? ==> forall k :: 0 <= k < |r.value.items| ==>
              && r.value.items[k].id < |db.analyses|
              && AnalysisRoute.Listed(db.analyses[r.value.items[k].id], caller, status, plan)
    ensures r.Success? ==> r.value.total == |AnalysisRoute.ListedIds(db, caller, status, plan, |db.analyses|)|
  {
    AnalysisRoute.ListAnalyses(db, caller, page, limit, status, plan)
  }
}

=== FILE: validation.dfy ===
/** The request-body rules that run before the handlers, and the middleware that
    turns their errors into a 400 reply. As in the validator library, every rule
    of a chain runs (there is no early bail), so one field can report two errors.
    `isEmail` and `normalizeEmail` are library routines and are parameters. */
module Validation {
  import opened Common

  /** `handleValidationErrors`: any error stops the request with 400 and one
      detail per error, in order; otherwise the handler runs. */
  function HandleValidationErrors(errors: seq<FieldError>): (r: Reply<()>)
    ensures r.Success? <==> errors == []
    ensures r.Failure? ==> r.code == 400 && r.error == Invalid(errors)
  {
    if errors == [] then Success(200, ()) else Failure(400, Invalid(errors))
  }

  // ---------------------------------------------------------------- CPF

  /** The first `n` characters exist and are decimal digits (otherwise
      `parseInt(value.charAt(i))` is NaN for some i < n). */
  predicate DigitPrefix(v: string, n: nat)
  {
    n <= |v| && forall k :: 0 <= k < n ==> IsDigit(v[k])
  }

  /** Sum over i < n of digit i times (top - i). */
  function WeightedSum(v: string, n: nat, top: int): int
    requires DigitPrefix(v, n)
  {
    if n == 0 then 0 else WeightedSum(v, n - 1, top) + DigitValue(v[n - 1]) * (top - (n - 1))
  }

  /** `11 - sum % 11`, with 10 and 11 mapped to 0. */
  function CheckDigit(sum: int): (r: int)
    ensures 0 <= r <= 9
  {
    var remainder := 11 - sum % 11;
    if remainder == 10 || remainder == 11 then 0 else remainder
  }

  /** `/^(\d)\1{10}$/`: eleven copies of one digit. */
  predicate AllSameDigit(v: string)
  {
    |v| == 11 && AllDigits(v) && forall i :: 0 <= i < 11 ==> v[i] == v[0]
  }

  /** The custom CPF rule: not one repeated digit, and both check digits of the
      Receita Federal modulo-11 scheme match (digits 9 and 10, weighted 10..2 and
      11..2 over the digits before them). */
  predicate CpfCustomOk(v: string)
  {
    && !AllSameDigit(v)
    && DigitPrefix(v, 11)
    && CheckDigit(WeightedSum(v, 9, 10)) == DigitValue(v[9])
    && CheckDigit(WeightedSum(v, 10, 11)) == DigitValue(v[10])
  }

  /** The custom CPF rule as the source runs it: two accumulation loops. A
      character that is missing or not a digit makes the JavaScript sum NaN, which
      `numeric` records; NaN never equals a digit, so the rule then fails. */
  method CheckCpf(value: string) returns (ok: bool)
    ensures ok == CpfCustomOk(value)
  {
    if AllSameDigit(value) {
      return false;
    }
    var sum := 0;
    var numeric := true;
    for i := 0 to 9
      invariant numeric == DigitPrefix(value, i)
      invariant numeric ==> sum == WeightedSum(value, i, 10)
    {
      if numeric && i < |value| && IsDigit(value[i]) {
        sum := sum + DigitValue(value[i]) * (10 - i);
      } else {
        numeric := false;
      }
    }
    var remainder := 11 - sum % 11;
    if remainder == 10 || remainder == 11 {
      remainder := 0;
    }
    if !numeric || |value| <= 9 || !IsDigit(value[9]) || remainder != DigitValue(value[9]) {
      return false;
    }
    sum := 0;
    for i := 0 to 10
      invariant numeric == DigitPrefix(value, i)
      invariant sum == WeightedSum(value, i, 11)
    {
      sum := sum + DigitValue(value[i]) * (11 - i);
    }
    remainder := 11 - sum % 11;
    if remainder == 10 || remainder == 11 {
      remainder := 0;
    }
    if |value| <= 10 || !IsDigit(value[10]) || remainder != DigitValue(value[10]) {
      return false;
    }
    return true;
  }

  const CpfLength := "CPF deve ter 11 dígitos"
  const CpfInvalid := "CPF inválido"

  /** The `cpf` chain: the 11-digit pattern, then the custom rule. */
  function CpfErrors(v: string): seq<FieldError>
  {
    (if |v| == 11 && AllDigits(v) then [] else [FieldError("cpf", CpfLength)])
    + (if CpfCustomOk(v) then [] else [FieldError("cpf", CpfInvalid)])
  }

  /** A CPF is accepted exactly when it is 11 digits, not one repeated digit, and
      both check digits match. */
  lemma CpfAccepted(v: string)
    ensures CpfErrors(v) == [] <==> |v| == 11 && AllDigits(v) && CpfCustomOk(v)
  {
  }

  lemma {:induction false} WeightedSumPrefix(v: string, w: string, n: nat, top: int)
    requires DigitPrefix(v, n) && DigitPrefix(w, n) && v[..n] == w[..n]
    ensures WeightedSum(v, n, top) == WeightedSum(w, n, top)
  {
    if n > 0 {
      assert v[..n - 1] == v[..n][..n - 1] && w[..n - 1] == w[..n][..n - 1];
      WeightedSumPrefix(v, w, n - 1, top);
      assert v[n - 1] == v[..n][n - 1] == w[..n][n - 1] == w[n - 1];
    }
  }

  lemma DigitInjective(a: char, b: char)
    requires IsDigit(a) && IsDigit(b) && DigitValue(a) == DigitValue(b)
    ensures a == b
  {
  }

  /** The check digits are determined by the first nine: two accepted CPFs that
      agree on their first nine digits are the same CPF. */
  lemma {:induction false} CheckDigitsDetermined(v: string, w: string)
    requires CpfErrors(v) == [] && CpfErrors(w) == []
    requires v[..9] == w[..9]
    ensures v == w
  {
    CpfAccepted(v);
    CpfAccepted(w);
    WeightedSumPrefix(v, w, 9, 10);
    DigitInjective(v[9], w[9]);
    assert v[..10] == v[..9] + [v[9]] && w[..10] == w[..9] + [w[9]];
    WeightedSumPrefix(v, w, 10, 11);
    DigitInjective(v[10], w[10]);
    assert v == v[..10] + [v[10]] && w == w[..10] + [w[10]];
  }

  function DigitChar(d: nat): (c: char)
    requires d < 10
    ensures IsDigit(c) && DigitValue(c) == d
  {
    (('0' as int) + d) as char
  }

  /** Appending the two check digits to nine digits. */
  function WithCheckDigits(base: string): (v: string)
    requires |base| == 9 && AllDigits(base)
    ensures |v| == 11 && AllDigits(v) && v[..9] == base
    ensures CheckDigit(WeightedSum(v, 9, 10)) == DigitValue(v[9])
    ensures CheckDigit(WeightedSum(v, 10, 11)) == DigitValue(v[10])
  {
    assert DigitPrefix(base, 9);
    var d9 := DigitChar(CheckDigit(WeightedSum(base, 9, 10)));
    var b10 := base + [d9];
    assert DigitPrefix(b10, 10);
    var d10 := DigitChar(CheckDigit(WeightedSum(b10, 10, 11)));
    var v := b10 + [d10];
    assert v[..9] == base && v[..10] == b10;
    WeightedSumPrefix(v, base, 9, 10);
    WeightedSumPrefix(v, b10, 10, 11);
    v
  }

  /** Every nine-digit prefix that is not a single repeated digit has exactly one
      accepted completion. */
  lemma {:induction false} CpfCompletion(base: string, v: string)
    requires |base| == 9 && AllDigits(base)
    requires exists i :: 0 <= i < 9 && base[i] != base[0]
    ensures CpfErrors(WithCheckDigits(base)) == []
    ensures CpfErrors(v) == [] && v[..9] == base ==> v == WithCheckDigits(base)
  {
    var c := WithCheckDigits(base);
    var i :| 0 <= i < 9 && base[i] != base[0];
    assert c[i] != c[0];
    CpfAccepted(c);
    if CpfErrors(v) == [] && v[..9] == base {
      CheckDigitsDetermined(v, c);
    }
  }

  /** A well-known accepted CPF, and the same number with a wrong last digit. */
  lemma CpfExamples()
    ensures CpfErrors("52998224725") == []
    ensures CpfErrors("52998224724") != []
    ensures CpfErrors("11111111111") != []
  {
    var good := "52998224725";
    assert DigitPrefix(good, 11);
    assert WeightedSum(good, 9, 10) == 295;
    assert WeightedSum(good, 10, 11) == 347;
    CpfAccepted(good);
    var bad := "52998224724";
    assert DigitPrefix(bad, 11);
    assert WeightedSum(bad, 10, 11) == 347;
    assert AllSameDigit("11111111111");
  }

  // ---------------------------------------------------------------- phone, password, name

  const PhoneLength := "Telefone deve ter 10 ou 11 dígitos"
  const PhoneMobile := "Telefone deve ser um celular (começar com 9)"

  /** The `phone` chain: 10 or 11 digits, and a 10- or 11-character value must have
      '9' at index 2. */
  function PhoneErrors(v: string): seq<FieldError>
  {
    (if 10 <= |v| <= 11 && AllDigits(v) then [] else [FieldError("phone", PhoneLength)])
    + (if (|v| == 11 || |v| == 10) && v[2] != '9' then [FieldError("phone", PhoneMobile)] else [])
  }

  /** A phone is accepted exactly when it is 10 or 11 digits with a '9' at index 2. */
  lemma PhoneAccepted(v: string)
    ensures PhoneErrors(v) == [] <==> 10 <= |v| <= 11 && AllDigits(v) && v[2] == '9'
  {
  }

  const PasswordLength := "Senha deve ter pelo menos 6 caracteres"
  const PasswordClasses := "Senha deve conter pelo menos uma letra minúscula, uma maiúscula e um número"

  /** The characters a regular-expression `.` does not match. */
  predicate LineTerminator(c: char)
  {
    c == '\n' || c == '\r' || c == '\U{2028}' || c == '\U{2029}'
  }

  /** The text before the first line terminator: what `.*` can reach from the start. */
  function FirstLine(s: string): (r: string)
    ensures |r| <= |s| && r == s[..|r|]
    ensures forall i :: 0 <= i < |r| ==> !LineTerminator(r[i])
    ensures |r| < |s| ==> LineTerminator(s[|r|])
  {
    if s == [] || LineTerminator(s[0]) then [] else [s[0]] + FirstLine(s[1..])
  }

  predicate HasLower(s: string) { exists i :: 0 <= i < |s| && 'a' <= s[i] <= 'z' }
  predicate HasUpper(s: string) { exists i :: 0 <= i < |s| && 'A' <= s[i] <= 'Z' }
  predicate HasDigit(s: string) { exists i :: 0 <= i < |s| && IsDigit(s[i]) }

  /** `/^(?=.*[a-z])(?=.*[A-Z])(?=.*\d)/`: the three lookaheads all start at the
      beginning, so each class must occur before the first line break. */
  predicate PasswordMix(p: string)
  {
    var line := FirstLine(p);
    HasLower(line) && HasUpper(line) && HasDigit(line)
  }

  /** The `password` chain: at least 6 characters, and a lowercase letter, an
      uppercase letter and a digit on its first line. */
  function PasswordErrors(p: string): (r: seq<FieldError>)
    ensures r == [] <==> |p| >= 6 && PasswordMix(p)
    ensures PasswordMix(p) ==> HasLower(p) && HasUpper(p) && HasDigit(p)
  {
    var line := FirstLine(p);
    assert forall i :: 0 <= i < |line| ==> line[i] == p[i];
    (if |p| >= 6 then [] else [FieldError("password", PasswordLength)])
    + (if PasswordMix(p) then [] else [FieldError("password", PasswordClasses)])
  }

  lemma {:induction false} FirstLineWhole(s: string)
    requires forall i :: 0 <= i < |s| ==> !LineTerminator(s[i])
    ensures FirstLine(s) == s
  {
    if s != [] {
      FirstLineWhole(s[1..]);
    }
  }

  /** A password without line breaks is judged on all of it: "Senha123" passes. */
  lemma PasswordAccepted(p: string)
    requires p == "Senha123"
    ensures PasswordErrors(p) == []
  {
    FirstLineWhole(p);
    assert HasLower(p) by { assert 'a' <= p[1] <= 'z'; }
    assert HasUpper(p) by { assert 'A' <= p[0] <= 'Z'; }
    assert HasDigit(p) by { assert IsDigit(p[5]); }
    assert PasswordMix(p);
  }

  /** A digit that only follows a line break does not count. */
  lemma PasswordDigitAfterBreak(p: string)
    requires p == "Senhaa\n1"
    ensures PasswordErrors(p) != []
  {
    assert LineTerminator(p[6]);
    assert FirstLine(p) == p[..6];
    assert !HasDigit(p[..6]);
  }

  const NameLength := "Nome deve ter entre 2 e 50 caracteres"
  const NameLetters := "Nome deve conter apenas letras e espaços"

  /** `[a-zA-ZÀ-ÿ\s]`. */
  predicate NameChar(c: char)
  {
    ('a' <= c <= 'z') || ('A' <= c <= 'Z') || ('\U{00C0}' <= c <= '\U{00FF}') || IsSpace(c)
  }

  /** The `name` chain, on the trimmed value: 2..50 characters, letters and spaces only. */
  function NameErrors(name: string): (r: seq<FieldError>)
    ensures r == [] <==> var t := Trim(name); 2 <= |t| <= 50 && forall i :: 0 <= i < |t| ==> NameChar(t[i])
  {
    var t := Trim(name);
    (if 2 <= |t| <= 50 then [] else [FieldError("name", NameLength)])
    + (if |t| > 0 && forall i :: 0 <= i < |t| ==> NameChar(t[i]) then [] else [FieldError("name", NameLetters)])
  }

  const EmailInvalid := "Email inválido"
  const EmailTooLong := "Email muito longo"

  /** The `email` chain of registration: `isEmail`, then at most 100 characters
      after normalisation. */
  function EmailErrors(email: string, isEmail: string -> bool, normalizeEmail: string -> string): (r: seq<FieldError>)
    ensures r == [] <==> isEmail(email) && |normalizeEmail(email)| <= 100
  {
    (if isEmail(email) then [] else [FieldError("email", EmailInvalid)])
    + (if |normalizeEmail(email)| <= 100 then [] else [FieldError("email", EmailTooLong)])
  }

  datatype RegisterBody = RegisterBody(name: string, email: string, password: string, phone: string, cpf: string)

  /** `validateRegister`, chain by chain in declaration order. */
  function RegisterErrors(b: RegisterBody, isEmail: string -> bool, normalizeEmail: string -> string): seq<FieldError>
  {
    NameErrors(b.name) + EmailErrors(b.email, isEmail, normalizeEmail) + PasswordErrors(b.password)
    + PhoneErrors(b.phone) + CpfErrors(b.cpf)
  }

  /** Registration passes validation exactly when every field passes its own chain. */
  lemma RegisterAccepted(b: RegisterBody, isEmail: string -> bool, normalizeEmail: string -> string)
    ensures RegisterErrors(b, isEmail, normalizeEmail) == [] <==>
              && NameErrors(b.name) == [] && EmailErrors(b.email, isEmail, normalizeEmail) == []
              && PasswordErrors(b.password) == [] && PhoneErrors(b.phone) == [] && CpfErrors(b.cpf) == []
  {
  }

  /** `validateLogin`: a well-formed email and a non-empty password. */
  function LoginErrors(email: string, password: string, isEmail: string -> bool): (r: seq<FieldError>)
    ensures r == [] <==> isEmail(email) && password != ""
  {
    (if isEmail(email) then [] else [FieldError("email", EmailInvalid)])
    + (if password != "" then [] else [FieldError("password", "Senha é obrigatória")])
  }

  const UploadPlan := "Plano deve ser \"basic\" ou \"complete\""

  /** `validateUpload`: the plan is basic or complete. */
  function UploadErrors(plan: Option<string>): (r: seq<FieldError>)
    ensures r == [] <==> plan == Some("basic") || plan == Some("complete")
  {
    if plan == Some("basic") || plan == Some("complete") then [] else [FieldError("plan", UploadPlan)]
  }

  /** `validateCreditsQuery`: a present page is at least 1, a present limit is in 1..100. */
  function CreditsQueryErrors(page: Option<int>, limit: Option<int>): (r: seq<FieldError>)
    ensures r == [] <==> (page.Some? ==> page.value >= 1) && (limit.Some? ==> 1 <= limit.value <= 100)
  {
    (if page.None? || page.value >= 1 then [] else [FieldError("page", "Página deve ser um número inteiro maior que 0")])
    + (if limit.None? || 1 <= limit.value <= 100 then [] else [FieldError("limit", "Limite deve ser entre 1 e 100")])
  }

  /** `validateN8nWebhook`: a well-formed analysis id (`isMongoId`, given as a
      flag), a status of completed or failed, and a result that is an object when
      present (`resultIsObject` is None when the field is absent). */
  function N8nErrors(idIsMongoId: bool, status: string, resultIsObject: Option<bool>): (r: seq<FieldError>)
    ensures r == [] <==>
              idIsMongoId && (status == "completed" || status == "failed")
              && (resultIsObject.Some? ==> resultIsObject.value)
  {
    (if idIsMongoId then [] else [FieldError("analysisId", "ID da análise deve ser válido")])
    + (if status == "completed" || status == "failed" then []
       else [FieldError("status", "Status deve ser \"completed\" ou \"failed\"")])
    + (if resultIsObject.None? || resultIsObject.value then [] else [FieldError("result", "Resultado deve ser um objeto")])
  }

  /** `validateAppMaxWebhook`: a transaction id, one of the four English statuses
      and a non-negative amount. */
  function AppMaxErrors(transactionId: string, status: string, amount: Option<real>): (r: seq<FieldError>)
    ensures r == [] <==>
              && transactionId != ""
              && status in {"approved", "pending", "cancelled", "refunded"}
              && amount.Some? && amount.value >= 0.0
  {
    (if transactionId != "" then [] else [FieldError("transactionId", "ID da transação é obrigatório")])
    + (if status in {"approved", "pending", "cancelled", "refunded"} then [] else [FieldError("status", "Status deve ser válido")])
    + (if amount.Some? && amount.value >= 0.0 then [] else [FieldError("amount", "Valor deve ser um número positivo")])
  }
}

=== FILE: webhook_route.dfy ===
/** `POST /api/webhook/n8n` (settlement of an analysis job, with a refund on
    failure) and `POST /api/webhook/appmax` (payment reconciliation). Neither
    handler guards against a repeated delivery; the lemmas at the end show what
    that does to the balances. */
module WebhookRoute {
  import opened Common
  import U = UserModel
  import A = AnalysisModel
  import T = CreditTransactionModel
  import L = Ledger
  import V = Validation

  const NotFound := "Análise não encontrada"
  const BadSecret := "Secret inválido"
  const NoPayer := "Usuário não encontrado e status não é aprovado"

  // ---------------------------------------------------------------- n8n

  /** The `result` object n8n posts; every field may be absent. */
  datatype ResultPayload = ResultPayload(
    mbti: Option<string>,
    personalityTraits: Option<seq<string>>,
    loveStyle: Option<string>,
    redFlags: Option<seq<string>>,
    strengths: Option<seq<string>>,
    weaknesses: Option<seq<string>>,
    passionScore: Option<int>,
    idealColor: Option<string>,
    idealMatch: Option<string>,
    brazilian: Option<A.Celebrity>,
    international: Option<A.Celebrity>,
    tips: Option<seq<string>>,
    conversationScripts: Option<seq<string>>,
    infographicUrl: Option<string>,
    qrCode: Option<string>)

  /** `x || []` for a list field. */
  function ListOrEmpty(x: Option<seq<string>>): (r: seq<string>)
    ensures x.Some? ==> r == x.value
    ensures x.None? ==> r == []
  {
    if x.Some? then x.value else []
  }

  /** A string field with the schema's trim setter applied. */
  function Trimmed(x: Option<string>): (r: Option<string>)
    ensures r.Some? <==> x.Some?
    ensures r.Some? ==> r.value == Trim(x.value)
  {
    if x.Some? then Some(Trim(x.value)) else None
  }

  /** The report as stored: absent lists become empty lists, the trimmed string
      fields are trimmed, everything else is copied. */
  function StoredResult(p: ResultPayload): (r: A.AnalysisResult)
    ensures r.personalityTraits == ListOrEmpty(p.personalityTraits) && r.redFlags == ListOrEmpty(p.redFlags)
    ensures r.strengths == ListOrEmpty(p.strengths) && r.weaknesses == ListOrEmpty(p.weaknesses)
    ensures r.tips == ListOrEmpty(p.tips) && r.conversationScripts == ListOrEmpty(p.conversationScripts)
    ensures r.passionScore == p.passionScore && r.mbti == Trimmed(p.mbti)
  {
    A.AnalysisResult(Trimmed(p.mbti), ListOrEmpty(p.personalityTraits), Trimmed(p.loveStyle),
                     ListOrEmpty(p.redFlags), ListOrEmpty(p.strengths), ListOrEmpty(p.weaknesses),
                     p.passionScore, Trimmed(p.idealColor), Trimmed(p.idealMatch),
                     p.brazilian, p.international, ListOrEmpty(p.tips), ListOrEmpty(p.conversationScripts),
                     p.infographicUrl, p.qrCode)
  }

  datatype N8nBody = N8nBody(
    analysisId: nat,
    status: string,
    result: Option<ResultPayload>,
    processingTime: Option<int>,
    errorMessage: Option<string>,
    imageUrl: Option<string>,
    imageId: Option<string>)

  datatype Settled = Settled(analysisId: nat, status: A.AnalysisStatus)

  /** The fields every delivery overwrites: processing time always, the image
      fields only when supplied. */
  function Touch(a: A.Analysis, b: N8nBody): A.Analysis
  {
    a.(processingTime := b.processingTime,
       imageUrl := OrElse(b.imageUrl, a.imageUrl),
       imageId := OrElse(b.imageId, a.imageId))
  }

  /** The refund row of a failed job. */
  function RefundRow(a: A.Analysis, id: nat): T.CreditTransaction
  {
    T.CreditTransaction(a.user, T.Refund, a.creditsUsed, None, None, Some(id), T.Completed)
  }

  /** The refund as the source performs it: `$inc` on the owner (a no-op when the
      owner is gone), then the refund row. */
  function Refund(db: L.Db, a: A.Analysis, id: nat): (db': L.Db)
    ensures db'.analyses == db.analyses && db'.plans == db.plans && db'.txs == db.txs + [RefundRow(a, id)]
    ensures |db'.users| == |db.users|
    ensures forall u :: 0 <= u < |db.users| ==>
              db'.users[u] == if u == a.user then db.users[u].(credits := db.users[u].credits + a.creditsUsed) else db.users[u]
  {
    var users := if a.user < |db.users| then db.users[a.user := db.users[a.user].(credits := db.users[a.user].credits + a.creditsUsed)] else db.users;
    db.(users := users, txs := db.txs + [RefundRow(a, id)])
  }

  /** The n8n handler: 404 for an unknown job; otherwise status and processing
      time are overwritten, a completed delivery with a result stores it, a failed
      one records the error message and refunds the job's credits, and then the
      job is saved (500 if the status is not one of the schema's or the document
      is invalid; a refund already made stays made). */
  function Settle(db: L.Db, b: N8nBody, freshToken: string): (res: (L.Db, Reply<Settled>))
    ensures b.analysisId >= |db.analyses| ==> res == (db, Failure(404, Message(NotFound)))
    ensures res.1.Failure? && b.status != "failed" ==> res.0 == db
    ensures res.1.Success? ==>
              && b.analysisId < |db.analyses|
              && A.ParseAnalysisStatus(b.status).Some?
              && res.1 == Success(200, Settled(b.analysisId, A.ParseAnalysisStatus(b.status).value))
              && |res.0.analyses| == |db.analyses|
              && res.0.analyses[b.analysisId].status == A.ParseAnalysisStatus(b.status).value
              && res.0.analyses[b.analysisId].processingTime == b.processingTime
              && (forall i :: 0 <= i < |db.analyses| && i != b.analysisId ==> res.0.analyses[i] == db.analyses[i])
    ensures b.status != "failed" ==> res.0.users == db.users && res.0.txs == db.txs
    ensures b.analysisId < |db.analyses| && b.status == "failed" ==>
              && res.0.txs == db.txs + [RefundRow(db.analyses[b.analysisId], b.analysisId)]
              && res.0.users == Refund(db, db.analyses[b.analysisId], b.analysisId).users
    ensures res.1.Failure? ==> res.0.analyses == db.analyses
    ensures res.0.plans == db.plans
  {
    var id := b.analysisId;
    if id >= |db.analyses| then (db, Failure(404, Message(NotFound)))
    else
      var a := db.analyses[id];
      var touched := Touch(a, b);
      var (db1, a1) :=
        if b.status == "completed" && b.result.Some? then (db, touched.(result := StoredResult(b.result.value)))
        else if b.status == "failed" then (Refund(db, a, id), touched.(errorMessage := b.errorMessage))
        else (db, touched);
      match A.ParseAnalysisStatus(b.status)
      case None => (db1, Failure(500, Message(InternalError)))
      case Some(st) =>
        var saved := A.PreSave(a1.(status := st), freshToken);
        if !A.SchemaValid(saved) then (db1, Failure(500, Message(InternalError)))
        else (db1.(analyses := db1.analyses[id := saved]), Success(200, Settled(id, st)))
  }

  /** A completed delivery never touches a balance or the ledger; missing result
      lists are stored as empty lists and the image fields change only when
      supplied. */
  lemma CompletedStoresResult(db: L.Db, b: N8nBody, freshToken: string)
    requires b.status == "completed" && b.result.Some?
    requires Settle(db, b, freshToken).1.Success?
    ensures var db' := Settle(db, b, freshToken).0;
      var a := db.analyses[b.analysisId];
      var a' := db'.analyses[b.analysisId];
      && db'.users == db.users && db'.txs == db.txs
      && a'.status == A.Completed
      && a'.result == StoredResult(b.result.value)
      && (b.result.value.tips.None? ==> a'.result.tips == [])
      && a'.imageUrl == (if Present(b.imageUrl) then b.imageUrl.value else a.imageUrl)
      && a'.imageId == (if Present(b.imageId) then b.imageId.value else a.imageId)
      && a'.creditsUsed == a.creditsUsed && a'.user == a.user
  {
  }

  /** A failed delivery raises the owner's balance by the job's credits, changes
      nothing else about any account, and appends one completed refund row
      linked to the job. */
  lemma FailedRefunds(db: L.Db, b: N8nBody, freshToken: string)
    requires b.status == "failed" && b.analysisId < |db.analyses|
    requires db.analyses[b.analysisId].user < |db.users|
    ensures var db' := Settle(db, b, freshToken).0;
      var a := db.analyses[b.analysisId];
      && db'.users[a.user] == db.users[a.user].(credits := db.users[a.user].credits + a.creditsUsed)
      && |db'.users| == |db.users|
      && (forall u :: 0 <= u < |db.users| && u != a.user ==> db'.users[u] == db.users[u])
      && db'.txs == db.txs + [T.CreditTransaction(a.user, T.Refund, a.creditsUsed, None, None, Some(b.analysisId), T.Completed)]
  {
  }

  /** Settlement keeps every balance equal to the sum of its completed rows: a
      refund credits exactly what its row records. */
  lemma {:induction false} SettleKeepsBalance(db: L.Db, b: N8nBody, freshToken: string)
    requires L.Balanced(db)
    ensures L.Balanced(Settle(db, b, freshToken).0)
  {
    var db' := Settle(db, b, freshToken).0;
    if b.analysisId < |db.analyses| && b.status == "failed" {
      var a := db.analyses[b.analysisId];
      var row := RefundRow(a, b.analysisId);
      forall u | 0 <= u < |db'.users|
        ensures db'.users[u].credits == L.LedgerSum(db'.txs, u)
      {
        L.LedgerSumAppend(db.txs, row, u);
      }
    }
  }

  /** There is no check on the job's current status: a second identical failed
      delivery refunds again and appends a second refund row. */
  lemma RepeatedFailedRefundsTwice(db: L.Db, b: N8nBody, t1: string, t2: string)
    requires b.status == "failed" && b.analysisId < |db.analyses|
    requires db.analyses[b.analysisId].user < |db.users|
    requires A.SchemaValid(db.analyses[b.analysisId])
    ensures var once := Settle(db, b, t1);
      var twice := Settle(once.0, b, t2);
      var a := db.analyses[b.analysisId];
      && once.1.Success? && twice.1.Success?
      && twice.0.users[a.user].credits == db.users[a.user].credits + 2 * a.creditsUsed
      && twice.0.txs == db.txs + [RefundRow(a, b.analysisId), RefundRow(a, b.analysisId)]
  {
    var once := Settle(db, b, t1);
    var a := db.analyses[b.analysisId];
    assert once.0.analyses[b.analysisId].user == a.user;
    assert once.0.analyses[b.analysisId].creditsUsed == a.creditsUsed;
  }

  /** The handler as the source runs it, mutating the store step by step. */
  method N8nWebhook(s: L.Store, b: N8nBody, freshToken: string) returns (r: Reply<Settled>)
    modifies s
    ensures (s.State(), r) == Settle(old(s.State()), b, freshToken)
  {
    var id := b.analysisId;
    if id >= |s.analyses| {
      return Failure(404, Message(NotFound));
    }
    var a := s.analyses[id];
    var job := Touch(a, b);
    if b.status == "completed" && b.result.Some? {
      job := job.(result := StoredResult(b.result.value));
    } else if b.status == "failed" {
      job := job.(errorMessage := b.errorMessage);
      if a.user < |s.users| {
        s.users := s.users[a.user := s.users[a.user].(credits := s.users[a.user].credits + a.creditsUsed)];
      }
      s.txs := s.txs + [RefundRow(a, id)];
    }
    var st := A.ParseAnalysisStatus(b.status);
    if st.None? {
      return Failure(500, Message(InternalError));
    }
    var saved := A.PreSave(job.(status := st.value), freshToken);
    if !A.SchemaValid(saved) {
      return Failure(500, Message(InternalError));
    }
    s.analyses := s.analyses[id := saved];
    r := Success(200, Settled(id, st.value));
  }

  // ---------------------------------------------------------------- AppMax

  /** The AppMax notification. `credits` is `parseInt(credits)`, None when NaN;
      `secret` is the body's `WEBHOOK_SECRET`. */
  datatype AppMaxBody = AppMaxBody(
    transactionId: string,
    status: string,
    name: string,
    email: Option<string>,
    cpf: string,
    phone: string,
    plan: Option<string>,
    credits: Option<int>,
    secret: Option<string>)

  /** `parseInt(credits) || 0`: NaN and 0 both give 0; a negative number stays. */
  function CreditsOf(credits: Option<int>): (c: int)
    ensures credits.None? ==> c == 0
    ensures credits.Some? ==> c == credits.value
  {
    if credits.Some? then credits.value else 0
  }

  /** `statusMap[status] || status`: the Portuguese statuses become English ones,
      anything else passes through. */
  function NormalizeStatus(s: string): (r: string)
    ensures s in {"aprovado", "autorizado"} ==> r == "approved"
    ensures s == "pendente" ==> r == "pending"
    ensures s == "cancelado" ==> r == "cancelled"
    ensures s == "reembolsado" ==> r == "refunded"
    ensures s !in {"aprovado", "autorizado", "pendente", "cancelado", "reembolsado"} ==> r == s
  {
    if s == "aprovado" || s == "autorizado" then "approved"
    else if s == "pendente" then "pending"
    else if s == "cancelado" then "cancelled"
    else if s == "reembolsado" then "refunded"
    else s
  }

  /** The placeholder account for an unknown CPF. */
  function Placeholder(b: AppMaxBody, plan: U.UserPlan, tempPassword: string): (u: U.User)
    ensures u.accountStatus == U.PendingSetup && u.credits == 0 && u.plan == plan
    ensures u.email == U.CanonicalEmail(OrElse(b.email, "user_" + b.cpf + "@testematch.temp"))
    ensures u.cpf == Trim(b.cpf) && u.password == Some(tempPassword)
  {
    U.NewUser(b.name, OrElse(b.email, "user_" + b.cpf + "@testematch.temp"), Some(tempPassword), b.phone, b.cpf)
      .(plan := plan, accountStatus := U.PendingSetup)
  }

  /** Saving a placeholder account like any user: validation (including the
      schema's email pattern), then the phone hook, then the unique email index;
      any failure is a 500 that writes nothing. */
  function Provision(db: L.Db, u: U.User, emailPattern: string -> bool): (res: (L.Db, Reply<nat>))
    ensures res.1.Failure? ==> res == (db, Failure(500, Message(InternalError)))
    ensures res.1.Success? <==> U.SchemaValid(u) && emailPattern(u.email) && L.FindByEmail(db.users, u.email).None?
    ensures res.1.Success? ==>
              && res.1 == Success(200, |db.users|)
              && res.0 == db.(users := db.users + [U.PreSavePhone(u, true)])
  {
    if !U.SchemaValid(u) || !emailPattern(u.email) then (db, Failure(500, Message(InternalError)))
    else if L.FindByEmail(db.users, u.email).Some? then (db, Failure(500, Message(InternalError)))
    else (db.(users := db.users + [U.PreSavePhone(u, true)]), Success(200, |db.users|))
  }

  /** The payer: the user with the body's CPF, or, for an approved payment only, a
      new placeholder account (plan `plan || 'free'`, pending setup, the random
      temporary password, the email or a made-up one). */
  function ResolvePayer(db: L.Db, b: AppMaxBody, emailPattern: string -> bool, tempPassword: string): (res: (L.Db, Reply<nat>))
    ensures res.1.Success? ==> res.1.value < |res.0.users|
    ensures L.FindByCpf(db.users, b.cpf).Some? ==> res == (db, Success(200, L.FindByCpf(db.users, b.cpf).value))
    ensures L.FindByCpf(db.users, b.cpf).None? && NormalizeStatus(b.status) != "approved" ==>
              res == (db, Failure(404, Message(NoPayer)))
    ensures res.0 != db ==>
              && L.FindByCpf(db.users, b.cpf).None?
              && res.1 == Success(200, |db.users|)
              && |res.0.users| == |db.users| + 1
              && res.0 == db.(users := db.users + [res.0.users[|db.users|]])
              && res.0.users[|db.users|].credits == 0
              && res.0.users[|db.users|].accountStatus == U.PendingSetup
    ensures L.FindByCpf(db.users, b.cpf).None? && NormalizeStatus(b.status) == "approved" ==>
              res == ProvisionPayer(db, b, emailPattern, tempPassword)
  {
    match L.FindByCpf(db.users, b.cpf)
    case Some(k) => (db, Success(200, k))
    case None =>
      if NormalizeStatus(b.status) != "approved" then (db, Failure(404, Message(NoPayer)))
      else ProvisionPayer(db, b, emailPattern, tempPassword)
  }

  /** The pre-registration of an unknown payer: the placeholder with plan
      `plan || 'free'`, saved. It is appended as the next account exactly when
      that plan is known, the placeholder passes validation and its email is
      free; anything else is a 500 that writes nothing. */
  function ProvisionPayer(db: L.Db, b: AppMaxBody, emailPattern: string -> bool, tempPassword: string): (res: (L.Db, Reply<nat>))
    ensures res.1.Failure? ==> res == (db, Failure(500, Message(InternalError)))
    ensures res.1.Success? <==>
              && U.ParseUserPlan(OrElse(b.plan, "free")).Some?
              && var u := Placeholder(b, U.ParseUserPlan(OrElse(b.plan, "free")).value, tempPassword);
                 U.SchemaValid(u) && emailPattern(u.email) && L.FindByEmail(db.users, u.email).None?
    ensures res.1.Success? ==>
              && res.1 == Success(200, |db.users|)
              && res.0 == db.(users := db.users + [U.PreSavePhone(Placeholder(b, U.ParseUserPlan(OrElse(b.plan, "free")).value, tempPassword), true)])
  {
    match U.ParseUserPlan(OrElse(b.plan, "free"))
    case None => (db, Failure(500, Message(InternalError)))
    case Some(plan) => Provision(db, Placeholder(b, plan, tempPassword), emailPattern)
  }

  /** The 200 payload; `setupFor` is the id in the password-setup link, present
      exactly when the payer's account is pending setup. */
  datatype Reconciled = Reconciled(transactionId: string, userId: nat, status: T.TxStatus, setupFor: Option<nat>)

  /** The new row for an unseen payment id. */
  function PurchaseRow(payer: nat, b: AppMaxBody): T.CreditTransaction
  {
    T.CreditTransaction(payer, T.Purchase, CreditsOf(b.credits), None, Some(b.transactionId), None, T.Pending)
  }

  /** The payment step, for a resolved payer: the first row with the payment id
      (whoever owns it) or a new pending purchase row; `approved` credits the
      payer and marks the row completed with the parsed amount, even if it was
      completed already; `cancelled` and `refunded` mark it failed without
      touching any balance; any other status is stored as given (500 if the
      schema does not know it, with nothing written). */
  function SettlePayment(db: L.Db, payer: nat, b: AppMaxBody): (res: (L.Db, Reply<Reconciled>))
    requires payer < |db.users|
    ensures res.1.Failure? ==> res == (db, Failure(500, Message(InternalError)))
    ensures res.0.analyses == db.analyses && res.0.plans == db.plans && |res.0.users| == |db.users|
    ensures NormalizeStatus(b.status) == "approved" ==> res.1.Success? && res.1.value.status == T.Completed
    ensures NormalizeStatus(b.status) in {"cancelled", "refunded"} ==> res.1.Success? && res.1.value.status == T.Failed
    ensures NormalizeStatus(b.status) !in {"approved", "cancelled", "refunded"} ==>
              && (res.1.Success? <==> T.ParseTxStatus(NormalizeStatus(b.status)).Some?)
              && (res.1.Success? ==> res.1.value.status == T.ParseTxStatus(NormalizeStatus(b.status)).value)
    ensures NormalizeStatus(b.status) != "approved" ==> res.0.users == db.users
    ensures NormalizeStatus(b.status) == "approved" ==>
              res.0.users == db.users[payer := db.users[payer].(credits := db.users[payer].credits + CreditsOf(b.credits))]
    ensures res.1.Success? ==>
              && res.1.code == 200 && res.1.value.transactionId == b.transactionId && res.1.value.userId == payer
              && res.1.value.setupFor == if db.users[payer].accountStatus == U.PendingSetup then Some(payer) else None
    ensures res.1.Success? ==>
              match L.FindPayment(db.txs, b.transactionId)
              case None => res.0.txs == db.txs + [PurchaseRow(payer, b).(status := res.1.value.status,
                                                                            amount := CreditsOf(b.credits))]
              case Some(i) => res.0.txs == db.txs[i := db.txs[i].(status := res.1.value.status,
                                                                    amount := if NormalizeStatus(b.status) == "approved" then CreditsOf(b.credits) else db.txs[i].amount)]
  {
    var ns := NormalizeStatus(b.status);
    var c := CreditsOf(b.credits);
    var row := match L.FindPayment(db.txs, b.transactionId)
               case None => PurchaseRow(payer, b)
               case Some(i) => db.txs[i];
    var st: Option<T.TxStatus> :=
      if ns == "approved" then Some(T.Completed)
      else if ns == "cancelled" || ns == "refunded" then Some(T.Failed)
      else T.ParseTxStatus(ns);
    if st.None? then (db, Failure(500, Message(InternalError)))
    else
      var users := if ns == "approved" then db.users[payer := db.users[payer].(credits := db.users[payer].credits + c)] else db.users;
      var row' := if ns == "approved" then row.(amount := c, status := st.value) else row.(status := st.value);
      var txs := match L.FindPayment(db.txs, b.transactionId)
                 case None => db.txs + [row']
                 case Some(i) => db.txs[i := row'];
      var setup := if db.users[payer].accountStatus == U.PendingSetup then Some(payer) else None;
      (db.(users := users, txs := txs), Success(200, Reconciled(b.transactionId, payer, st.value, setup)))
  }

  /** The AppMax handler: the shared-secret gate (403 before anything is read),
      then the payer, then the payment row. The gate compares the body's secret
      with the configured one as optional values, so with no secret configured a
      body without one passes. */
  function Reconcile(db: L.Db, envSecret: Option<string>, b: AppMaxBody, emailPattern: string -> bool, tempPassword: string): (res: (L.Db, Reply<Reconciled>))
    ensures b.secret != envSecret ==> res == (db, Failure(403, Message(BadSecret)))
    ensures res.1.Failure? && res.1.code != 500 ==> res.0 == db
  {
    if b.secret != envSecret then (db, Failure(403, Message(BadSecret)))
    else
      match ResolvePayer(db, b, emailPattern, tempPassword)
      case (db1, Failure(code, e)) => (db1, Failure(code, e))
      case (db1, Success(_, payer)) => SettlePayment(db1, payer, b)
  }

  /** The gate: a wrong or missing secret is refused when one is configured, and
      when none is configured only a body that also carries none gets through. */
  lemma SecretGate(db: L.Db, envSecret: Option<string>, b: AppMaxBody, emailPattern: string -> bool, tempPassword: string)
    ensures Reconcile(db, envSecret, b, emailPattern, tempPassword).1.code != 403 <==> b.secret == envSecret
    ensures envSecret.None? && b.secret.None? ==> Reconcile(db, envSecret, b, emailPattern, tempPassword).1.code != 403
  {
  }

  /** An unknown CPF with a status other than approved is a 404 that writes nothing. */
  lemma UnknownPayerNotApproved(db: L.Db, envSecret: Option<string>, b: AppMaxBody, emailPattern: string -> bool, tempPassword: string)
    requires b.secret == envSecret && L.FindByCpf(db.users, b.cpf).None? && NormalizeStatus(b.status) != "approved"
    ensures Reconcile(db, envSecret, b, emailPattern, tempPassword) == (db, Failure(404, Message(NoPayer)))
  {
  }

  /** An approved payment from an unknown CPF whose pre-registration succeeds
      (see `ProvisionPayer`: a known plan, a valid placeholder, a free email),
      with a new payment id: 200 with the setup link for the new account, which
      is the saved placeholder (pending setup, plan `plan || 'free'`) holding the
      paid credits, next to one completed purchase row. */
  lemma UnknownPayerApproved(db: L.Db, envSecret: Option<string>, b: AppMaxBody, emailPattern: string -> bool, tempPassword: string)
    requires b.secret == envSecret && L.FindByCpf(db.users, b.cpf).None? && NormalizeStatus(b.status) == "approved"
    requires ProvisionPayer(db, b, emailPattern, tempPassword).1.Success?
    requires L.FindPayment(db.txs, b.transactionId).None?
    ensures var n := |db.users|;
      var u := ProvisionPayer(db, b, emailPattern, tempPassword).0.users[n];
      && u.accountStatus == U.PendingSetup && u.credits == 0
      && u.plan == U.ParseUserPlan(OrElse(b.plan, "free")).value
      && var res := Reconcile(db, envSecret, b, emailPattern, tempPassword);
         && res.1 == Success(200, Reconciled(b.transactionId, n, T.Completed, Some(n)))
         && res.0.users == db.users + [u.(credits := CreditsOf(b.credits))]
         && res.0.txs == db.txs + [PurchaseRow(n, b).(status := T.Completed)]
  {
    var n := |db.users|;
    ReconcileNewPayer(db, envSecret, b, emailPattern, tempPassword);
    var db1 := ProvisionPayer(db, b, emailPattern, tempPassword).0;
    var u := db1.users[n];
    assert db1.users == db.users + [u] && db1.txs == db.txs;
    PendingPayerSettles(db1, n, b);
    ReplaceLast(db.users, u, u.(credits := CreditsOf(b.credits)));
  }

  /** Overwriting the last element of `s + [a]` with `x` gives `s + [x]`. */
  lemma ReplaceLast<X>(s: seq<X>, a: X, x: X)
    ensures (s + [a])[|s| := x] == s + [x]
  {
    assert forall k :: 0 <= k < |s| ==> (s + [a])[|s| := x][k] == s[k];
  }

  /** An approved payment with a new payment id, for an account pending setup:
      the balance grows by the paid credits, one completed purchase row is
      appended, and the reply carries the setup link. */
  lemma PendingPayerSettles(db: L.Db, payer: nat, b: AppMaxBody)
    requires payer < |db.users| && db.users[payer].accountStatus == U.PendingSetup
    requires NormalizeStatus(b.status) == "approved" && L.FindPayment(db.txs, b.transactionId).None?
    ensures SettlePayment(db, payer, b) ==
              (db.(users := db.users[payer := db.users[payer].(credits := db.users[payer].credits + CreditsOf(b.credits))],
                   txs := db.txs + [PurchaseRow(payer, b).(status := T.Completed)]),
               Success(200, Reconciled(b.transactionId, payer, T.Completed, Some(payer))))
  {
  }

  /** With the right secret, a notification whose unknown payer was provisioned
      is the payment step for the new account. */
  lemma ReconcileNewPayer(db: L.Db, envSecret: Option<string>, b: AppMaxBody, emailPattern: string -> bool, tempPassword: string)
    requires b.secret == envSecret && L.FindByCpf(db.users, b.cpf).None? && NormalizeStatus(b.status) == "approved"
    requires ProvisionPayer(db, b, emailPattern, tempPassword).1.Success?
    ensures var db1 := ProvisionPayer(db, b, emailPattern, tempPassword).0;
      |db1.users| == |db.users| + 1 &&
      Reconcile(db, envSecret, b, emailPattern, tempPassword) == SettlePayment(db1, |db.users|, b)
  {
  }

  /** The validator only admits the four English statuses, so the Portuguese
      entries of the status table never reach the handler through the route. */
  lemma AliasesRejected(transactionId: string, amount: Option<real>)
    ensures forall s :: s in {"aprovado", "autorizado", "pendente", "cancelado", "reembolsado"} ==>
              V.AppMaxErrors(transactionId, s, amount) != [] && NormalizeStatus(s) != s
    ensures forall s :: s in {"approved", "pending", "cancelled", "refunded"} ==> NormalizeStatus(s) == s
  {
  }

  /** A payment step keeps the balances equal to the ledger when the status is one
      the validator admits and the payment id is new, or names a row of the payer
      that is not completed yet. */
  lemma {:induction false} SettlePaymentKeepsBalance(db: L.Db, payer: nat, b: AppMaxBody)
    requires payer < |db.users| && L.Balanced(db)
    requires b.status in {"approved", "pending", "cancelled", "refunded"}
    requires L.FindPayment(db.txs, b.transactionId).Some? ==>
               var i := L.FindPayment(db.txs, b.transactionId).value;
               db.txs[i].user == payer && db.txs[i].status != T.Completed
    ensures L.Balanced(SettlePayment(db, payer, b).0)
  {
    AliasesRejected(b.transactionId, None);
    var (db', r) := SettlePayment(db, payer, b);
    if r.Success? {
      var delta := if b.status == "approved" then CreditsOf(b.credits) else 0;
      var row := match L.FindPayment(db.txs, b.transactionId)
                 case None => db'.txs[|db.txs|]
                 case Some(i) => db'.txs[i];
      assert L.Contribution(row, payer) == delta;
      forall u | 0 <= u < |db'.users|
        ensures db'.users[u].credits == L.LedgerSum(db'.txs, u)
      {
        match L.FindPayment(db.txs, b.transactionId)
        case None => L.LedgerSumAppend(db.txs, row, u);
        case Some(i) => L.LedgerSumUpdate(db.txs, i, row, u);
      }
    }
  }

  /** The same for the whole handler: a placeholder account starts at zero with no
      rows, so provisioning keeps the balances too. */
  lemma {:induction false} ReconcileKeepsBalance(db: L.Db, envSecret: Option<string>, b: AppMaxBody, emailPattern: string -> bool, tempPassword: string)
    requires L.Balanced(db)
    requires forall i :: 0 <= i < |db.txs| ==> db.txs[i].user < |db.users|
    requires b.status in {"approved", "pending", "cancelled", "refunded"}
    requires L.FindPayment(db.txs, b.transactionId).Some? ==>
               var i := L.FindPayment(db.txs, b.transactionId).value;
               && L.FindByCpf(db.users, b.cpf).Some?
               && db.txs[i].user == L.FindByCpf(db.users, b.cpf).value
               && db.txs[i].status != T.Completed
    ensures L.Balanced(Reconcile(db, envSecret, b, emailPattern, tempPassword).0)
  {
    if b.secret == envSecret {
      var (db1, r1) := ResolvePayer(db, b, emailPattern, tempPassword);
      if r1.Success? {
        if db1 != db {
          L.BalancedAddUser(db, db1.users[|db.users|]);
        }
        SettlePaymentKeepsBalance(db1, r1.value, b);
      }
    }
  }

  /** A repeated `approved` delivery for a payment whose row is already completed
      credits the payer again while the ledger only has its amount rewritten: when
      the amount is not zero, a balanced database is no longer balanced. */
  lemma RepeatedApprovedBreaksBalance(db: L.Db, payer: nat, b: AppMaxBody)
    requires payer < |db.users| && L.Balanced(db)
    requires NormalizeStatus(b.status) == "approved" && CreditsOf(b.credits) != 0
    requires L.FindPayment(db.txs, b.transactionId).Some?
    requires var i := L.FindPayment(db.txs, b.transactionId).value;
               db.txs[i] == PurchaseRow(payer, b).(status := T.Completed)
    ensures var db' := SettlePayment(db, payer, b).0;
      && db'.txs == db.txs
      && db'.users[payer].credits == db.users[payer].credits + CreditsOf(b.credits)
      && !L.Balanced(db')
  {
    var db' := SettlePayment(db, payer, b).0;
    var i := L.FindPayment(db.txs, b.transactionId).value;
    assert db.txs[i := db.txs[i]] == db.txs;
    assert db'.users[payer].credits != L.LedgerSum(db'.txs, payer);
  }

  /** The first delivery of an approved payment for a known payer leaves behind the
      completed row that makes a second delivery double the credit. */
  lemma ApprovedTwice(db: L.Db, envSecret: Option<string>, b: AppMaxBody, emailPattern: string -> bool, tempPassword: string)
    requires b.secret == envSecret && L.FindByCpf(db.users, b.cpf).Some?
    requires NormalizeStatus(b.status) == "approved"
    requires L.FindPayment(db.txs, b.transactionId).None?
    ensures var once := Reconcile(db, envSecret, b, emailPattern, tempPassword).0;
      var twice := Reconcile(once, envSecret, b, emailPattern, tempPassword).0;
      var payer := L.FindByCpf(db.users, b.cpf).value;
      && twice.txs == once.txs == db.txs + [PurchaseRow(payer, b).(status := T.Completed)]
      && twice.users[payer].credits == db.users[payer].credits + 2 * CreditsOf(b.credits)
  {
    var payer := L.FindByCpf(db.users, b.cpf).value;
    ApprovedOnce(db, envSecret, b, emailPattern, tempPassword);
    var once := Reconcile(db, envSecret, b, emailPattern, tempPassword).0;
    ReconcileKnownPayer(once, envSecret, b, emailPattern, tempPassword);
    ReapprovalKeepsRows(once, payer, b);
  }

  /** With the right secret, a notification for a known CPF is the payment step
      for that account. */
  lemma ReconcileKnownPayer(db: L.Db, envSecret: Option<string>, b: AppMaxBody, emailPattern: string -> bool, tempPassword: string)
    requires b.secret == envSecret && L.FindByCpf(db.users, b.cpf).Some?
    ensures Reconcile(db, envSecret, b, emailPattern, tempPassword) == SettlePayment(db, L.FindByCpf(db.users, b.cpf).value, b)
  {
  }

  /** The first delivery: the payer is found by CPF, credited once, and the new
      completed row is the one a later lookup by payment id finds. */
  lemma ApprovedOnce(db: L.Db, envSecret: Option<string>, b: AppMaxBody, emailPattern: string -> bool, tempPassword: string)
    requires b.secret == envSecret && L.FindByCpf(db.users, b.cpf).Some?
    requires NormalizeStatus(b.status) == "approved"
    requires L.FindPayment(db.txs, b.transactionId).None?
    ensures var once := Reconcile(db, envSecret, b, emailPattern, tempPassword).0;
      var payer := L.FindByCpf(db.users, b.cpf).value;
      && once.txs == db.txs + [PurchaseRow(payer, b).(status := T.Completed)]
      && once.users[payer].credits == db.users[payer].credits + CreditsOf(b.credits)
      && L.FindByCpf(once.users, b.cpf) == Some(payer)
      && L.FindPayment(once.txs, b.transactionId) == Some(|db.txs|)
  {
    var payer := L.FindByCpf(db.users, b.cpf).value;
    ReconcileKnownPayer(db, envSecret, b, emailPattern, tempPassword);
    var once := SettlePayment(db, payer, b).0;
    L.FindByCpfSameKeys(db.users, once.users, b.cpf);
    L.FindPaymentAppend(db.txs, PurchaseRow(payer, b).(status := T.Completed), b.transactionId);
  }

  /** The ledger step of `ApprovedTwice`: re-approving a payment whose row is
      already the completed purchase writes that row back unchanged, so every
      row stays as it was (while the payer is credited again). */
  lemma ReapprovalKeepsRows(db: L.Db, payer: nat, b: AppMaxBody)
    requires payer < |db.users| && NormalizeStatus(b.status) == "approved"
    requires L.FindPayment(db.txs, b.transactionId).Some?
    requires var i := L.FindPayment(db.txs, b.transactionId).value;
               db.txs[i] == PurchaseRow(payer, b).(status := T.Completed)
    ensures SettlePayment(db, payer, b).0.txs == db.txs
  {
    var i := L.FindPayment(db.txs, b.transactionId).value;
    assert db.txs[i := db.txs[i]] == db.txs;
  }

  /** A `cancelled` delivery after an approved one turns the completed row into a
      failed one but takes nothing back: the ledger drops by the amount and the
      balance does not. */
  lemma CancelAfterApprovalBreaksBalance(db: L.Db, payer: nat, b: AppMaxBody)
    requires payer < |db.users| && L.Balanced(db)
    requires NormalizeStatus(b.status) == "cancelled"
    requires L.FindPayment(db.txs, b.transactionId).Some?
    requires var i := L.FindPayment(db.txs, b.transactionId).value;
               db.txs[i].user == payer && db.txs[i].status == T.Completed && db.txs[i].amount != 0
    ensures var db' := SettlePayment(db, payer, b).0;
      && db'.users == db.users
      && L.LedgerSum(db'.txs, payer) == L.LedgerSum(db.txs, payer) - db.txs[L.FindPayment(db.txs, b.transactionId).value].amount
      && !L.Balanced(db')
  {
    var i := L.FindPayment(db.txs, b.transactionId).value;
    var db' := SettlePayment(db, payer, b).0;
    L.LedgerSumUpdate(db.txs, i, db.txs[i].(status := T.Failed), payer);
    assert db'.users[payer].credits != L.LedgerSum(db'.txs, payer);
  }

  /** A notification reuses the row that carries its payment id and appends one
      only when there is none, so payment ids stay unique, and after a success
      the payment id names a row. */
  lemma {:induction false} ReconcileKeepsPaymentIdsUnique(db: L.Db, envSecret: Option<string>, b: AppMaxBody,
                                                          emailPattern: string -> bool, tempPassword: string)
    requires L.PaymentIdsUnique(db.txs)
    ensures var res := Reconcile(db, envSecret, b, emailPattern, tempPassword);
      && L.PaymentIdsUnique(res.0.txs)
      && |db.txs| <= |res.0.txs| <= |db.txs| + 1
      && (res.1.Success? ==> L.FindPayment(res.0.txs, b.transactionId).Some?)
  {
    if b.secret == envSecret {
      var (db1, r1) := ResolvePayer(db, b, emailPattern, tempPassword);
      assert db1.txs == db.txs;
      if r1.Success? {
        SettlePaymentKeepsPaymentIdsUnique(db1, r1.value, b);
      }
    }
  }

  /** The payment step alone: it rewrites the row with the payment id or appends
      one carrying it. */
  lemma SettlePaymentKeepsPaymentIdsUnique(db: L.Db, payer: nat, b: AppMaxBody)
    requires payer < |db.users| && L.PaymentIdsUnique(db.txs)
    ensures var res := SettlePayment(db, payer, b);
      && L.PaymentIdsUnique(res.0.txs)
      && |db.txs| <= |res.0.txs| <= |db.txs| + 1
      && (res.1.Success? ==> L.FindPayment(res.0.txs, b.transactionId).Some?)
  {
    var res := SettlePayment(db, payer, b);
    if res.1.Success? {
      var txs := res.0.txs;
      match L.FindPayment(db.txs, b.transactionId)
      case None =>
        assert txs[|db.txs|].paymentId == Some(b.transactionId);
        assert forall k :: 0 <= k < |db.txs| ==> txs[k] == db.txs[k];
      case Some(i) =>
        assert forall k :: 0 <= k < |txs| ==> txs[k].paymentId == db.txs[k].paymentId;
        assert txs[i].paymentId == Some(b.transactionId);
    }
  }

  /** `$inc` skips the schema's `min: 0`: an approved payment with a negative
      `credits` field takes the payer below zero. */
  lemma NegativeCreditsAccepted(db: L.Db, payer: nat, b: AppMaxBody)
    requires payer < |db.users| && NormalizeStatus(b.status) == "approved"
    requires b.credits.Some? && db.users[payer].credits + b.credits.value < 0
    ensures SettlePayment(db, payer, b).1.Success?
    ensures SettlePayment(db, payer, b).0.users[payer].credits < 0
  {
  }

  /** `user.save()` on a placeholder account, as the source runs it. */
  method SavePlaceholder(s: L.Store, u: U.User, emailPattern: string -> bool) returns (r: Reply<nat>)
    modifies s
    ensures (s.State(), r) == Provision(old(s.State()), u, emailPattern)
  {
    if !U.SchemaValid(u) || !emailPattern(u.email) || L.FindByEmail(s.users, u.email).Some? {
      return Failure(500, Message(InternalError));
    }
    r := Success(200, |s.users|);
    s.users := s.users + [U.PreSavePhone(u, true)];
  }

  /** The payer lookup and provisioning as the source runs it. */
  method FindOrProvisionPayer(s: L.Store, b: AppMaxBody, emailPattern: string -> bool, tempPassword: string)
      returns (r: Reply<nat>)
    modifies s
    ensures (s.State(), r) == ResolvePayer(old(s.State()), b, emailPattern, tempPassword)
  {
    var found := L.FindByCpf(s.users, b.cpf);
    if found.Some? {
      return Success(200, found.value);
    }
    if NormalizeStatus(b.status) != "approved" {
      return Failure(404, Message(NoPayer));
    }
    var plan := U.ParseUserPlan(OrElse(b.plan, "free"));
    if plan.None? {
      return Failure(500, Message(InternalError));
    }
    r := SavePlaceholder(s, Placeholder(b, plan.value, tempPassword), emailPattern);
  }

  /** The payment-row step as the source runs it: look up or build the row, apply
      the status, save. */
  method ApplyPayment(s: L.Store, payer: nat, b: AppMaxBody) returns (r: Reply<Reconciled>)
    requires payer < |s.users|
    modifies s
    ensures (s.State(), r) == SettlePayment(old(s.State()), payer, b)
  {
    var ns := NormalizeStatus(b.status);
    var c := CreditsOf(b.credits);
    var existing := L.FindPayment(s.txs, b.transactionId);
    var row := if existing.Some? then s.txs[existing.value] else PurchaseRow(payer, b);
    var setup := if s.users[payer].accountStatus == U.PendingSetup then Some(payer) else None;
    var st: Option<T.TxStatus>;
    if ns == "approved" {
      st := Some(T.Completed);
    } else if ns == "cancelled" || ns == "refunded" {
      st := Some(T.Failed);
    } else {
      st := T.ParseTxStatus(ns);
    }
    if st.None? {
      return Failure(500, Message(InternalError));
    }
    if ns == "approved" {
      s.users := s.users[payer := s.users[payer].(credits := s.users[payer].credits + c)];
      row := row.(amount := c);
    }
    row := row.(status := st.value);
    if existing.Some? {
      s.txs := s.txs[existing.value := row];
    } else {
      s.txs := s.txs + [row];
    }
    r := Success(200, Reconciled(b.transactionId, payer, st.value, setup));
  }

  /** The handler as the source runs it. */
  method AppMaxWebhook(s: L.Store, envSecret: Option<string>, b: AppMaxBody, emailPattern: string -> bool, tempPassword: string)
      returns (r: Reply<Reconciled>)
    modifies s
    ensures (s.State(), r) == Reconcile(old(s.State()), envSecret, b, emailPattern, tempPassword)
  {
    if b.secret != envSecret {
      return Failure(403, Message(BadSecret));
    }
    var payer := FindOrProvisionPayer(s, b, emailPattern, tempPassword);
    if payer.Failure? {
      return Failure(payer.code, payer.error);
    }
    r := ApplyPayment(s, payer.value, b);
  }
}
